=== FILE: README.md ===
# Temporary files, lock files, `ls-files`, `worktree`, LS_COLORS and ref-filter, in Dafny

This project models six pieces of an early Git code base and proves what
they promise. Each piece is described below.

**Temporary files** (`tempfile.c`)
- A process keeps a list of registered `struct tempfile` objects.
- `create_tempfile`, `register_tempfile`, `mks_tempfile_sm` and
  `mks_tempfile_tsm` bring an object onto that list and make it active.
- `fdopen`, `close`, `reopen`, `rename` and `delete` move it through its
  states.
- At exit, or on a signal, every active file the process owns is removed.
- The model is a `Process` class. It holds the list, a file system
  (`map<Path, Bytes>`), the open descriptors with their offsets, `errno`,
  and how often the exit and signal hooks were installed.
- `unlink` can fail: the process is given the paths it cannot remove,
  each with the errno it reports, and such a file stays.

**Lock files** (`lockfile.h`)
- A lock is a temporary file named `<path>.lock`, opened with `O_EXCL`.
- Committing renames it onto `<path>`. Rolling back removes it.
- Exiting before a commit or a rollback removes the lock file too.
- The model proves these sequences on the `Process` model, including a
  second holder that is refused and a lock reused after a rollback.

**LS_COLORS** (`ls_colors.c`)
- `get_funky_string` decodes the escape language of LS_COLORS values:
  backslash escapes, octal, hexadecimal and caret escapes.
- `parse_ls_color` fills the colour table and the extension list.
- `ls_colors_config` handles `color.ls.*` keys.
- `color_filename` chooses a colour by file type or extension.
- The decoder is a state-machine method over a `char` array. It is proved
  equal to a recursive decoding function, and an escaping function is
  proved to be its inverse.

**ref-filter** (`ref-filter.c`)
- Parsing atoms and format strings, including the `%(atom)` scanner and
  `%xx` output escapes.
- Header-line extraction (`find_wholine`, `copy_*`).
- The `flag`, `track` and `trackshort` values.
- The `--contains` walk with its commit marks.
- Path-prefix matching of ref names.
- The `--merged` filter, which compacts an array in place.
- The sort comparator and the `--sort` option.

**`git ls-files`** (`builtin/ls-files.c`)
- The type indicator and the "assume valid" tag.
- Option defaults and the compact listing of index entries.
- Pruning the sorted index to a prefix (`prune_cache`).
- Overlaying a tree on the index (`overlay_tree_on_cache`).
- The killed-files test.

**`git worktree`** (`builtin/worktree.c`)
- `worktree_basename` and the worktree identifier.
- The option handling of `add` and the search for a unique name under
  `worktrees/`.
- The `prune_worktree` decision.
- The `remove_junk` clean-up guard.

Two modules are shared:
- `Common` has an option type, C-string helpers and decimal formatting
  (`%d`).
- `LsFilesIndex` has the index order (`cache_name_compare`) and the
  `Index` class over an `array<CacheEntry>` used by `prune_cache`,
  `overlay_tree_on_cache` and `show_killed_files`.

Where the source calls something outside this core, the model takes the
answer as a parameter. Examples:
- the error an `open(2)` returns;
- whether `lstat` failed;
- what `match_pathspec` answers;
- the commit graph.

## Model

| member | source | states |
|---|---|---|
| Common.StrChr | builtin/ls-files.c:176 | `strchr`: a found position holds the character with neither it nor a NUL before it; not found means every occurrence lies after a NUL |
| Common.IndexOf | ref-filter.c:88-92 | the first position holding the key, or none when no position holds it (also the label search of ls_colors.c:396-397) |
| Common.NatToString | builtin/worktree.c:223 | `%d` of a non-negative counter: at least one character, all digits, and a leading 0 only for the counter 0 |
| Common.DigitsValueOfNatToString | builtin/worktree.c:223 | reading the digits back gives the counter |
| Common.NatToStringInjective | builtin/worktree.c:220-224 | different counters are printed differently |
| Tempfile.AbsolutePath | tempfile.c:67 | the result is never empty; a path that starts with '/' is kept as it is; any other path ends the result |
| Tempfile.AbsolutePathMeaning | tempfile.c:67 | in a working directory (absolute, without a trailing '/', the root being the empty string) a relative path becomes an absolute one: the directory, exactly one '/', then the path, with no doubled separator where they meet |
| Tempfile.AbsolutePathInRoot | tempfile.c:67 | in the root directory the file "x" is "/x", with no doubled separator; in "/home" it is "/home/x" |
| Tempfile.Overwrite | tempfile.c:68 | writing at an offset keeps the bytes before it, places the data there, keeps the bytes after it, and appends at end of file |
| Tempfile.MkstempsName | tempfile.c:100 | a name is produced exactly when the template has six characters before a non-negative suffix length; it has the template's length |
| Tempfile.Tempfile.constructor | tempfile.c:34-60 | a zero-initialised object: not active, not on the list, no name |
| Tempfile.OwnedActiveNamesMembers | tempfile.c:7-20 | a name is owed removal exactly when some listed object owned by this pid is active with that name |
| Tempfile.Process.constructor | tempfile.c:5 | a process in a working directory (absolute, without a trailing '/') starts with an empty list, no open files and no hooks installed |
| Tempfile.Process.OpenExclusive | tempfile.c:68 | `O_CREAT|O_EXCL` fails with EEXIST on an existing path and otherwise creates an empty file with a fresh descriptor at offset 0 |
| Tempfile.Process.OpenWrite | tempfile.c:197 | `O_WRONLY` fails with ENOENT on a missing path and otherwise opens it at offset 0 without changing it |
| Tempfile.Process.CloseFd | tempfile.c:176-178 | closing drops the descriptor and reports the given error; a stream close counts an `fclose` |
| Tempfile.Process.Unlinked | tempfile.c:227 | the file system after an `unlink`: a removable path is gone and nothing else changes; an unremovable one leaves it as it was |
| Tempfile.Process.Unlink | tempfile.c:227 | a missing path fails with ENOENT; an unremovable path stays and sets its errno; any other path is removed and nothing else changes |
| Tempfile.Process.Rename | tempfile.c:209 | a successful rename moves the contents to the new name and removes the old; a failed one changes nothing |
| Tempfile.Process.Write | lockfile.h:50-54 | a write through a descriptor overwrites at its offset and advances the offset by the length written |
| Tempfile.Process.RegisterObject | tempfile.c:34-60 | an object not yet on the list is reset and put at its head; the exit and signal hooks are installed when the list was empty |
| Tempfile.Process.OpenRegistered | tempfile.c:68-74 | on success the object is active, owned by this pid and holds the new descriptor; on failure its name is cleared and the descriptor is -1 |
| Tempfile.Process.CreateTempfile | tempfile.c:63-83 | for a non-empty path (an empty one is fatal), creates the absolute name exclusively; when fixing permissions fails, the file is unlinked again (it stays only if it cannot be removed) and -1 is returned |
| Tempfile.Process.RegisterTempfile | tempfile.c:85-92 | for a non-empty path, the object becomes active under the absolute name, owned by this pid, with no file opened |
| Tempfile.Process.Mkstemps | tempfile.c:100 | a usable template has its six letters filled in and is created exclusively; an unusable one fails with EINVAL and creates nothing |
| Tempfile.Process.MkstempsRegistered | tempfile.c:100-107 | the registered object is filled in from the template and created exclusively; on success it is active and owned by this pid, on failure inactive with the file system unchanged |
| Tempfile.Process.MksTempfileSm | tempfile.c:94-108 | a temporary file is created from the absolute form of a non-empty template |
| Tempfile.Process.MksTempfileTsm | tempfile.c:110-130 | the template is placed under $TMPDIR, or under /tmp when that is unset |
| Tempfile.Process.FdopenTempfile | tempfile.c:147-157 | a stream exists exactly when the descriptor is open and `fdopen` succeeds; a closed descriptor gives EBADF |
| Tempfile.Process.CloseTempfile | tempfile.c:159-189 | a closed object is left alone; otherwise the descriptor and stream are closed, and a failed close unlinks the file, makes the object inactive and returns -1 |
| Tempfile.Process.ReopenTempfile | tempfile.c:191-199 | the file is reopened for writing at offset 0, or -1 is returned with errno set |
| Tempfile.Process.RenameTempfile | tempfile.c:201-219 | on success the file moves to `path`; on any failure it is unlinked (it stays only if it cannot be removed); the object is inactive afterwards either way |
| Tempfile.Process.DeleteTempfile | tempfile.c:221-231 | an active object's file is closed and unlinked and the object is made inactive even when the removal fails; an inactive one is a no-op |
| Tempfile.Process.CleanupEntry | tempfile.c:12-17 | only entries owned by this process are deleted; with `skip_fclose` no `fclose` is made |
| Tempfile.Process.RemoveTempfiles | tempfile.c:7-20 | the list is emptied and exactly the active files owned by this pid that can be removed leave the file system |
| Tempfile.Process.CleanupNext | tempfile.c:11-19 | one registry entry is cleaned up and unlinked: an owned file is closed and forgotten and its name is unlinked, another process's entry is left untouched |
| Tempfile.Process.RemoveTempfilesOnExit | tempfile.c:22-25 | at exit every owned active temporary file that can be removed is removed |
| Tempfile.Process.RemoveTempfilesOnSignal | tempfile.c:27-32 | on a signal the same files are removed without any `fclose` |
| Lockfile.LockName | lockfile.h:113-114 | the lock name is the path followed by ".lock", five characters longer |
| Lockfile.LockedFilePath | lockfile.h:194-198 | removing the suffix gives back the path whose lock name it is |
| Lockfile.LockedFilePathOfLockName | lockfile.h:194-198 | `get_locked_file_path` inverts the lock name |
| Lockfile.LockTarget | lockfile.h:132-142 | with LOCK_NO_DEREF the path itself is locked; otherwise the resolved path is |
| Lockfile.AbsoluteLockName | lockfile.h:9-16 | making the lock name absolute commutes with adding ".lock" |
| Lockfile.LockFileName | lockfile.h:132-142 | the lock file is the absolute form of the target followed by ".lock" |
| Lockfile.LockFileNameMeaning | lockfile.h:132-142 | in a working directory the lock file is an absolute path, and the file it protects is the absolute form of the target |
| Lockfile.BackoffMs | lockfile.h:146-148 | the wait before retry n is at least n squared milliseconds (quadratic backoff) |
| Lockfile.LockFile.constructor | lockfile.h:40-45 | a zero-initialised lock object |
| Lockfile.LockFileOnce | lockfile.h:9-16 | one attempt: the lock file is created empty and held by this process, or the attempt fails with EEXIST when it exists, or with the open error, or with the permission error after unlinking the new file |
| Lockfile.RetryLockFile | lockfile.h:144-149 | one retry after a competing holder may have released: the lock is held with an empty lock file, or the attempt fails leaving everything but the lock file as it was; EEXIST means the holder had not released |
| Lockfile.LockFileTimeout | lockfile.h:144-151 | a timeout of 0 makes exactly one attempt; an EEXIST failure comes only from that attempt or after waiting at least a positive timeout; any other failure is the open or permission error |
| Lockfile.HoldLockFileForUpdateTimeout | lockfile.h:144-154 | the lock is held, or the failure is fatal exactly when LOCK_DIE_ON_ERROR is set; EEXIST is reported only for a non-negative timeout |
| Lockfile.HoldLockFileForUpdate | lockfile.h:156-166 | a single attempt: the lock is held, or it fails with EEXIST when the lock file exists, or with the open or permission error; failure is fatal exactly under LOCK_DIE_ON_ERROR |
| Lockfile.HoldLockFileForAppend | lockfile.h:168-175 | the lock file starts as a copy of the locked file (empty when that is missing) with the write offset at its end; when opening or reading that file fails, the lock is rolled back and the error returned, or under LOCK_DIE_ON_ERROR the process dies still holding it |
| Lockfile.CommitLockFileTo | lockfile.h:211-215 | the lock file's contents move to `path` and the lock is released; a failed close or rename unlinks the lock file and returns -1 |
| Lockfile.CommitLockFile | lockfile.h:200-209 | the lock file's contents replace the file it locks and the lock is released; a failed close or rename unlinks the lock file and returns -1 |
| Lockfile.RollbackLockFile | lockfile.h:217-223 | the lock file is unlinked and the lock released; rolling back an inactive lock changes nothing |
| LockfileUsage.UpdateAndCommit | lockfile.h:9-16 | lock, write and commit leave the file the lock protects holding exactly the written data and no lock file |
| LockfileUsage.AppendAndCommit | lockfile.h:168-175 | lock-for-append, write and commit leave the old contents followed by the data |
| LockfileUsage.SecondHolderFails | lockfile.h:12-16 | while one object holds the lock, a second attempt fails with EEXIST and the lock file stays |
| LockfileUsage.ExitBeforeCommit | lockfile.h:84-87 | exiting before a commit removes the lock file: the file system is as before, unless the lock file cannot be removed and stays with what was written |
| LockfileUsage.RollbackTwiceThenReuse | lockfile.h:79-82 | a second rollback is a no-op and the object can lock again, exactly when the rollback could remove the lock file |
| LockfileUsage.UnremovableLockStaysTaken | lockfile.h:217-223 | a lock file that cannot be removed survives the rollback, so the next attempt fails with EEXIST |
| LockfileUsage.WaitForever | lockfile.h:148-149 | with timeout -1 the lock is obtained once its holder releases it |
| LsColors.CStr | ls_colors.c:494 | the text a C string function sees: the prefix before the first NUL |
| LsColors.Sgr | ls_colors.c:412-413 | a colour value becomes `ESC [ value m` |
| LsColors.FunkyFrom | ls_colors.c:118-298 | decoding stays within the input, ends where it started when already finished, and stops inside the string when it succeeds |
| LsColors.FunkyStops | ls_colors.c:139-144 | a successful decoding stops at ':', NUL, or '=' when `equals_end` is set |
| LsColors.FunkyOutBound | ls_colors.c:337-343 | the decoded bytes never outnumber the bytes consumed, so the output buffer copied from the input is large enough |
| LsColors.FunkyStep | ls_colors.c:138-290 | one turn of the state machine preserves the decoding still to be done, and makes progress |
| LsColors.Decode | ls_colors.c:118-298 | a decoding stops within one past the end of the input and writes no more bytes than it consumes |
| LsColors.Put | ls_colors.c:118-298 | storing one output byte extends the written part and leaves the buffer before it untouched |
| LsColors.GetFunkyString | ls_colors.c:118-298 | the bytes written, the count, the stop position and the success flag are those of the decoding; the buffer before the output start is untouched |
| LsColors.DecodePlain | ls_colors.c:159-162 | ordinary characters are copied unchanged up to the stop character |
| LsColors.Escape | ls_colors.c:104-117 | escaping never shortens a value |
| LsColors.DecodeEscapedHead | ls_colors.c:166-227 | one escaped character decodes back to itself |
| LsColors.DecodeEscape | ls_colors.c:104-117 | an escaped value followed by ':' decodes to the value and stops at the ':' |
| LsColors.EscapeRoundTrip | ls_colors.c:104-117 | decoding the escaping of any NUL-free value gives the value back |
| LsColors.DecodeOctalTriple | ls_colors.c:229-236 | `\ddd` gives the byte with that octal value, modulo 256 |
| LsColors.DecodeCaret | ls_colors.c:276-286 | `^c` gives c & 037 for '@'..'~', `^?` gives DEL, anything else is an error |
| LsColors.DecodeTrailingBackslash | ls_colors.c:214-216 | a backslash at the end of the string is an error |
| LsColors.IndicatorIndex | ls_colors.c:67-72 | the label's index in the indicator table, or none when the label is not there |
| LsColors.ParseFrom | ls_colors.c:345-425 | the parser keeps the table size and never drops an extension entry |
| LsColors.ParseFromExt | ls_colors.c:354-371 | the extensions present before the parse survive, in order, at the tail of the list; new entries only go on the head |
| LsColors.ParseStarExt | ls_colors.c:362-370 | a `*ext` entry is pushed on the head and everything after it keeps the old list as its tail |
| LsColors.ParseIndicatorExt | ls_colors.c:392-414 | an `xx=value` entry leaves the extension list as it was |
| LsColors.ParseExtValueExt | ls_colors.c:416-423 | setting the sequence of the head extension keeps the rest of the list |
| LsColors.ParseFromFlags | ls_colors.c:345-425 | the symlink-as-referent flag is never cleared, and an error is reported only when parsing stops early |
| LsColors.ParseIndicatorFlags | ls_colors.c:392-414 | the same for an `xx=value` entry: the reported label always comes with a failed parse |
| LsColors.ParseLsColors | ls_colors.c:343-428 | the effect of a whole LS_COLORS value keeps the table size, keeps the old extensions as the tail of the list, sets symlink-as-referent when `ln` is "target" and never clears it, reports an error only on failure, and leaves the state exactly as it was for an empty value (first character NUL), which returns before the `ln` check |
| LsColors.ParseLabel | ls_colors.c:377-390 | two characters after a separator are read as a label |
| LsColors.ParseIndicatorEntry | ls_colors.c:392-414 | `xx=value:` sets slot xx to the escape sequence of the decoded value, or sets symlink-as-referent for `ln=target` |
| LsColors.ParseUnknownLabel | ls_colors.c:396-407 | an unknown label followed by '=' stops the parse and is reported |
| LsColors.ParseMissingEquals | ls_colors.c:392-395 | a label not followed by '=' stops the parse without any report, known or not |
| LsColors.ParseBadValue | ls_colors.c:399-407 | a known label whose value does not decode stops the parse and is reported |
| LsColors.Lower | ls_colors.c:307 | case folding keeps the length and lowers each letter |
| LsColors.ConfigSlot | ls_colors.c:300-310 | a key selects a slot only under `color.ls.` and only when its lower-cased rest is a slot name |
| LsColors.ConfigSlotOfName | ls_colors.c:74-81 | each named slot is selected by its own name |
| LsColors.ConfigNamesDistinct | ls_colors.c:74-81 | the non-empty slot names are distinct, so the search finds the right slot |
| LsColors.ConfigSlotEmpty | ls_colors.c:74-75 | the bare key `color.ls.` matches the empty name of slot 0 |
| LsColors.ColorType | ls_colors.c:438-473 | the colour slot chosen for a mode is a slot of the table |
| LsColors.FindExt | ls_colors.c:475-486 | the first extension entry that is a suffix of the name, or none when no entry is |
| LsColors.FindExtScan | ls_colors.c:475-486 | a front-to-back scan that stops at the first suffix entry, or finds none, agrees with the first-match definition |
| LsColors.ColorTypeRegular | ls_colors.c:438-445 | exactly the regular files get the file, executable, setuid or setgid colour; without set-id bits a file is executable exactly when an execute bit is set |
| LsColors.ColorTypeDirectory | ls_colors.c:446-454 | directories are coloured by the sticky and other-writable bits, one slot per combination |
| LsColors.ColorTypeSymlink | ls_colors.c:455-456 | a broken symlink gets the orphan colour exactly when one is set |
| LsColors.ColorTypeSpecial | ls_colors.c:457-473 | submodules, fifos, sockets, block and character devices each get their own slot exactly for their type; any other type gets the orphan colour |
| LsColors.ColoredNameShape | ls_colors.c:488-497 | the output is the shown name alone, or the shown name after a non-empty colour and before a reset; it always exists for files that are not plain, or when no extension matches |
| LsColors.LsColorTable.constructor | ls_colors.c:37-65 | the table starts as the default colours with no extensions |
| LsColors.LsColorTable.Snapshot | ls_colors.c:94-102 | the parser's view of the table holds exactly the object's colours, extensions and symlink flag |
| LsColors.LsColorTable.ParseExtension | ls_colors.c:354-371 | `*ext` adds an extension entry at the head of the list, as the parse function says |
| LsColors.LsColorTable.ParseIndicator | ls_colors.c:392-414 | `xx=value` updates the table as the parse function says; the label is reported exactly when the parse fails after an '=' |
| LsColors.LsColorTable.ParseExtensionValue | ls_colors.c:416-423 | `=value` after an extension sets its sequence as the parse function says |
| LsColors.LsColorTable.ParseLsColor | ls_colors.c:317-430 | with LS_COLORS unset or empty nothing changes; otherwise the table, extensions and symlink flag are those of parsing the value |
| LsColors.LsColorTable.LsColorsConfig | ls_colors.c:300-315 | a known slot with a value is set to the parsed colour; a known slot without a value is an error; anything else is ignored |
| LsColors.ColoredName | ls_colors.c:488-497 | the output, when there is one, is the shown name alone or ends with the shown name and a reset; there is none only when an extension matches the name |
| LsColors.LsColorTable.ColorFilename | ls_colors.c:432-498 | the appended text is the coloured name for the mode, link state and extensions |
| RefFilterFormat.ValidAtomAt | ref-filter.c:16-56 | every entry of the valid-atom table has a non-empty name that does not start with the deref marker `*` |
| RefFilterFormat.ColonIndex | ref-filter.c:103-105 | the position of the first ':' or the end of the name |
| RefFilterFormat.BaseNameMeaning | ref-filter.c:97-106 | the atom name checked against the table is the part before the first ':' |
| RefFilterFormat.AtomIndexFrom | ref-filter.c:95-108 | a search result is an index into the valid-atom table |
| RefFilterFormat.FindValidAtom | ref-filter.c:95-108 | the table search loop finds the first entry with that name |
| RefFilterFormat.LookupAtom | ref-filter.c:81-111 | the valid atom an atom text names is an index into the table |
| RefFilterFormat.AtomIndexFromMeaning | ref-filter.c:95-111 | the search finds an entry with exactly that name, or there is none |
| RefFilterFormat.DerefIgnored | ref-filter.c:81-83 | a leading `*` changes neither validity nor the comparison type |
| RefFilterFormat.FormatSuffixIgnored | ref-filter.c:97-106 | a `:format` suffix changes neither validity nor the comparison type |
| RefFilterFormat.ColonIndexAt | ref-filter.c:103-105 | the colon position is the first ':' |
| RefFilterFormat.AddAtom | ref-filter.c:76-124 | a found atom is recorded at its index in the used table |
| RefFilterFormat.AddAtomWellFormed | ref-filter.c:113-123 | adding keeps the used table and its types aligned and the need flags consistent |
| RefFilterFormat.AddAtomOutcome | ref-filter.c:81-111 | parsing fails exactly for an invalid atom, as "malformed" exactly when the name is empty; a known atom reuses its slot; a new one gets the next slot |
| RefFilterFormat.AddAtomIdempotent | ref-filter.c:87-92 | parsing the same atom twice changes nothing the second time |
| RefFilterFormat.AtomTable.constructor | ref-filter.c:68-71 | no atom used and no reset needed |
| RefFilterFormat.AtomTable.ParseAtom | ref-filter.c:76-124 | the table and result are those of adding the atom |
| RefFilterFormat.AtomTable.FindUsed | ref-filter.c:87-92 | the first used slot holding the atom, or none |
| RefFilterFormat.AtomTable.VerifyRefFormat | ref-filter.c:153-172 | the final table, reset flag and verdict are those of verifying the whole format |
| RefFilterFormat.AtomTable.VerifyNextAtom | ref-filter.c:158-169 | one atom of the format is processed without changing the outcome of the rest |
| RefFilterFormat.NextAtom | ref-filter.c:130-147 | a result is a position holding `%(` |
| RefFilterFormat.FindNext | ref-filter.c:130-147 | the scanning loop finds what the scan function finds |
| RefFilterFormat.PercentRunCut | ref-filter.c:140-141 | the count of '%' before a position depends only on the run ending there |
| RefFilterFormat.PercentRunPair | ref-filter.c:140-141 | `%%` is skipped as a pair, keeping the parity of the run |
| RefFilterFormat.NextAtomIsFirstOpener | ref-filter.c:127-147 | the scanner finds the first `%(` that is not escaped by `%%` before the end of the string, and none when there is none |
| RefFilterFormat.FormatAtoms | ref-filter.c:158-166 | the atoms are the texts between `%(` and `)`, none holding a `)`; an unclosed atom is reported at a `%(` at or after the start |
| RefFilterFormat.FormatAtomsStep | ref-filter.c:158-166 | the atoms of a format are the text between `%(` and the next `)`, then the atoms after it |
| RefFilterFormat.RegisterAtoms | ref-filter.c:158-170 | registering atoms either succeeds or stops at an atom error |
| RefFilterFormat.RegisterAtomsStep | ref-filter.c:165-169 | registering a list is registering its head and then its tail |
| RefFilterFormat.VerifyStep | ref-filter.c:158-169 | a valid atom is added and the scan continues after its `)` |
| RefFilterFormat.VerifyStop | ref-filter.c:158 | with no further `%(` the format is accepted |
| RefFilterFormat.VerifyUnclosed | ref-filter.c:162-163 | a `%(` without a `)` is a malformed format |
| RefFilterFormat.VerifyFails | ref-filter.c:165 | an invalid atom ends verification with its error |
| RefFilterFormat.LastColorResetCons | ref-filter.c:168-169 | the reset flag is decided by the last colour atom |
| RefFilterFormat.RegisterAtomsTable | ref-filter.c:113-119 | registering keeps the table well formed and only appends to it |
| RefFilterFormat.RegisterAtomsOk | ref-filter.c:153-172 | registering succeeds exactly when every atom is valid |
| RefFilterFormat.RegisterAtomsMeaning | ref-filter.c:153-172 | when registering succeeds, each atom is in the table and the last colour atom decides the reset |
| RefFilterFormat.VerifyFormatMeaning | ref-filter.c:149-172 | a format is accepted exactly when every `%(` is closed and every atom is valid; then all its atoms are in the table and the last colour atom decides the reset |
| RefFilterFormat.VerifyFormat | ref-filter.c:149-172 | a malformed format is reported at the position of the `%(` that has no `)` |
| RefFilterFormat.Hex1 | ref-filter.c:1219-1228 | the value of a hexadecimal digit, and -1 exactly for other characters |
| RefFilterFormat.ShiftOr | ref-filter.c:1232 | `(a << 4) \| b` is non-negative exactly when both digits are, and is then their byte value |
| RefFilterFormat.Hex2 | ref-filter.c:1229-1235 | two characters give a byte exactly when both are hexadecimal digits |
| RefFilterFormat.Emit | ref-filter.c:1237-1255 | the output loop emits what the emit function describes |
| RefFilterFormat.EmitFromShorter | ref-filter.c:1237-1255 | decoding never lengthens the text: at most one character out per character in, and nothing at a NUL |
| RefFilterFormat.EncodeByte | ref-filter.c:1244-1247 | a byte's escape is three characters starting with '%' |
| RefFilterFormat.PercentEncode | ref-filter.c:1237-1255 | encoding triples the length |
| RefFilterFormat.HexDigitValue | ref-filter.c:1219-1228 | each lower-case hexadecimal digit reads back as its value |
| RefFilterFormat.EmitPercentEncode | ref-filter.c:1237-1255 | emitting a `%xx`-encoded string gives back the bytes, then emits the rest |
| RefFilterFormat.EmitHexEscape | ref-filter.c:1243-1249 | `%` and two hexadecimal digits emit one byte |
| RefFilterFormat.EmitEncodedByte | ref-filter.c:1243-1249 | a byte's escape emits that byte |
| RefFilterFormat.EmitPercentEncodeHead | ref-filter.c:1243-1249 | the encoding of a non-empty string emits its first byte, then what the encoding of the remaining bytes emits |
| RefFilterFormat.EmitShift | ref-filter.c:1237-1255 | emitting depends only on the text from the current position |
| RefFilterFormat.EmitShiftAt | ref-filter.c:1237-1255 | the same at any offset into that text |
| RefFilterFormat.EmitPlain | ref-filter.c:1252-1253 | text without '%' or NUL is emitted unchanged up to the end position |
| RefFilterValues.WholineFrom | ref-filter.c:302-318 | a header value found starts past `who` and its space, within the buffer |
| RefFilterValues.FindWholine | ref-filter.c:302-318 | the loop returns what the header search function returns |
| RefFilterValues.WholineComplete | ref-filter.c:302-318 | a line is found exactly when some header line starts with `who` and a space |
| RefFilterValues.WholineFirst | ref-filter.c:305-308 | the line found is the first header line that matches |
| RefFilterValues.NoNewlineOneLine | ref-filter.c:309-311 | without a newline the buffer is one header line |
| RefFilterValues.EmptyLineEndsHeader | ref-filter.c:312-314 | an empty line ends the header |
| RefFilterValues.NextHeaderLine | ref-filter.c:309-315 | the header lines after the first are those of the rest of the buffer |
| RefFilterValues.LineEnd | ref-filter.c:322 | the first newline or NUL, or the end |
| RefFilterValues.CopyLine | ref-filter.c:320-324 | the copy is the start of the text up to, and not including, the line end |
| RefFilterValues.NameEnd | ref-filter.c:329-331 | the first " <" on the line, or none when the line has none |
| RefFilterValues.CopyName | ref-filter.c:326-334 | the name is the text before the first " <" on the line, or empty |
| RefFilterValues.EmailSpan | ref-filter.c:338-344 | the first '<' and the first '>' after it, with no NUL before either |
| RefFilterValues.EmailSpanNone | ref-filter.c:340-344 | there is no e-mail exactly when every '<'…'>' pair has a NUL before the '>' |
| RefFilterValues.CopyEmail | ref-filter.c:336-346 | the copy is empty or starts with '<', ends with '>' and has no '>' inside |
| RefFilterValues.CopySubject | ref-filter.c:348-358 | a fresh copy of the first `len` bytes with every newline turned into a space |
| RefFilterValues.FlagValue | ref-filter.c:664-676 | the flag value is empty exactly when the ref is neither a symref nor packed; "symref" comes first and "packed" last when present |
| RefFilterValues.FlagValueJoins | ref-filter.c:664-676 | the flag value is "symref" and "packed", as present, joined by commas |
| RefFilterValues.TrackValue | ref-filter.c:710-722 | the track value is empty exactly when the branch is even |
| RefFilterValues.TrackValueWords | ref-filter.c:710-722 | it starts with "[ahead " exactly when ahead, and with "[behind " exactly when only behind |
| RefFilterValues.TrackShortValue | ref-filter.c:733-740 | "=" exactly when even; contains '<' exactly when behind, '>' exactly when ahead |
| RefFilterValues.TrackValueInjective | ref-filter.c:710-722 | different ahead/behind counts always print differently |
| RefFilterValues.BehindInjective | ref-filter.c:712-714 | "[behind n]" determines n |
| RefFilterValues.AheadForm | ref-filter.c:715-721 | an ahead value is "[ahead " then the count then the rest |
| RefFilterValues.AheadInjective | ref-filter.c:715-721 | an ahead value determines both counts |
| RefFilterValues.AheadTailInjective | ref-filter.c:715-721 | the part after the ahead count determines the behind count |
| RefFilterValues.TrackShortAgrees | ref-filter.c:701-741 | `trackshort` says "=" exactly when `track` is empty, and "<" exactly when `track` says behind |
| RefFilterValues.PrefixMatchAsWritten | ref-filter.c:940-946 | as written, a match means the pattern starts the ref name, and a pattern equal to the name always matches |
| RefFilterValues.EmptyPatternReadsOutside | ref-filter.c:942-946 | as written, the empty pattern matches "refs/heads/main" when the byte before it is '/' and not when it is 'x' |
| RefFilterValues.PathPrefixMatch | ref-filter.c:940-946 | the corrected test matches only patterns that start the ref name, and always matches the name itself |
| RefFilterValues.PathPrefixMatchMeaning | ref-filter.c:929-947 | a pattern matches as a path prefix exactly when it equals the ref name, is followed by '/' in it, or ends in '/' and is a prefix of it |
| RefFilterValues.PathPrefixAgrees | ref-filter.c:942-946 | for non-empty patterns the corrected test equals the test as written |
| RefFilterValues.MatchNameAsPath | ref-filter.c:935-952 | a ref matches exactly when some pattern matches as a path prefix or as a wildcard |
| RefFilterSort.StrCmpFrom | ref-filter.c:1158 | `strcmp` from a position gives -1, 0 or 1 |
| RefFilterSort.StrCmp | ref-filter.c:1158 | `strcmp` gives -1, 0 or 1 |
| RefFilterSort.StrCmpFromAntisymmetric | ref-filter.c:1158 | swapping the arguments negates the result |
| RefFilterSort.StrCmpFromZero | ref-filter.c:1158 | 0 exactly when the C strings agree from that position |
| RefFilterSort.StrCmpZero | ref-filter.c:1158 | 0 exactly when the C strings are equal |
| RefFilterSort.StrCmpFromSubst | ref-filter.c:1158 | equal strings compare alike against a third |
| RefFilterSort.StrCmpFromTransitive | ref-filter.c:1158 | the order is transitive |
| RefFilterSort.CmpRefSorting | ref-filter.c:1148-1170 | one key compares to -1, 0 or 1 |
| RefFilterSort.CmpRefSortingMeaning | ref-filter.c:1160-1167 | numeric keys are equal exactly when the values are, and below exactly when the value is smaller, or larger for a reversed key |
| RefFilterSort.CmpRefSortingStrEqual | ref-filter.c:1157-1158 | string keys compare equal exactly when the values are equal |
| RefFilterSort.CmpRefSortingReverse | ref-filter.c:1169 | `-key` reverses the comparison |
| RefFilterSort.CmpRefSortingAntisymmetric | ref-filter.c:1148-1170 | swapping the refs negates the comparison |
| RefFilterSort.CmpRefSortingSubst | ref-filter.c:1148-1170 | refs equal under a key compare alike against a third |
| RefFilterSort.CmpRefSortingTransitive | ref-filter.c:1148-1170 | the order under a key is transitive |
| RefFilterSort.CompareKeys | ref-filter.c:1173-1185 | the comparison over all keys is -1, 0 or 1 |
| RefFilterSort.CompareRefs | ref-filter.c:1173-1185 | the key loop returns what the multi-key comparison says |
| RefFilterSort.CompareKeysFirstDifference | ref-filter.c:1179-1184 | refs are equal exactly when every key says so; otherwise the first key that differs decides |
| RefFilterSort.CompareKeysAntisymmetric | ref-filter.c:1187-1191 | the comparator given to qsort is antisymmetric |
| RefFilterSort.CompareKeysSubst | ref-filter.c:1187-1191 | refs the comparator calls equal compare alike against any third |
| RefFilterSort.CompareKeysTransitive | ref-filter.c:1187-1191 | the comparator is transitive, so it is a total preorder as qsort requires |
| RefFilterSort.SortSpec | ref-filter.c:1311-1314 | a leading '-' means reverse and is removed; nothing else is |
| RefFilterSort.SortStep | ref-filter.c:1298-1318 | a `--sort` argument adds a key at the head of the list naming its atom; no argument gives -1 and changes nothing |
| RefFilterSort.ApplySortArgs | ref-filter.c:1298-1318 | when every `--sort` argument names a valid atom, each adds exactly one key |
| RefFilterSort.SortArgsReversed | ref-filter.c:1307-1309 | several `--sort` options give keys in reverse order of the options, ahead of the earlier keys |
| RefFilterSort.SortArgsShift | ref-filter.c:1307-1309 | the keys of the later options followed by the first option's key are the keys of all options in reverse |
| RefFilterSort.SortArgsHead | ref-filter.c:1307-1309 | keys already in the list keep naming the same atoms |
| RefFilterSort.SortingList.constructor | ref-filter.c:1300 | an empty key list |
| RefFilterSort.SortingList.ParseOptRefSorting | ref-filter.c:1298-1318 | the key list and atom table change as one option step says |
| RefFilterSort.RefnameIsValid | ref-filter.c:20 | "refname" is the first valid atom |
| RefFilterSort.RefDefaultSorting | ref-filter.c:1286-1296 | the default sort is one ascending key on "refname" |
| RefFilterSort.Kept | ref-filter.c:1101-1111 | the kept refs are no more than the original |
| RefFilterSort.KeptSound | ref-filter.c:1105-1108 | every kept ref was in the array and has the wanted merged state |
| RefFilterSort.KeptSnoc | ref-filter.c:1107-1110 | each step keeps one more ref exactly when its merged state matches |
| RefFilterSort.KeptComplete | ref-filter.c:1107-1108 | every ref with the wanted merged state is kept |
| RefFilterSort.KeptConcat | ref-filter.c:1101-1111 | filtering distributes over concatenation, so order is kept |
| RefFilterSort.KeptPartition | ref-filter.c:1105-1110 | the merged and unmerged refs together are exactly the original, as a multiset |
| RefFilterSort.RefArray.MergeFilter | ref-filter.c:1098-1111 | after compaction the array holds exactly the kept refs, in order |
| RefFilterSort.RefArray.KeepStep | ref-filter.c:1102-1110 | one element of compaction keeps the kept prefix and leaves the unvisited part alone |
| RefFilterSort.RefArray.Clear | ref-filter.c:1064-1073 | the array is emptied |
| RefFilterContains.Contains | ref-filter.c:850-873 | a commit contains a wanted commit only if some wanted commit is no newer than it in the graph's order |
| RefFilterContains.ContainsHasWalk | ref-filter.c:850-853 | a commit contains a wanted one only through a parent walk that ends there |
| RefFilterContains.WalkContains | ref-filter.c:850-853 | a parent walk to a wanted commit means containment |
| RefFilterContains.ContainsIffWalk | ref-filter.c:850-853 | containment is exactly reachability of a wanted commit |
| RefFilterContains.UnmarkedShrinks | ref-filter.c:898-907 | marks only accumulate, and marking a commit shrinks the unmarked count |
| RefFilterContains.ContainsCache.constructor | ref-filter.c:882-885 | no commit is marked at first |
| RefFilterContains.ContainsCache.InCommitList | ref-filter.c:842-848 | true exactly when the commit is wanted |
| RefFilterContains.ContainsCache.ContainsTest | ref-filter.c:854-873 | yes and no are correct answers; unknown exactly for an unmarked, unwanted, parsable commit; only this commit's mark changes |
| RefFilterContains.ContainsCache.ContainsTagAlgo | ref-filter.c:882-920 | the walk always reaches an answer, and it is yes exactly when the candidate contains a wanted commit |
| RefFilterContains.ContainsCache.ContainsStep | ref-filter.c:892-917 | one turn of the walk keeps the stack invariant and strictly lowers the number of unmarked commits, so the walk ends |
| RefFilterContains.ContainsCache.NextEntry | ref-filter.c:910-915 | a parent known not to contain is skipped by advancing; an undecided one is pushed; the stack invariant is kept |
| RefFilterContains.ContainsCache.PopEntry | ref-filter.c:897-909 | a decided top entry is marked and popped, lowering the number of unmarked commits |
| RefFilterContains.ContainsCache.TestKeepsStack | ref-filter.c:905 | testing a parent keeps the stack invariant |
| RefFilterContains.ContainsCache.PopKeepsStack | ref-filter.c:899 | popping keeps the stack invariant |
| RefFilterContains.ContainsCache.AdvanceKeepsStack | ref-filter.c:911 | moving to the next parent keeps the stack invariant |
| RefFilterContains.ContainsCache.PushKeepsStack | ref-filter.c:914 | pushing an undecided parent keeps the stack invariant |
| LsFilesIndex.NameLessIrreflexive | builtin/ls-files.c:526-548 | the index order is irreflexive |
| LsFilesIndex.NameLessAsymmetric | builtin/ls-files.c:526-548 | the index order is asymmetric |
| LsFilesIndex.NameLessTotal | builtin/ls-files.c:526-548 | any two different names are ordered |
| LsFilesIndex.NameLessTransitive | builtin/ls-files.c:526-548 | the index order is transitive |
| LsFilesIndex.PrefixNotBelow | builtin/ls-files.c:538-546 | a name with the prefix does not sort before the prefix |
| LsFilesIndex.PrefixRunFirst | builtin/ls-files.c:538-546 | in a sorted index the names with the prefix form one run |
| LsFilesIndex.EntryLessTransitive | builtin/ls-files.c:526-548 | the entry order (name, then stage) is transitive |
| LsFilesIndex.LowerBound | builtin/ls-files.c:528-532 | the insertion point lies within the index |
| LsFilesIndex.LowerBoundAbove | builtin/ls-files.c:528-532 | every entry before the insertion point sorts below the key |
| LsFilesIndex.CacheNamePosMeaning | builtin/ls-files.c:181-184 | the position is non-negative exactly when a stage-0 entry has that name |
| LsFilesIndex.CacheNamePos | builtin/ls-files.c:181-184 | a non-negative position holds a stage-0 entry with that name; a negative one encodes an insertion point within the index |
| LsFilesIndex.WithPrefix | builtin/ls-files.c:526-548 | pruning never lengthens the index |
| LsFilesIndex.WithPrefixConcat | builtin/ls-files.c:526-548 | pruning distributes over concatenation |
| LsFilesIndex.WithPrefixAll | builtin/ls-files.c:541-543 | an index whose names all have the prefix is kept whole |
| LsFilesIndex.WithPrefixNone | builtin/ls-files.c:545 | an index with no such name prunes to nothing |
| LsFilesIndex.WithPrefixMembers | builtin/ls-files.c:526-548 | the pruned index holds exactly the entries with the prefix, in order |
| LsFilesIndex.PrefixRun | builtin/ls-files.c:538-546 | after the run of prefixed names no name has the prefix |
| LsFilesIndex.BelowPrefix | builtin/ls-files.c:531-535 | no entry before the insertion point has the prefix |
| LsFilesIndex.PruneHead | builtin/ls-files.c:531-535 | dropping the entries before the insertion point loses nothing |
| LsFilesIndex.PruneHeadRun | builtin/ls-files.c:531-535 | after dropping them the prefixed names come first |
| LsFilesIndex.SplitRun | builtin/ls-files.c:538-547 | the binary search's cut leaves exactly the prefixed names |
| LsFilesIndex.LastStage0Is | builtin/ls-files.c:590-597 | the last stage-0 entry seen is the one with that name |
| LsFilesIndex.LastStage0Found | builtin/ls-files.c:590-597 | a stage-0 entry before a position is remembered |
| LsFilesIndex.StageZeroBetween | builtin/ls-files.c:590-597 | in a sorted index every stage-0 entry between a stage-0 entry and a later one of the same name has that name |
| LsFilesIndex.OverlayMarkMeaning | builtin/ls-files.c:598-606 | a stage-1 entry follows a stage-0 entry of its own name exactly when the index has such an entry |
| LsFilesIndex.NextStage0 | builtin/ls-files.c:185-187 | unmerged entries are skipped to the next stage-0 entry |
| LsFilesIndex.KillTestMisses | builtin/ls-files.c:181-200 | as written, "a" is not reported for the index ["a-b", "a/c"] although "a/c" needs "a" to be a directory |
| LsFilesIndex.ExpectsDirMeaning | builtin/ls-files.c:190-199 | the corrected directory test holds exactly when some stage-0 entry lies under the name followed by '/' |
| LsFilesIndex.DirInIndexSplit | builtin/ls-files.c:175-209 | a leading directory in the index is found at the first '/' or a later one |
| LsFilesIndex.KilledFromMeaning | builtin/ls-files.c:175-210 | the corrected test from a position is the leading-directory test or the directory test |
| LsFilesIndex.KilledMeaning | builtin/ls-files.c:167-214 | an untracked path is killed exactly when one of its leading directories is a stage-0 entry, or some stage-0 entry lies under it |
| LsFilesIndex.KilledFromSound | builtin/ls-files.c:175-210 | from any position, either kill test reports a path only when a stage-0 entry is a leading directory of it or lies under it |
| LsFilesIndex.KilledAsWritten | builtin/ls-files.c:167-214 | the test as written reports only paths that conflict with a stage-0 entry |
| LsFilesIndex.Killed | builtin/ls-files.c:167-214 | the corrected test reports only paths that conflict with a stage-0 entry |
| LsFilesIndex.CheckExpectsDir | builtin/ls-files.c:181-200 | the skip-and-compare step decides the corrected directory test: it searches for `name` followed by '/', where line 181 as written searches for `name` alone (see Findings) |
| LsFilesIndex.Index.PruneCache | builtin/ls-files.c:526-548 | the index becomes exactly its entries with the prefix, in order |
| LsFilesIndex.Index.MoveDown | builtin/ls-files.c:533-535 | the `memmove` leaves the entries from the position on at the front |
| LsFilesIndex.Index.RunEnd | builtin/ls-files.c:536-547 | the binary search returns the end of the prefixed run |
| LsFilesIndex.Index.HoistUnmerged | builtin/ls-files.c:572-578 | every unmerged entry moves to stage 3; stage-0 entries and the rest of the array are unchanged |
| LsFilesIndex.Index.MarkOverlay | builtin/ls-files.c:590-608 | exactly the stage-1 entries whose name is that of the last stage-0 entry before them gain CE_UPDATE; nothing else changes |
| LsFilesIndex.Index.ShowKilled | builtin/ls-files.c:167-214 | the result is the corrected kill test |
| LsFiles.AppendIndicator | builtin/ls-files.c:86-108 | at most one character is appended |
| LsFiles.IndicatorIdentifiesType | builtin/ls-files.c:86-108 | the character appended tells the file type back, '*' only for executables; nothing is appended exactly for a non-executable regular file or an unknown type |
| LsFiles.IndicatorIgnoresPermissions | builtin/ls-files.c:89-91 | only the type and whether any execute bit is set matter |
| LsFiles.ToLower | builtin/ls-files.c:302 | `tolower` lowers capitals and keeps everything else |
| LsFiles.AltTagShape | builtin/ls-files.c:297-312 | the first character of the alternative is the lower-cased letter, '!' for '?', or 'v'; a tag starting with anything else becomes exactly 'v', its first character, and a space; the rest of a letter or '?' tag is kept; the tag is kept unchanged exactly when it already starts with a lower-case letter |
| LsFiles.AltTag | builtin/ls-files.c:297-312 | the alternative tag is one to three characters with no NUL |
| LsFiles.ShownTag | builtin/ls-files.c:297-298 | the tag is replaced only when it is non-empty, the valid bit is shown and the entry is marked valid; then a short tag is kept exactly when it starts with a lower-case letter |
| LsFiles.StatusTagIdentifies | builtin/ls-files.c:466-487 | when tags are shown, the tag printed for a file status is one of the standard tags, and different statuses get different tags |
| LsFiles.AltTagOfStandardTags | builtin/ls-files.c:871-881 | for every tag ls-files uses, the alternative differs from all tags and gives the tag back |
| LsFiles.AltTagOfStatusTag | builtin/ls-files.c:871-881 | for a status letter followed by a space, the alternative gives the tag back and is not itself such a tag |
| LsFiles.Pathspec.constructor | builtin/ls-files.c:846 | a pathspec with the given depth |
| LsFiles.Pathspec.MatchPathspecWithDepth | builtin/ls-files.c:261-275 | the match uses the custom depth when given, and the pathspec's depth is restored afterwards |
| LsFiles.DefaultsListSomething | builtin/ls-files.c:862-865 | after the defaults something is always listed |
| LsFiles.DefaultsCachedAndStage | builtin/ls-files.c:814-819 | cached is shown exactly when asked for or no other mode is; stages are shown when asked for or for unmerged outside porcelain |
| LsFiles.DefaultsTag | builtin/ls-files.c:867-870 | an unset tag choice shows tags exactly when more than one mode is listed; a set choice is kept |
| LsFiles.DefaultsFrame | builtin/ls-files.c:862-870 | the defaults change only the cached, stage and tag settings |
| LsFiles.DefaultsIdempotent | builtin/ls-files.c:862-870 | applying the defaults twice is applying them once |
| LsFiles.ApplyDefaults | builtin/ls-files.c:862-870 | after the defaults something is listed and the tag choice is settled, keeping one that was given |
| LsFiles.StageDefault | builtin/ls-files.c:814-819 | stages are shown when asked for, or for -u outside porcelain; nothing else changes |
| LsFiles.CachedDefault | builtin/ls-files.c:862-865 | cached is on when asked for or when no mode is; nothing else changes |
| LsFiles.TagDefault | builtin/ls-files.c:867-870 | an automatic tag choice is settled, a given one kept; nothing else changes |
| LsFiles.TagsDistinct | builtin/ls-files.c:871-881 | when tags are shown, the nine tags are standard and pairwise different, and the cached tag is blank exactly under porcelain |
| LsFiles.OtherStatusesMeaning | builtin/ls-files.c:465-485 | the statuses other than cached never repeat and are empty exactly when the entry is neither removed, diff-cached, modified nor unmerged |
| LsFiles.CompactCachedAlone | builtin/ls-files.c:486-487 | "cached" is shown exactly when asked for and nothing else was shown |
| LsFiles.CompactUnmergedShown | builtin/ls-files.c:482-485 | a listed unmerged entry is always shown as unmerged |
| LsFiles.CompactStatuses | builtin/ls-files.c:465-487 | an entry that is not listed shows nothing, and "cached" is shown only alone and only when asked for |
| LsFiles.ShowFilesCompact | builtin/ls-files.c:434-489 | each entry prints the statuses of the compact listing, and the matched flag is cleared where diff-cached is shown |
| LsFiles.CompactEntry | builtin/ls-files.c:452-487 | one entry's shown statuses and new flags |
| Worktree.StrippedLen | builtin/worktree.c:165-173 | trailing separators are stripped: no longer than the path |
| Worktree.StrippedLenMeaning | builtin/worktree.c:165-173 | only separators were stripped, and the stripped path does not end in one |
| Worktree.BaseScanMeaning | builtin/worktree.c:174-181 | the backward scan stops just after a separator, or at the start, and passes no separator on the way |
| Worktree.BaseStartMeaning | builtin/worktree.c:165-182 | the last component starts at the beginning or after a separator and holds none; an empty or all-separator path gives -1 |
| Worktree.WorktreeBasename | builtin/worktree.c:165-182 | the loop gives the start of the last component and the stripped length |
| Worktree.WorktreeIdMeaning | builtin/worktree.c:213-215 | the identifier is the last component: non-empty, without separators and ending the stripped path |
| Worktree.WorktreeId | builtin/worktree.c:213-215 | the identifier is non-empty and ends the path with its trailing separators stripped |
| Worktree.DefaultBranchKeepsSlash | builtin/worktree.c:339-343 | as written, "wt/topic/" gives the branch name "topic/" |
| Worktree.DefaultBranchAgrees | builtin/worktree.c:339-343 | without a trailing separator the two definitions agree, and the corrected one never ends in a separator |
| Worktree.DefaultBranchAsWritten | builtin/worktree.c:339-343 | as written, an empty or all-separator path gives no name; otherwise the name starts with the identifier |
| Worktree.DefaultBranch | builtin/worktree.c:339-343 | the corrected name is empty exactly for an empty or all-separator path, and otherwise holds no separator after its first character nor at its end |
| Worktree.PrefixFilename | builtin/worktree.c:332 | the path argument is kept when there is no prefix or it is absolute; otherwise it is placed after the prefix |
| Worktree.AddCommand | builtin/worktree.c:310-357 | options that exclude each other are refused exactly when combined; a plan has one or two arguments, a path ending in the first argument, and checks out the branch it creates |
| Worktree.AddInSubdirectory | builtin/worktree.c:332-343 | run in a subdirectory, `add` places the new worktree under it and names the branch after it |
| Worktree.AddCommandMeaning | builtin/worktree.c:325-357 | -b, -B and --detach exclude each other; one or two arguments; the path is the first argument taken relative to the subdirectory the command runs in; a new branch starts at the given commit or HEAD and is checked out; with one argument and none of the options the path's last component names the new branch |
| Worktree.CandidateInjective | builtin/worktree.c:220-224 | different counters give different names |
| Worktree.TriedMembers | builtin/worktree.c:220-224 | the names tried are exactly the candidates before the counter |
| Worktree.TriedSize | builtin/worktree.c:220-224 | k distinct names are tried after k steps |
| Worktree.UniqueRepoPath | builtin/worktree.c:220-224 | the search ends with a name not present, and every name before it was present |
| Worktree.AfterLastSlash | builtin/worktree.c:225 | the text after the last '/' is a suffix without '/' |
| Worktree.AfterLastSlashOfCandidate | builtin/worktree.c:225 | the identifier read back after the last '/' is the candidate |
| Worktree.AfterLastSlashNoSlash | builtin/worktree.c:225 | a trailing part without '/' is what follows the last '/' |
| Worktree.TrimmedLen | builtin/worktree.c:55-56 | trailing line ends are trimmed: no longer than the contents |
| Worktree.TrimmedLenMeaning | builtin/worktree.c:55-56 | only '\n' and '\r' were trimmed, and the rest does not end in one |
| Worktree.TrimGitdir | builtin/worktree.c:55-56 | the trimming loop gives that length |
| Worktree.CStringOf | builtin/worktree.c:63 | the path `file_exists` sees is the contents up to the first NUL |
| Worktree.PruneKeeps | builtin/worktree.c:39-80 | locked worktrees and those whose gitdir names an existing file are kept; one whose link file has other links is never pruned as pointing nowhere |
| Worktree.PruneWorktree | builtin/worktree.c:29-82 | a non-directory is pruned as not a valid directory, and only it; a locked directory is kept; pruning as pointing nowhere needs a gitdir file, an expired mtime (as an unsigned long) and no other link |
| Worktree.PruneLadder | builtin/worktree.c:39-82 | for an unlocked directory: a missing gitdir file prunes, an unreadable one prunes, one holding only line ends prunes as invalid; a path that no longer exists, with no second link to the "link" file, prunes exactly when the gitdir file's mtime (as an unsigned long) is at most the expiry; a path that exists, or a second link, keeps the entry |
| Worktree.PruneBlankGitdir | builtin/worktree.c:55-61 | a gitdir file of only line ends is invalid |
| Worktree.PruneMonotone | builtin/worktree.c:73-77 | a later expiry prunes at least as much |
| Worktree.DefaultExpiryPrunes | builtin/worktree.c:73-77 | with the default expiry a dangling worktree without another link is always pruned |
| Worktree.Junk.constructor | builtin/worktree.c:136-139 | nothing is junk at first |
| Worktree.Junk.Arm | builtin/worktree.c:227 | the process id is recorded |
| Worktree.Junk.SetGitDir | builtin/worktree.c:233-234 | the administrative directory becomes junk |
| Worktree.Junk.SetWorkTree | builtin/worktree.c:247 | the worktree directory is recorded |
| Worktree.Junk.Disarm | builtin/worktree.c:291-297 | after a successful checkout nothing is junk |
| Worktree.Junk.RemoveJunk | builtin/worktree.c:141-156 | only the recording process, and only while something is junk, removes the administrative directory and then the worktree |
| Worktree.JunkGuard | builtin/worktree.c:144-145 | a child process, or the parent after disarming, removes nothing |

## Left out

- Signal and exit hook registration (`sigchain_push_common`, `atexit`) is counted, not performed. `raise` and `sigchain_pop` after the signal clean-up are not modelled.
- `xmks_tempfile_m` is not modelled: it only prefixes the template and dies on failure.
- Tempfile.AbsolutePath: `strbuf_add_absolute_path` (strbuf.c) is not part of this model. Its death on an empty path is a precondition of the Tempfile.Process methods that make a path absolute (CreateTempfile, RegisterTempfile, MksTempfileSm). AbsolutePath itself is total and joins the empty path as `cwd + "/"`, which no method reaches. The choice between `$PWD` and `getcwd` is folded into `Process.cwd`. That directory is kept without a trailing '/', so the root directory is the empty string and joining adds exactly one '/'. Only the POSIX separator '/' is modelled.
- Tempfile.Process.Mkstemps: `git_mkstemps_mode` (wrapper.c) is not part of this model. Its random letters are a parameter, and only the template check and one exclusive create are kept; the retry over further names is left out.
- `adjust_shared_perm`, `close`, `fclose` and `open` failures are parameters; `ferror` is folded into the close error.
- `fdopen` modes and stdio buffering are left out: a stream is a flag.
- `lockfile.c` is not part of this model. The lock operations follow the behaviour `lockfile.h` documents, built on the tempfile model.
- Lockfile.LockFileTimeout: lockfile.h defines only the timeouts 0 (one attempt) and -1 (retry indefinitely). The model treats every negative timeout as -1, retrying until the holder releases the lock. Its requires demands a release (`release.Some?`) when the timeout is negative and the lock is taken.
- Lockfile.HoldLockFileForAppend: which file is copied is a modelling choice, since `lockfile.c` is not part of this model. The model copies from the path the lock protects: the resolved path, or the path itself under LOCK_NO_DEREF.
- Lockfile.HoldLockFileForAppend: a copy that fails part-way is modelled as copying nothing before the lock is rolled back or the process dies. An ENOENT from opening the original is not a separate input: a missing file is one absent from the file system, so the open error parameter is required to differ from ENOENT.
- Tempfile.Process.Unlink: the warning `unlink_or_warn` prints when removal fails is not modelled; the errno it would report is.
- Lockfile.LockFileTimeout: the random jitter of the backoff and the clock are not modelled; the wait is the quadratic backoff itself.
- `unable_to_lock_message` and `unable_to_lock_die` only format messages and are left out.
- `color_parse` (the `color.ls.*` value parser) is outside the core: LsColors.LsColorTable.LsColorsConfig receives its result.
- `getenv` and `git_config` are parameters. LsColors.LsColorTable.ParseLsColor does not run the configuration callback after the parse; LsColorsConfig models it.
- `S_ISDOOR` is left out, because it is not defined on the systems modelled; a door gets the orphan colour, as any other unknown type does.
- `isalpha` and `tolower` are modelled for ASCII only.
- Field values that need the object database are not modelled: `grab_*` values, `populate_value` beyond `flag` and `track`, quoting in `print_value`, `show_ref_array_item`.
- `filter_refs`, `ref_filter_handler`, `match_points_at`, `commit_contains` via `is_descendant_of`, and `wildmatch` are not modelled. `wildmatch` is an oracle bit per pattern.
- `stat_tracking_info` is an input (the two counts).
- The revision walk of `do_merge_filter` is not modelled. Each ref arrives with its merged bit already computed, and freeing items is not modelled.
- `ref_array_sort` calls `qsort`. The model proves that the comparator is a total preorder (antisymmetric, transitive and substitutive) but does not model `qsort` itself.
- RefFilterSort.SortingList.ParseOptRefSorting: the source links the new key (ref-filter.c:1307-1309) before it parses the atom and then dies on an invalid one; the model returns the error with the key list and the atom table unchanged.
- RefFilterFormat.AddAtom: `parse_ref_filter_atom` dies on a malformed (ref-filter.c:85) or unknown (ref-filter.c:111) atom. The model returns that error as a value with the table unchanged, and RefFilterFormat.AtomTable.VerifyRefFormat passes it on; the process exit and its message are not modelled.
- `fill_directory`, `show_other_files`, `show_ce_entry` output formatting, `write_name`, columns, `ps_matched` reporting, and `--with-tree`'s `read_tree` are not modelled.
- `match_pathspec` is an oracle (`matchAt`). `lstat`, `ce_modified` and the exclude rules enter as per-entry facts.
- Worktree.PrefixFilename: `prefix_filename` (setup.c) is not part of this model. Only its POSIX behaviour is kept, and the Windows branch that rewrites backslashes is left out.
- `get_sha1`, `read_tree`, `run_command`, `write_file`, `mkdir`, `remove_dir_recursively` and `real_path` are not modelled. The `add` plan and the junk record say what would be run and removed.
- `prune_worktrees` (reading `worktrees/`, deleting entries and messages) is not modelled. The per-entry decision is `PruneWorktree`; `stat`, `file_exists` and reading the gitdir file are inputs.
- Integers are unbounded. The `%d` counter of the unique-name loop and the track counts are not limited to `int`.

Notes on behaviour:

**Where the code and the usual description differ, the model follows the code:**
- `register_tempfile_object` installs the hooks whenever the list is empty, not only once.
- `^?` in LS_COLORS emits DEL but leaves the '?' to be read again as an ordinary character.
- A `color.ls.` key with nothing after it selects slot 0, whose name is empty.
- `hex2` combines with two's-complement `|`.
- `find_wholine` ignores its size argument.
- `copy_email` searches up to the NUL, not the end of the line.
- The mtime comparison of `prune_worktree` is unsigned.

**Edge cases:**
- `worktree_basename` never examines index 0, so "/abc" has "/abc" as its last component.
- For an empty or all-separator path the name index is -1, and the identifier computed in `add_worktree` would start before the string. Worktree.WorktreeId therefore requires a non-empty stripped path.
- `is_dir_sep` is the POSIX '/'.
- The `memcpy` in the alternative tag copies three bytes even from a one-character tag. The result as a C string is unaffected.
- An extension entry whose value failed to parse has an unset sequence. LsColors.ColoredName returns None where `color_filename` would read it.

## Findings

| source | as written | input that shows it | evidently intended | confidence | as-written member | corrected member |
|---|---|---|---|---|---|---|
| ref-filter.c:942-946 | `p[plen-1] == '/'` is read even when the pattern is empty (`plen == 0`), so an empty pattern reads the byte before the pattern | pattern "" against "refs/heads/main": it matches when the byte before the pattern is '/' and not when it is 'x' | only a non-empty pattern that ends in '/' matches as a directory prefix | not executed | RefFilterValues.EmptyPatternReadsOutside | RefFilterValues.PathPrefixMatchMeaning |
| builtin/ls-files.c:175-200 | the kill test looks only at the first stage-0 entry after the untracked name, so an entry that sorts between them hides a file under the name | index ["a-b", "a/c"] with untracked "a": '-' sorts before '/', "a-b" is checked, "a" is not reported | "a" is killed because "a/c" needs a directory "a" | not executed | LsFilesIndex.KillTestMisses | LsFilesIndex.KilledMeaning |
| builtin/worktree.c:339-343 | the default branch is the last component copied with length `n`, the stripped length counted from the start of the path, so trailing separators are kept | `worktree add wt/topic/` asks `git branch` to create "topic/" | the branch is named after the last component, "topic" | not executed | Worktree.DefaultBranchKeepsSlash | Worktree.DefaultBranchAgrees |

=== FILE: common.dfy ===
// Shared vocabulary: optional values and a view of C strings as Dafny strings.

module Common {

  datatype Option<T> = None | Some(value: T)

  /** The character at index `i` of a C string held in `s`: reading at or past
      the end yields the terminating NUL. */
  function At(s: string, i: int): (c: char)
    ensures 0 <= i < |s| ==> c == s[i]
    ensures !(0 <= i < |s|) ==> c == '\0'
  {
    if 0 <= i < |s| then s[i] else '\0'
  }

  /** `p` is a prefix of `s`. */
  predicate IsPrefix<T(==)>(p: seq<T>, s: seq<T>)
  {
    |p| <= |s| && s[..|p|] == p
  }

  /** `p` is a suffix of `s`. */
  predicate IsSuffix<T(==)>(p: seq<T>, s: seq<T>)
  {
    |p| <= |s| && s[|s| - |p|..] == p
  }

  /** `s` can be held in a C string: it has no NUL inside. */
  predicate IsCString(s: string)
  {
    forall i :: 0 <= i < |s| ==> s[i] != '\0'
  }

  predicate IsDigit(c: char) { '0' <= c <= '9' }

  /** The decimal digits of `n`, as printf's "%d" writes a non-negative int. */
  function NatToString(n: nat): (s: string)
    ensures |s| >= 1 && forall i :: 0 <= i < |s| ==> IsDigit(s[i])
    ensures s[0] == '0' ==> n == 0
    decreases n
  {
    if n < 10 then [('0' as int + n) as char]
    else NatToString(n / 10) + [('0' as int + n % 10) as char]
  }

  /** Reading decimal digits back: the inverse of NatToString. */
  function DigitsValue(s: string): (n: nat)
    requires forall i :: 0 <= i < |s| ==> IsDigit(s[i])
  {
    if s == [] then 0
    else
      var d := s[|s| - 1] as int - '0' as int;
      assert IsDigit(s[|s| - 1]);
      DigitsValue(s[..|s| - 1]) * 10 + d
  }

  lemma {:induction false} DigitsValueOfNatToString(n: nat)
    ensures DigitsValue(NatToString(n)) == n
    decreases n
  {
    if n >= 10 {
      var s := NatToString(n);
      DigitsValueOfNatToString(n / 10);
      assert s[..|s| - 1] == NatToString(n / 10);
    }
  }

  /** Different numbers print differently. */
  lemma NatToStringInjective(m: nat, n: nat)
    requires NatToString(m) == NatToString(n)
    ensures m == n
  {
    DigitsValueOfNatToString(m);
    DigitsValueOfNatToString(n);
  }

  /** The first index at or after `from` holding `key`, as a linear search finds it. */
  function IndexOf<T(==)>(xs: seq<T>, key: T, from: nat): (r: Option<nat>)
    requires from <= |xs|
    ensures r.Some? ==> from <= r.value < |xs| && xs[r.value] == key
    ensures r.Some? ==> forall j :: from <= j < r.value ==> xs[j] != key
    ensures r.None? ==> forall j :: from <= j < |xs| ==> xs[j] != key
    decreases |xs| - from
  {
    if from == |xs| then None
    else if xs[from] == key then Some(from)
    else IndexOf(xs, key, from + 1)
  }

  /** strchr: the first index at or after `from` holding `c`, searching no
      further than the terminating NUL. */
  function StrChr(s: string, c: char, from: nat): (r: Option<nat>)
    requires c != '\0'
    ensures r.Some? ==> from <= r.value < |s| && s[r.value] == c
    ensures r.Some? ==> forall j :: from <= j < r.value ==> s[j] != c && s[j] != '\0'
    ensures r.None? ==> forall j :: from <= j < |s| && s[j] == c ==>
                          exists z :: from <= z < j && s[z] == '\0'
    decreases |s| - from
  {
    if from >= |s| || s[from] == '\0' then None
    else if s[from] == c then Some(from)
    else StrChr(s, c, from + 1)
  }
}

=== FILE: lockfile.dfy ===
// File write-locks: to change `<path>`, create `<path>.lock` exclusively,
// write the new contents into it, then rename it over `<path>`. A lock is a
// tempfile, so the registry's cleanup pass rolls back a lock the program
// never committed.

module Lockfile {
  import opened Common
  import opened Tempfile

  const LOCK_SUFFIX := ".lock"
  const LOCK_SUFFIX_LEN := 5

  /** Die with an error message instead of returning -1. */
  const LOCK_DIE_ON_ERROR: bv32 := 1
  /** Lock the path argument itself rather than the file a symbolic link names. */
  const LOCK_NO_DEREF: bv32 := 2

  /** The lockfile name for `path`. */
  function LockName(path: Path): (r: Path)
    ensures |r| == |path| + LOCK_SUFFIX_LEN
    ensures r[..|path|] == path && IsSuffix(LOCK_SUFFIX, r)
  {
    path + LOCK_SUFFIX
  }

  /** The file a lock with name `lockName` stands for (get_locked_file_path). */
  function LockedFilePath(lockName: Path): (r: Path)
    requires IsSuffix(LOCK_SUFFIX, lockName)
    ensures LockName(r) == lockName
  {
    lockName[..|lockName| - LOCK_SUFFIX_LEN]
  }

  lemma LockedFilePathOfLockName(path: Path)
    ensures LockedFilePath(LockName(path)) == path
  {
  }

  /** The path whose lock is taken: with LOCK_NO_DEREF the argument itself,
      otherwise `resolved`, the file its symbolic links lead to. */
  function LockTarget(path: Path, flags: bv32, resolved: Path): (r: Path)
    ensures flags & LOCK_NO_DEREF != 0 ==> r == path
    ensures flags & LOCK_NO_DEREF == 0 ==> r == resolved
  {
    if flags & LOCK_NO_DEREF != 0 then path else resolved
  }

  /** Making a path absolute commutes with appending the lock suffix, and
      the absolute lock name is longer than the suffix. */
  lemma AbsoluteLockName(cwd: Path, path: Path)
    ensures AbsolutePath(cwd, LockName(path)) == LockName(AbsolutePath(cwd, path))
    ensures |AbsolutePath(cwd, LockName(path))| > LOCK_SUFFIX_LEN
  {
    if |path| > 0 {
      assert LockName(path)[0] == path[0];
    } else {
      assert LockName(path) == LOCK_SUFFIX;
    }
  }

  /** The absolute name of the lockfile `path` gets under `flags`, in the
      working directory `cwd`. */
  function LockFileName(cwd: Path, path: Path, flags: bv32, resolved: Path): (r: Path)
    ensures r == LockName(AbsolutePath(cwd, LockTarget(path, flags, resolved)))
    ensures |r| > LOCK_SUFFIX_LEN && IsSuffix(LOCK_SUFFIX, r)
  {
    AbsoluteLockName(cwd, LockTarget(path, flags, resolved));
    AbsolutePath(cwd, LockName(LockTarget(path, flags, resolved)))
  }

  /** In a working directory the lockfile is an absolute path, and the file
      it protects is the absolute form of the lock target. */
  lemma LockFileNameMeaning(cwd: Path, path: Path, flags: bv32, resolved: Path)
    requires WorkingDir(cwd)
    ensures var r := LockFileName(cwd, path, flags, resolved);
      && r[0] == '/'
      && LockedFilePath(r) == AbsolutePath(cwd, LockTarget(path, flags, resolved))
  {
    var target := LockTarget(path, flags, resolved);
    LockedFilePathOfLockName(AbsolutePath(cwd, target));
  }

  /** Milliseconds slept after the n-th failed attempt: the wait grows
      quadratically with the number of attempts. */
  function BackoffMs(n: nat): (w: nat)
    ensures w >= 1 && w >= n * n
  {
    (n + 1) * (n + 1)
  }

  datatype HoldResult = Locked(fd: int) | Failed(errno: int) | Died(errno: int)

  class LockFile {
    const tempfile: Tempfile

    constructor ()
      ensures fresh(tempfile)
      ensures tempfile.fd == 0 && !tempfile.fp && !tempfile.active && !tempfile.onList && tempfile.filename == []
    {
      tempfile := new Tempfile();
    }

    /** A held lock's tempfile carries a lockfile name. */
    ghost predicate Valid()
      reads this, tempfile
    {
      tempfile.Valid() &&
      (tempfile.active ==> |tempfile.filename| > LOCK_SUFFIX_LEN && IsSuffix(LOCK_SUFFIX, tempfile.filename))
    }
  }

  /** One attempt to take the lock (lock_file): creates the lockfile exclusively. */
  method LockFileOnce(p: Process, lk: LockFile, path: Path, flags: bv32, resolved: Path,
                      openErr: int, permErr: int, closeErr: int) returns (fd: int)
    requires p.Valid() && lk.Valid()
    requires !lk.tempfile.active
    modifies p`list, p`hooksInstalled, p`fs, p`offset, p`errno, p`nextFd, p`fcloseCalls, lk.tempfile
    ensures p.Valid() && lk.Valid() && lk.tempfile.onList
    ensures p.list == if old(lk.tempfile.onList) then old(p.list) else [lk.tempfile] + old(p.list)
    ensures var name := LockFileName(p.cwd, path, flags, resolved);
      if name in old(p.fs) || openErr != 0 then
        fd == -1 && !lk.tempfile.active && p.fs == old(p.fs) && p.errno == (if name in old(p.fs) then EEXIST else openErr)
      else if permErr != 0 then
        fd == -1 && !lk.tempfile.active && p.fs == p.Unlinked(old(p.fs)[name := []], name) && p.errno == permErr
      else
        fd >= 0 && lk.tempfile.fd == fd && lk.tempfile.active && lk.tempfile.owner == p.pid
        && lk.tempfile.filename == name && !lk.tempfile.fp
        && p.fs == old(p.fs)[name := []] && fd in p.offset && p.offset[fd] == 0
  {
    var target := LockTarget(path, flags, resolved);
    fd := p.CreateTempfile(lk.tempfile, LockName(target), openErr, permErr, closeErr);
  }

  /** Takes the lock on `path`, retrying while somebody else holds it: a
      timeout of 0 makes exactly one attempt, a positive one retries until at
      least that many milliseconds were spent waiting, a negative one retries
      until the lock is free. The competing holder gives its lock up after
      `release.value` attempts (never, when `release` is None). */
  method LockFileTimeout(p: Process, lk: LockFile, path: Path, flags: bv32, timeoutMs: int, resolved: Path,
                         openErr: int, permErr: int, closeErr: int, release: Option<nat>)
      returns (fd: int, attempts: nat, waited: nat)
    requires p.Valid() && lk.Valid()
    requires !lk.tempfile.active
    requires openErr != EEXIST && permErr != EEXIST
    requires timeoutMs < 0 && LockFileName(p.cwd, path, flags, resolved) in p.fs ==> release.Some?
    modifies p`list, p`hooksInstalled, p`fs, p`offset, p`errno, p`nextFd, p`fcloseCalls, lk.tempfile
    ensures p.Valid() && lk.Valid() && lk.tempfile.onList
    ensures p.list == if old(lk.tempfile.onList) then old(p.list) else [lk.tempfile] + old(p.list)
    ensures attempts >= 1 && (timeoutMs == 0 ==> attempts == 1 && waited == 0)
    ensures var name := LockFileName(p.cwd, path, flags, resolved);
      if fd >= 0 then
        lk.tempfile.fd == fd && lk.tempfile.active && lk.tempfile.owner == p.pid && lk.tempfile.filename == name
        && !lk.tempfile.fp && p.fs == old(p.fs)[name := []] && fd in p.offset && p.offset[fd] == 0
      else
        fd == -1 && !lk.tempfile.active && p.fs - {name} == old(p.fs) - {name}
    ensures fd < 0 && p.errno == EEXIST ==> timeoutMs == 0 || (timeoutMs > 0 && waited >= timeoutMs)
    ensures fd < 0 && p.errno != EEXIST ==>
              (openErr != 0 && p.errno == openErr) || (openErr == 0 && permErr != 0 && p.errno == permErr)
  {
    var name := LockFileName(p.cwd, path, flags, resolved);
    fd := LockFileOnce(p, lk, path, flags, resolved, openErr, permErr, closeErr);
    attempts, waited := 1, 0;
    if timeoutMs == 0 {
      return;
    }
    while fd < 0 && p.errno == EEXIST && !(timeoutMs > 0 && waited >= timeoutMs)
      invariant p.Valid() && lk.Valid() && lk.tempfile.onList && attempts >= 1
      invariant p.list == if old(lk.tempfile.onList) then old(p.list) else [lk.tempfile] + old(p.list)
      invariant fd >= 0 ==>
        lk.tempfile.fd == fd && lk.tempfile.active && lk.tempfile.owner == p.pid && lk.tempfile.filename == name
        && !lk.tempfile.fp && p.fs == old(p.fs)[name := []] && fd in p.offset && p.offset[fd] == 0
      invariant fd < 0 ==> fd == -1 && !lk.tempfile.active && p.fs - {name} == old(p.fs) - {name}
      invariant fd < 0 && p.errno == EEXIST ==> name in p.fs
      invariant fd < 0 && p.errno != EEXIST ==>
                  (openErr != 0 && p.errno == openErr) || (openErr == 0 && permErr != 0 && p.errno == permErr)
      decreases (if timeoutMs > 0 && waited < timeoutMs then timeoutMs - waited else 0),
                (if fd < 0 && p.errno == EEXIST && name in p.fs then
                   (if release.Some? && attempts <= release.value then release.value - attempts + 2 else 1)
                 else 0)
    {
      waited := waited + BackoffMs(attempts);
      ghost var before := p.fs;
      fd := RetryLockFile(p, lk, path, flags, resolved, openErr, permErr, closeErr,
                          release.Some? && attempts >= release.value);
      if fd >= 0 {
        SetAgreesOutside(before, old(p.fs), name, []);
      }
      attempts := attempts + 1;
    }
  }

  /** Writing `v` to a fresh path `k` and renaming it to `d` is writing `v`
      to `d`. */
  lemma MoveFresh(m: map<Path, Bytes>, k: Path, d: Path, v: Bytes)
    requires k !in m && k != d
    ensures (m[k := v] - {k})[d := v] == m[d := v]
  {
    assert m[k := v] - {k} == m;
  }

  /** Two file systems that agree on every path but `k` agree everywhere
      once `k` is set to the same contents in both. */
  lemma SetAgreesOutside(a: map<Path, Bytes>, b: map<Path, Bytes>, k: Path, v: Bytes)
    requires a - {k} == b - {k}
    ensures a[k := v] == b[k := v]
  {
    forall x | x != k
      ensures x in a <==> x in b
      ensures x in a ==> a[x] == b[x]
    {
      assert x in a <==> x in a - {k};
      assert x in b <==> x in b - {k};
      if x in a {
        assert a[x] == (a - {k})[x] == (b - {k})[x] == b[x];
      }
    }
  }

  /** One retry of LockFileTimeout after the lockfile was found taken; when
      `released`, the competing holder first commits or rolls back, removing
      its lockfile. */
  method RetryLockFile(p: Process, lk: LockFile, path: Path, flags: bv32, resolved: Path,
                       openErr: int, permErr: int, closeErr: int, released: bool) returns (fd: int)
    requires p.Valid() && lk.Valid() && lk.tempfile.onList
    requires !lk.tempfile.active
    requires openErr != EEXIST && permErr != EEXIST
    modifies p`list, p`hooksInstalled, p`fs, p`offset, p`errno, p`nextFd, p`fcloseCalls, lk.tempfile
    ensures p.Valid() && lk.Valid() && lk.tempfile.onList && p.list == old(p.list)
    ensures var name := LockFileName(p.cwd, path, flags, resolved);
      if fd >= 0 then
        lk.tempfile.fd == fd && lk.tempfile.active && lk.tempfile.owner == p.pid && lk.tempfile.filename == name
        && !lk.tempfile.fp && p.fs == old(p.fs)[name := []] && fd in p.offset && p.offset[fd] == 0
      else
        fd == -1 && !lk.tempfile.active && p.fs - {name} == old(p.fs) - {name}
    ensures fd < 0 && p.errno == EEXIST ==> !released && p.fs == old(p.fs)
    ensures fd < 0 && p.errno != EEXIST ==>
              (openErr != 0 && p.errno == openErr) || (openErr == 0 && permErr != 0 && p.errno == permErr)
  {
    var name := LockFileName(p.cwd, path, flags, resolved);
    if released {
      p.fs := p.fs - {name};
    }
    ghost var fs1 := p.fs;
    assert fs1 - {name} == old(p.fs) - {name};
    fd := LockFileOnce(p, lk, path, flags, resolved, openErr, permErr, closeErr);
    if fd >= 0 {
      SetAgreesOutside(fs1, old(p.fs), name, []);
    } else if name !in fs1 && openErr == 0 && permErr != 0 {
      assert p.fs - {name} == fs1[name := []] - {name};
    }
  }

  /** hold_lock_file_for_update_timeout: LockFileTimeout, dying on failure
      when LOCK_DIE_ON_ERROR is given. */
  method HoldLockFileForUpdateTimeout(p: Process, lk: LockFile, path: Path, flags: bv32, timeoutMs: int,
                                      resolved: Path, openErr: int, permErr: int, closeErr: int,
                                      release: Option<nat>) returns (r: HoldResult, attempts: nat)
    requires p.Valid() && lk.Valid()
    requires !lk.tempfile.active
    requires openErr != EEXIST && permErr != EEXIST
    requires timeoutMs < 0 && LockFileName(p.cwd, path, flags, resolved) in p.fs ==> release.Some?
    modifies p`list, p`hooksInstalled, p`fs, p`offset, p`errno, p`nextFd, p`fcloseCalls, lk.tempfile
    ensures p.Valid() && lk.Valid() && lk.tempfile.onList
    ensures timeoutMs == 0 ==> attempts == 1
    ensures var name := LockFileName(p.cwd, path, flags, resolved);
      if r.Locked? then
        r.fd >= 0 && lk.tempfile.fd == r.fd && lk.tempfile.active && lk.tempfile.owner == p.pid
        && lk.tempfile.filename == name && p.fs == old(p.fs)[name := []]
        && r.fd in p.offset && p.offset[r.fd] == 0
      else
        !lk.tempfile.active && p.fs - {name} == old(p.fs) - {name} && r.errno == p.errno
        && (r.Died? <==> flags & LOCK_DIE_ON_ERROR != 0)
    ensures !r.Locked? && r.errno == EEXIST ==> timeoutMs >= 0
  {
    var fd, waited;
    fd, attempts, waited := LockFileTimeout(p, lk, path, flags, timeoutMs, resolved, openErr, permErr, closeErr, release);
    if fd >= 0 {
      r := Locked(fd);
    } else if flags & LOCK_DIE_ON_ERROR != 0 {
      r := Died(p.errno);
    } else {
      r := Failed(p.errno);
    }
  }

  /** hold_lock_file_for_update: the timeout-0 variant, a single attempt. */
  method HoldLockFileForUpdate(p: Process, lk: LockFile, path: Path, flags: bv32, resolved: Path,
                               openErr: int, permErr: int, closeErr: int) returns (r: HoldResult)
    requires p.Valid() && lk.Valid()
    requires !lk.tempfile.active
    requires openErr != EEXIST && permErr != EEXIST
    modifies p`list, p`hooksInstalled, p`fs, p`offset, p`errno, p`nextFd, p`fcloseCalls, lk.tempfile
    ensures p.Valid() && lk.Valid() && lk.tempfile.onList
    ensures p.list == if old(lk.tempfile.onList) then old(p.list) else [lk.tempfile] + old(p.list)
    ensures var name := LockFileName(p.cwd, path, flags, resolved);
      if name in old(p.fs) || openErr != 0 || permErr != 0 then
        !r.Locked? && !lk.tempfile.active
        && p.fs == (if name in old(p.fs) || openErr != 0 then old(p.fs) else p.Unlinked(old(p.fs)[name := []], name))
        && r.errno == (if name in old(p.fs) then EEXIST else if openErr != 0 then openErr else permErr)
        && (r.Died? <==> flags & LOCK_DIE_ON_ERROR != 0)
      else
        r.Locked? && r.fd >= 0 && lk.tempfile.fd == r.fd && lk.tempfile.active && lk.tempfile.owner == p.pid
        && lk.tempfile.filename == name && p.fs == old(p.fs)[name := []]
        && r.fd in p.offset && p.offset[r.fd] == 0
  {
    var fd := LockFileOnce(p, lk, path, flags, resolved, openErr, permErr, closeErr);
    if fd >= 0 {
      r := Locked(fd);
    } else if flags & LOCK_DIE_ON_ERROR != 0 {
      r := Died(p.errno);
    } else {
      r := Failed(p.errno);
    }
  }

  /** hold_lock_file_for_append: takes the lock with a single attempt, then
      copies the current contents of the file the lock protects (if it
      exists) into the lockfile and leaves the write position at their end.
      `origOpenErr` is what opening that file reports and `copyErr` what
      copying it reports. When either fails the lock is rolled back and the
      error returned, or, under LOCK_DIE_ON_ERROR, the process dies still
      holding the lock (its exit cleanup removes it). A failed copy is
      modelled as copying nothing. */
  method HoldLockFileForAppend(p: Process, lk: LockFile, path: Path, flags: bv32, resolved: Path,
                               openErr: int, permErr: int, closeErr: int, origOpenErr: int, copyErr: int)
      returns (r: HoldResult)
    requires p.Valid() && lk.Valid()
    requires !lk.tempfile.active
    requires openErr != EEXIST && permErr != EEXIST && origOpenErr != ENOENT
    modifies p`list, p`hooksInstalled, p`fs, p`offset, p`errno, p`nextFd, p`fcloseCalls, lk.tempfile
    ensures p.Valid() && lk.Valid() && lk.tempfile.onList
    ensures p.list == if old(lk.tempfile.onList) then old(p.list) else [lk.tempfile] + old(p.list)
    ensures var name := LockFileName(p.cwd, path, flags, resolved);
      var target := LockedFilePath(name);
      var before: Bytes := if target in old(p.fs) then old(p.fs)[target] else [];
      var copyFails := target in old(p.fs) && (origOpenErr != 0 || copyErr != 0);
      var err := if origOpenErr != 0 then origOpenErr else copyErr;
      if name in old(p.fs) || openErr != 0 || permErr != 0 then
        !r.Locked? && !lk.tempfile.active
        && p.fs == (if name in old(p.fs) || openErr != 0 then old(p.fs) else p.Unlinked(old(p.fs)[name := []], name))
        && r.errno == (if name in old(p.fs) then EEXIST else if openErr != 0 then openErr else permErr)
        && (r.Died? <==> flags & LOCK_DIE_ON_ERROR != 0)
      else if copyFails && flags & LOCK_DIE_ON_ERROR != 0 then
        r == Died(err) && lk.tempfile.active && lk.tempfile.filename == name && p.fs == old(p.fs)[name := []]
      else if copyFails then
        r == Failed(err) && p.errno == err && !lk.tempfile.active && p.fs == p.Unlinked(old(p.fs)[name := []], name)
      else
        r.Locked? && r.fd >= 0 && lk.tempfile.fd == r.fd && lk.tempfile.active && lk.tempfile.owner == p.pid
        && lk.tempfile.filename == name && p.fs == old(p.fs)[name := before]
        && r.fd in p.offset && p.offset[r.fd] == |before|
  {
    ghost var name := LockFileName(p.cwd, path, flags, resolved);
    ghost var fs0 := p.fs;
    r := HoldLockFileForUpdate(p, lk, path, flags, resolved, openErr, permErr, closeErr);
    if !r.Locked? {
      return;
    }
    assert lk.tempfile.filename == name && p.fs == fs0[name := []];
    var target := LockedFilePath(lk.tempfile.filename);
    assert target != name;
    if target !in p.fs {
      return;
    }
    var err := if origOpenErr != 0 then origOpenErr else copyErr;
    if err != 0 {
      if flags & LOCK_DIE_ON_ERROR != 0 {
        return Died(err);
      }
      p.DeleteTempfile(lk.tempfile, closeErr);
      p.errno := err;
      return Failed(err);
    }
    var before := p.fs[target];
    p.fs := p.fs[lk.tempfile.filename := before];
    p.offset := p.offset[r.fd := |before|];
  }

  /** commit_lock_file_to: closes the lockfile and renames it to `path`; on
      failure the lockfile is removed and -1 returned with errno from the
      failing close or rename. */
  method CommitLockFileTo(p: Process, lk: LockFile, path: Path, closeErr: int, renameErr: int) returns (rc: int)
    requires p.Valid() && lk.Valid() && lk.tempfile.onList
    requires lk.tempfile.active
    modifies p`fs, p`offset, p`errno, p`fcloseCalls, lk.tempfile
    ensures p.Valid() && lk.Valid() && lk.tempfile.onList && !lk.tempfile.active && p.list == old(p.list)
    ensures var lock := old(lk.tempfile.filename);
      if old(lk.tempfile.fd) >= 0 && closeErr != 0 then rc == -1 && p.errno == closeErr && p.fs == p.Unlinked(old(p.fs), lock)
      else if lock !in old(p.fs) then rc == -1 && p.errno == ENOENT && p.fs == old(p.fs)
      else if renameErr != 0 then rc == -1 && p.errno == renameErr && p.fs == p.Unlinked(old(p.fs), lock)
      else rc == 0 && p.fs == (old(p.fs) - {lock})[path := old(p.fs)[lock]]
  {
    rc := p.RenameTempfile(lk.tempfile, path, closeErr, renameErr);
  }

  /** commit_lock_file: renames the lockfile over the file it locks. */
  method CommitLockFile(p: Process, lk: LockFile, closeErr: int, renameErr: int) returns (rc: int)
    requires p.Valid() && lk.Valid() && lk.tempfile.onList
    requires lk.tempfile.active
    modifies p`fs, p`offset, p`errno, p`fcloseCalls, lk.tempfile
    ensures p.Valid() && lk.Valid() && lk.tempfile.onList && !lk.tempfile.active && p.list == old(p.list)
    ensures var lock := old(lk.tempfile.filename);
      var dest := LockedFilePath(lock);
      if old(lk.tempfile.fd) >= 0 && closeErr != 0 then rc == -1 && p.errno == closeErr && p.fs == p.Unlinked(old(p.fs), lock)
      else if lock !in old(p.fs) then rc == -1 && p.errno == ENOENT && p.fs == old(p.fs)
      else if renameErr != 0 then rc == -1 && p.errno == renameErr && p.fs == p.Unlinked(old(p.fs), lock)
      else rc == 0 && p.fs == (old(p.fs) - {lock})[dest := old(p.fs)[lock]]
  {
    var dest := LockedFilePath(lk.tempfile.filename);
    rc := CommitLockFileTo(p, lk, dest, closeErr, renameErr);
  }

  /** rollback_lock_file: closes and removes the lockfile; does nothing when
      the lock was already committed or rolled back. */
  method RollbackLockFile(p: Process, lk: LockFile, closeErr: int)
    requires p.Valid() && lk.Valid() && lk.tempfile.onList
    modifies p`fs, p`offset, p`errno, p`fcloseCalls, lk.tempfile
    ensures p.Valid() && lk.Valid() && lk.tempfile.onList && !lk.tempfile.active && p.list == old(p.list)
    ensures !old(lk.tempfile.active) ==> unchanged(lk.tempfile) && p.fs == old(p.fs)
    ensures old(lk.tempfile.active) ==> p.fs == p.Unlinked(old(p.fs), old(lk.tempfile.filename))
  {
    p.DeleteTempfile(lk.tempfile, closeErr);
  }
}

// Whole calling sequences from the lockfile documentation, with every system
// call succeeding unless stated otherwise.
module LockfileUsage {
  import opened Common
  import opened Tempfile
  import opened Lockfile

  /** Lock, write new contents, commit: the destination holds exactly the
      new contents and the lockfile is gone. */
  method UpdateAndCommit(p: Process, lk: LockFile, path: Path, flags: bv32, resolved: Path, data: Bytes)
      returns (rc: int)
    requires p.Valid() && lk.Valid() && !lk.tempfile.active
    requires LockFileName(p.cwd, path, flags, resolved) !in p.fs
    modifies p`list, p`hooksInstalled, p`fs, p`offset, p`errno, p`nextFd, p`fcloseCalls, lk.tempfile
    ensures rc == 0 && !lk.tempfile.active
    ensures p.fs == old(p.fs)[AbsolutePath(p.cwd, LockTarget(path, flags, resolved)) := data]
  {
    var lock := LockFileName(p.cwd, path, flags, resolved);
    var dest := AbsolutePath(p.cwd, LockTarget(path, flags, resolved));
    LockedFilePathOfLockName(dest);
    var r := HoldLockFileForUpdate(p, lk, path, flags, resolved, 0, 0, 0);
    assert r.Locked? && lk.tempfile.filename == lock && p.fs == old(p.fs)[lock := []];
    ghost var fs1 := p.fs;
    p.Write(lk.tempfile.filename, r.fd, data);
    assert Overwrite([], 0, data) == data;
    assert p.fs == fs1[lock := data] == old(p.fs)[lock := data];
    ghost var fs2 := p.fs;
    assert lk.tempfile.filename == lock && lock in fs2 && fs2[lock] == data;
    rc := CommitLockFile(p, lk, 0, 0);
    assert p.fs == (fs2 - {lock})[dest := data];
    MoveFresh(old(p.fs), lock, dest, data);
  }

  /** Lock for appending, write, commit: the destination holds its old
      contents followed by the new ones. */
  method AppendAndCommit(p: Process, lk: LockFile, path: Path, flags: bv32, resolved: Path, data: Bytes)
      returns (rc: int)
    requires p.Valid() && lk.Valid() && !lk.tempfile.active
    requires LockFileName(p.cwd, path, flags, resolved) !in p.fs
    modifies p`list, p`hooksInstalled, p`fs, p`offset, p`errno, p`nextFd, p`fcloseCalls, lk.tempfile
    ensures var dest := AbsolutePath(p.cwd, LockTarget(path, flags, resolved));
      rc == 0 && p.fs == old(p.fs)[dest := (if dest in old(p.fs) then old(p.fs)[dest] else []) + data]
  {
    var lock := LockFileName(p.cwd, path, flags, resolved);
    var dest := AbsolutePath(p.cwd, LockTarget(path, flags, resolved));
    LockedFilePathOfLockName(dest);
    var before: Bytes := if dest in p.fs then p.fs[dest] else [];
    var r := HoldLockFileForAppend(p, lk, path, flags, resolved, 0, 0, 0, 0, 0);
    p.Write(lk.tempfile.filename, r.fd, data);
    assert p.fs == old(p.fs)[lock := before + data];
    rc := CommitLockFile(p, lk, 0, 0);
    MoveFresh(old(p.fs), lock, dest, before + data);
  }

  /** While one object holds the lock, a second attempt on the same path
      fails with EEXIST and leaves the lockfile alone. */
  method SecondHolderFails(p: Process, lk1: LockFile, lk2: LockFile, path: Path, flags: bv32, resolved: Path)
      returns (r1: HoldResult, r2: HoldResult)
    requires p.Valid() && lk1.Valid() && lk2.Valid() && !lk1.tempfile.active && !lk2.tempfile.active
    requires lk1.tempfile != lk2.tempfile
    requires LockFileName(p.cwd, path, flags, resolved) !in p.fs
    requires flags & LOCK_DIE_ON_ERROR == 0
    modifies p`list, p`hooksInstalled, p`fs, p`offset, p`errno, p`nextFd, p`fcloseCalls, lk1.tempfile, lk2.tempfile
    ensures r1.Locked? && r2 == Failed(EEXIST)
    ensures lk1.tempfile.active && !lk2.tempfile.active
    ensures p.fs == old(p.fs)[LockFileName(p.cwd, path, flags, resolved) := []]
  {
    r1 := HoldLockFileForUpdate(p, lk1, path, flags, resolved, 0, 0, 0);
    r2 := HoldLockFileForUpdate(p, lk2, path, flags, resolved, 0, 0, 0);
  }

  /** A lock the program never commits or rolls back is removed by the exit
      cleanup, and the destination is left as it was; only a lockfile that
      cannot be removed stays behind, holding what was written. */
  method ExitBeforeCommit(p: Process, lk: LockFile, path: Path, flags: bv32, resolved: Path, data: Bytes)
    requires p.Valid() && lk.Valid() && !lk.tempfile.active && !lk.tempfile.onList
    requires p.list == []
    requires LockFileName(p.cwd, path, flags, resolved) !in p.fs
    modifies p`list, p`hooksInstalled, p`fs, p`offset, p`errno, p`nextFd, p`fcloseCalls, lk.tempfile
    ensures p.list == []
    ensures var lock := LockFileName(p.cwd, path, flags, resolved);
      p.fs == if lock in p.unremovable then old(p.fs)[lock := data] else old(p.fs)
  {
    var lock := LockFileName(p.cwd, path, flags, resolved);
    var r := HoldLockFileForUpdate(p, lk, path, flags, resolved, 0, 0, 0);
    p.Write(lk.tempfile.filename, r.fd, data);
    assert p.list == [lk.tempfile];
    p.RemoveTempfilesOnExit([0]);
    if lock !in p.unremovable {
      assert p.fs == old(p.fs)[lock := data] - {lock};
    }
  }

  /** Rolling back twice is harmless, and the object can then take the lock
      again, unless the rollback could not remove the lockfile. */
  method RollbackTwiceThenReuse(p: Process, lk: LockFile, path: Path, flags: bv32, resolved: Path)
      returns (r: HoldResult)
    requires p.Valid() && lk.Valid() && !lk.tempfile.active
    requires LockFileName(p.cwd, path, flags, resolved) !in p.fs
    modifies p`list, p`hooksInstalled, p`fs, p`offset, p`errno, p`nextFd, p`fcloseCalls, lk.tempfile
    ensures r.Locked? <==> LockFileName(p.cwd, path, flags, resolved) !in p.unremovable
    ensures r.Locked? ==> lk.tempfile.active
    ensures p.fs == old(p.fs)[LockFileName(p.cwd, path, flags, resolved) := []]
  {
    var first := HoldLockFileForUpdate(p, lk, path, flags, resolved, 0, 0, 0);
    RollbackLockFile(p, lk, 0);
    RollbackLockFile(p, lk, 0);
    r := HoldLockFileForUpdate(p, lk, path, flags, resolved, 0, 0, 0);
  }

  /** A rollback that cannot remove the lockfile leaves it behind, so the
      next attempt to take the lock fails with EEXIST. */
  method UnremovableLockStaysTaken(p: Process, lk: LockFile, path: Path, flags: bv32, resolved: Path)
      returns (r: HoldResult)
    requires p.Valid() && lk.Valid() && !lk.tempfile.active
    requires LockFileName(p.cwd, path, flags, resolved) !in p.fs
    requires LockFileName(p.cwd, path, flags, resolved) in p.unremovable
    requires flags & LOCK_DIE_ON_ERROR == 0
    modifies p`list, p`hooksInstalled, p`fs, p`offset, p`errno, p`nextFd, p`fcloseCalls, lk.tempfile
    ensures r == Failed(EEXIST) && !lk.tempfile.active
    ensures p.fs == old(p.fs)[LockFileName(p.cwd, path, flags, resolved) := []]
  {
    var first := HoldLockFileForUpdate(p, lk, path, flags, resolved, 0, 0, 0);
    RollbackLockFile(p, lk, 0);
    r := HoldLockFileForUpdate(p, lk, path, flags, resolved, 0, 0, 0);
  }

  /** With a negative timeout the hold keeps retrying until the competing
      holder gives the lock up, and then succeeds. */
  method WaitForever(p: Process, lk: LockFile, path: Path, flags: bv32, resolved: Path, k: nat)
      returns (fd: int, attempts: nat)
    requires p.Valid() && lk.Valid() && !lk.tempfile.active
    requires LockFileName(p.cwd, path, flags, resolved) in p.fs
    modifies p`list, p`hooksInstalled, p`fs, p`offset, p`errno, p`nextFd, p`fcloseCalls, lk.tempfile
    ensures fd >= 0 && lk.tempfile.active
    ensures p.fs == old(p.fs)[LockFileName(p.cwd, path, flags, resolved) := []]
  {
    var waited;
    fd, attempts, waited := LockFileTimeout(p, lk, path, flags, -1, resolved, 0, 0, 0, Some(k));
  }
}

=== FILE: ls_colors.dfy ===
// Colouring of file names the way `ls --color` does it: the LS_COLORS
// environment variable is decoded into a table of SGR sequences (select
// graphic rendition, section 8.3.117 of ECMA-48), one per file kind, plus a
// list of per-extension sequences; a file name is then wrapped in the
// sequence its mode (or extension) selects and a reset.

module LsColors {
  import opened Common

  // ---- the colour table -------------------------------------------------

  // Indices of the colour table (enum color_ls).
  const LS_LC := 0
  const LS_RC := 1
  const LS_EC := 2
  const LS_RS := 3
  const LS_NO := 4
  const LS_FL := 5
  const LS_DI := 6
  const LS_LN := 7
  const LS_PI := 8
  const LS_SO := 9
  const LS_BD := 10
  const LS_CD := 11
  const LS_MI := 12
  const LS_OR := 13
  const LS_EX := 14
  const LS_DO := 15
  const LS_SU := 16
  const LS_SG := 17
  const LS_ST := 18
  const LS_OW := 19
  const LS_TW := 20
  const LS_CA := 21
  const LS_MH := 22
  const LS_CL := 23
  const LS_SUBMODULE := 24
  const MAX_LS := 25

  const ESC: char := 27 as char

  // Colour sequences of the default table, as git's colour definitions spell them.
  const COLOR_NORMAL: string := ""
  const COLOR_RESET: string := [ESC] + "[m"
  const COLOR_BOLD_BLUE: string := [ESC] + "[1;34m"
  const COLOR_BOLD_CYAN: string := [ESC] + "[1;36m"
  const COLOR_YELLOW: string := [ESC] + "[33m"
  const COLOR_BOLD_MAGENTA: string := [ESC] + "[1;35m"
  const COLOR_BOLD_YELLOW: string := [ESC] + "[1;33m"
  const COLOR_BOLD_GREEN: string := [ESC] + "[1;32m"
  const COLOR_WHITE_ON_RED: string := [ESC] + "[37;41m"
  const COLOR_BLACK_ON_YELLOW: string := [ESC] + "[30;43m"
  const COLOR_WHITE_ON_BLUE: string := [ESC] + "[37;44m"
  const COLOR_BLUE_ON_GREEN: string := [ESC] + "[34;42m"
  const COLOR_BLACK_ON_GREEN: string := [ESC] + "[30;42m"

  const DefaultColors: seq<string> := [
    "", "", "", COLOR_RESET, COLOR_NORMAL, COLOR_NORMAL, COLOR_BOLD_BLUE, COLOR_BOLD_CYAN,
    COLOR_YELLOW, COLOR_BOLD_MAGENTA, COLOR_BOLD_YELLOW, COLOR_BOLD_YELLOW, COLOR_NORMAL, COLOR_NORMAL,
    COLOR_BOLD_GREEN, COLOR_BOLD_MAGENTA,
    COLOR_WHITE_ON_RED, COLOR_BLACK_ON_YELLOW, COLOR_WHITE_ON_BLUE, COLOR_BLUE_ON_GREEN, COLOR_BLACK_ON_GREEN,
    "", "", "", COLOR_BOLD_BLUE]

  /** The two-letter LS_COLORS labels, by table index (there is none for LS_SUBMODULE). */
  const IndicatorName: seq<string> := [
    "lc", "rc", "ec", "rs", "no", "fi", "di", "ln",
    "pi", "so", "bd", "cd", "mi", "or", "ex", "do",
    "su", "sg", "st", "ow", "tw", "ca", "mh", "cl"]

  /** The `color.ls.<name>` configuration keys, by table index. */
  const ConfigName: seq<string> := [
    "", "", "", "", "normal", "file", "directory", "symlink",
    "fifo", "socket", "block", "char", "missing", "orphan", "executable",
    "door", "setuid", "setgid", "sticky", "otherwritable",
    "stickyotherwritable", "cap", "multihardlink", "",
    "submodule"]

  /** The part of `s` a C string function sees: everything before the first NUL. */
  function CStr(s: string): (r: string)
    ensures IsPrefix(r, s) && '\0' !in r
    ensures |r| < |s| ==> s[|r|] == '\0'
  {
    if s == [] || s[0] == '\0' then [] else [s[0]] + CStr(s[1..])
  }

  /** The SGR control sequence ESC '[' params 'm' (printed with "%.*s", so
      the parameters end at an embedded NUL). */
  function Sgr(params: string): (r: string)
    ensures r == [ESC, '['] + CStr(params) + ['m']
  {
    [ESC, '['] + CStr(params) + ['m']
  }

  // ---- get_funky_string -----------------------------------------------

  datatype FunkyState = Gnd | Backslash | Octal | Hex | Caret | End | Error

  /** Outcome of decoding one LS_COLORS string: success, the bytes produced,
      and the index of the character that ended the decoding. */
  datatype Funky = Funky(ok: bool, out: string, stop: nat)

  /** Characters that end an unescaped string. */
  predicate IsStop(c: char, equalsEnd: bool)
  {
    c == ':' || c == '\0' || (equalsEnd && c == '=')
  }

  predicate IsOctalDigit(c: char) { '0' <= c <= '7' }

  /** The value of a hexadecimal digit, as the decoder's switch accepts them. */
  function HexDigit(c: char): (v: Option<nat>)
    ensures v.Some? ==> v.value < 16
  {
    if '0' <= c <= '9' then Some(c as int - '0' as int)
    else if 'a' <= c <= 'f' then Some(c as int - 'a' as int + 10)
    else if 'A' <= c <= 'F' then Some(c as int - 'A' as int + 10)
    else None
  }

  /** The byte a backslash followed by `c` stands for, when `c` is neither an
      octal digit, 'x'/'X' nor NUL: a named control character, or `c` itself. */
  function EscapedChar(c: char): char
  {
    match c
    case 'a' => 7 as char
    case 'b' => 8 as char
    case 'e' => 27 as char
    case 'f' => 12 as char
    case 'n' => 10 as char
    case 'r' => 13 as char
    case 't' => 9 as char
    case 'v' => 11 as char
    case '?' => 127 as char
    case '_' => ' '
    case _ => c
  }

  function Rank(st: FunkyState): nat
  {
    match st
    case End => 0
    case Error => 0
    case Gnd => 1
    case _ => 2
  }

  /** Bytes owed for input already consumed: a pending octal or hex value, or
      the caret that may still yield DEL without consuming another character. */
  function Pending(st: FunkyState): nat
  {
    if st == Octal || st == Hex || st == Caret then 1 else 0
  }

  function Emit(c: char, r: Funky): Funky
  {
    r.(out := [c] + r.out)
  }

  /** The decoder run from position `p` in state `st` with accumulator `num`. */
  function FunkyFrom(src: string, p: nat, st: FunkyState, num: nat, equalsEnd: bool): (r: Funky)
    requires p <= |src| + 1
    requires st != Error ==> p <= |src|
    requires st == Octal || st == Hex ==> num < 256
    ensures p <= r.stop <= |src| + 1
    ensures st == End ==> r == Funky(true, [], p)
    ensures st == Error ==> r == Funky(false, [], p)
    ensures r.ok ==> r.stop <= |src|
    decreases |src| + 1 - p, Rank(st)
  {
    var c := At(src, p);
    match st
    case End => Funky(true, [], p)
    case Error => Funky(false, [], p)
    case Gnd =>
      if c == ':' || c == '\0' then Funky(true, [], p)
      else if c == '\\' then FunkyFrom(src, p + 1, Backslash, num, equalsEnd)
      else if c == '^' then FunkyFrom(src, p + 1, Caret, num, equalsEnd)
      else if c == '=' && equalsEnd then Funky(true, [], p)
      else Emit(c, FunkyFrom(src, p + 1, Gnd, num, equalsEnd))
    case Backslash =>
      if IsOctalDigit(c) then FunkyFrom(src, p + 1, Octal, c as int - '0' as int, equalsEnd)
      else if c == 'x' || c == 'X' then FunkyFrom(src, p + 1, Hex, 0, equalsEnd)
      else if c == '\0' then Funky(false, [], p + 1)
      else Emit(EscapedChar(c), FunkyFrom(src, p + 1, Gnd, EscapedChar(c) as int, equalsEnd))
    case Octal =>
      if !IsOctalDigit(c) then Emit(num as char, FunkyFrom(src, p, Gnd, num, equalsEnd))
      else FunkyFrom(src, p + 1, Octal, (num * 8 + (c as int - '0' as int)) % 256, equalsEnd)
    case Hex =>
      var d := HexDigit(c);
      if d.None? then Emit(num as char, FunkyFrom(src, p, Gnd, num, equalsEnd))
      else FunkyFrom(src, p + 1, Hex, (num * 16 + d.value) % 256, equalsEnd)
    case Caret =>
      if '@' <= c <= '~' then Emit((c as int % 32) as char, FunkyFrom(src, p + 1, Gnd, num, equalsEnd))
      else if c == '?' then Emit(127 as char, FunkyFrom(src, p, Gnd, num, equalsEnd))
      else Funky(false, [], p)
  }

  /** A successful decoding ends at a character that ends strings. */
  lemma {:induction false} FunkyStops(src: string, p: nat, st: FunkyState, num: nat, equalsEnd: bool)
    requires p <= |src| + 1
    requires st != Error ==> p <= |src|
    requires st == Octal || st == Hex ==> num < 256
    ensures var r := FunkyFrom(src, p, st, num, equalsEnd);
      st != End && r.ok ==> IsStop(At(src, r.stop), equalsEnd)
    decreases |src| + 1 - p, Rank(st), 1
  {
    match st
    case End =>
    case Error =>
    case Gnd => GndStops(src, p, num, equalsEnd);
    case Backslash => BackslashStops(src, p, num, equalsEnd);
    case Octal => NumberStops(src, p, Octal, num, equalsEnd);
    case Hex => NumberStops(src, p, Hex, num, equalsEnd);
    case Caret => CaretStops(src, p, num, equalsEnd);
  }

  lemma {:induction false} GndStops(src: string, p: nat, num: nat, equalsEnd: bool)
    requires p <= |src|
    ensures var r := FunkyFrom(src, p, Gnd, num, equalsEnd);
      r.ok ==> IsStop(At(src, r.stop), equalsEnd)
    decreases |src| + 1 - p, Rank(Gnd), 0
  {
    var c := At(src, p);
    if c == ':' || c == '\0' {
    } else if c == '\\' {
      FunkyStops(src, p + 1, Backslash, num, equalsEnd);
    } else if c == '^' {
      FunkyStops(src, p + 1, Caret, num, equalsEnd);
    } else if c == '=' && equalsEnd {
    } else {
      FunkyStops(src, p + 1, Gnd, num, equalsEnd);
    }
  }

  lemma {:induction false} BackslashStops(src: string, p: nat, num: nat, equalsEnd: bool)
    requires p <= |src|
    ensures var r := FunkyFrom(src, p, Backslash, num, equalsEnd);
      r.ok ==> IsStop(At(src, r.stop), equalsEnd)
    decreases |src| + 1 - p, Rank(Backslash), 0
  {
    var c := At(src, p);
    if IsOctalDigit(c) {
      FunkyStops(src, p + 1, Octal, c as int - '0' as int, equalsEnd);
    } else if c == 'x' || c == 'X' {
      FunkyStops(src, p + 1, Hex, 0, equalsEnd);
    } else if c != '\0' {
      FunkyStops(src, p + 1, Gnd, EscapedChar(c) as int, equalsEnd);
    }
  }

  lemma {:induction false} NumberStops(src: string, p: nat, st: FunkyState, num: nat, equalsEnd: bool)
    requires p <= |src| && (st == Octal || st == Hex) && num < 256
    ensures var r := FunkyFrom(src, p, st, num, equalsEnd);
      r.ok ==> IsStop(At(src, r.stop), equalsEnd)
    decreases |src| + 1 - p, Rank(st), 0
  {
    var c := At(src, p);
    if st == Octal {
      if !IsOctalDigit(c) {
        FunkyStops(src, p, Gnd, num, equalsEnd);
      } else {
        FunkyStops(src, p + 1, Octal, (num * 8 + (c as int - '0' as int)) % 256, equalsEnd);
      }
    } else {
      var d := HexDigit(c);
      if d.None? {
        FunkyStops(src, p, Gnd, num, equalsEnd);
      } else {
        FunkyStops(src, p + 1, Hex, (num * 16 + d.value) % 256, equalsEnd);
      }
    }
  }

  lemma {:induction false} CaretStops(src: string, p: nat, num: nat, equalsEnd: bool)
    requires p <= |src|
    ensures var r := FunkyFrom(src, p, Caret, num, equalsEnd);
      r.ok ==> IsStop(At(src, r.stop), equalsEnd)
    decreases |src| + 1 - p, Rank(Caret), 0
  {
    var c := At(src, p);
    if '@' <= c <= '~' {
      FunkyStops(src, p + 1, Gnd, num, equalsEnd);
    } else if c == '?' {
      FunkyStops(src, p, Gnd, num, equalsEnd);
    }
  }

  /** Decoding never produces more bytes than it consumes, plus one owed by
      a pending octal, hexadecimal or caret escape. */
  lemma {:induction false} FunkyOutBound(src: string, p: nat, st: FunkyState, num: nat, equalsEnd: bool)
    requires p <= |src| + 1
    requires st != Error ==> p <= |src|
    requires st == Octal || st == Hex ==> num < 256
    ensures var r := FunkyFrom(src, p, st, num, equalsEnd);
      |r.out| <= r.stop - p + Pending(st)
    decreases |src| + 1 - p, Rank(st), 1
  {
    match st
    case End =>
    case Error =>
    case Gnd => GndOutBound(src, p, num, equalsEnd);
    case Backslash => BackslashOutBound(src, p, num, equalsEnd);
    case Octal => NumberOutBound(src, p, Octal, num, equalsEnd);
    case Hex => NumberOutBound(src, p, Hex, num, equalsEnd);
    case Caret => CaretOutBound(src, p, num, equalsEnd);
  }

  lemma {:induction false} GndOutBound(src: string, p: nat, num: nat, equalsEnd: bool)
    requires p <= |src|
    ensures var r := FunkyFrom(src, p, Gnd, num, equalsEnd);
      |r.out| <= r.stop - p
    decreases |src| + 1 - p, Rank(Gnd), 0
  {
    var c := At(src, p);
    if c == ':' || c == '\0' {
    } else if c == '\\' {
      FunkyOutBound(src, p + 1, Backslash, num, equalsEnd);
    } else if c == '^' {
      FunkyOutBound(src, p + 1, Caret, num, equalsEnd);
    } else if c == '=' && equalsEnd {
    } else {
      FunkyOutBound(src, p + 1, Gnd, num, equalsEnd);
    }
  }

  lemma {:induction false} BackslashOutBound(src: string, p: nat, num: nat, equalsEnd: bool)
    requires p <= |src|
    ensures var r := FunkyFrom(src, p, Backslash, num, equalsEnd);
      |r.out| <= r.stop - p
    decreases |src| + 1 - p, Rank(Backslash), 0
  {
    var c := At(src, p);
    if IsOctalDigit(c) {
      FunkyOutBound(src, p + 1, Octal, c as int - '0' as int, equalsEnd);
    } else if c == 'x' || c == 'X' {
      FunkyOutBound(src, p + 1, Hex, 0, equalsEnd);
    } else if c != '\0' {
      FunkyOutBound(src, p + 1, Gnd, EscapedChar(c) as int, equalsEnd);
    }
  }

  lemma {:induction false} NumberOutBound(src: string, p: nat, st: FunkyState, num: nat, equalsEnd: bool)
    requires p <= |src| && (st == Octal || st == Hex) && num < 256
    ensures var r := FunkyFrom(src, p, st, num, equalsEnd);
      |r.out| <= r.stop - p + 1
    decreases |src| + 1 - p, Rank(st), 0
  {
    var c := At(src, p);
    if st == Octal {
      if !IsOctalDigit(c) {
        FunkyOutBound(src, p, Gnd, num, equalsEnd);
      } else {
        FunkyOutBound(src, p + 1, Octal, (num * 8 + (c as int - '0' as int)) % 256, equalsEnd);
      }
    } else {
      var d := HexDigit(c);
      if d.None? {
        FunkyOutBound(src, p, Gnd, num, equalsEnd);
      } else {
        FunkyOutBound(src, p + 1, Hex, (num * 16 + d.value) % 256, equalsEnd);
      }
    }
  }

  lemma {:induction false} CaretOutBound(src: string, p: nat, num: nat, equalsEnd: bool)
    requires p <= |src|
    ensures var r := FunkyFrom(src, p, Caret, num, equalsEnd);
      |r.out| <= r.stop - p + 1
    decreases |src| + 1 - p, Rank(Caret), 0
  {
    var c := At(src, p);
    if '@' <= c <= '~' {
      FunkyOutBound(src, p + 1, Gnd, num, equalsEnd);
    } else if c == '?' {
      FunkyOutBound(src, p, Gnd, num, equalsEnd);
    }
  }

  /** Decoding one string from `p` (get_funky_string as called). */
  function Decode(src: string, p: nat, equalsEnd: bool): (r: Funky)
    requires p <= |src|
    ensures p <= r.stop <= |src| + 1 && |r.out| <= r.stop - p
  {
    FunkyOutBound(src, p, Gnd, 0, equalsEnd);
    FunkyFrom(src, p, Gnd, 0, equalsEnd)
  }

  /** Stores `c` at `dest[q]`, extending the written part `dest[q0..q]`. */
  method Put(dest: array<char>, q0: nat, q: nat, c: char)
    requires q0 <= q < dest.Length
    modifies dest
    ensures dest[q0..q + 1] == old(dest[q0..q]) + [c]
    ensures dest[..q0] == old(dest[..q0])
  {
    dest[q] := c;
  }

  /** Input consumed but not yet accounted for by output. */
  function Owed(st: FunkyState): nat
  {
    if st == Gnd || st == End then 0 else 1
  }

  /** One pass through the decoder's switch on the character at `p`: the
      next position, state and accumulator, and the byte emitted, if any. */
  method FunkyStep(src: string, p: nat, state: FunkyState, num: nat, equalsEnd: bool)
      returns (p': nat, state': FunkyState, num': nat, emit: Option<char>)
    requires p <= |src| && state != End && state != Error
    requires state == Octal || state == Hex ==> num < 256
    ensures p <= p' <= p + 1 && (p' == p ==> Rank(state') < Rank(state))
    ensures state' != Error ==> p' <= |src|
    ensures state' == Octal || state' == Hex ==> num' < 256
    ensures Owed(state') + (if emit.Some? then 1 else 0) <= Owed(state) + (p' - p)
    ensures FunkyFrom(src, p, state, num, equalsEnd)
            == if emit.Some? then Emit(emit.value, FunkyFrom(src, p', state', num', equalsEnd))
               else FunkyFrom(src, p', state', num', equalsEnd)
  {
    var c := At(src, p);
    p', state', num', emit := p, state, num, None;
    match state {
      case Gnd =>
        if c == ':' || c == '\0' {
          state' := End;
        } else if c == '\\' {
          state', p' := Backslash, p + 1;
        } else if c == '^' {
          state', p' := Caret, p + 1;
        } else if c == '=' && equalsEnd {
          state' := End;
        } else {
          emit, p' := Some(c), p + 1;
        }
      case Backslash =>
        if IsOctalDigit(c) {
          state', num' := Octal, c as int - '0' as int;
        } else if c == 'x' || c == 'X' {
          state', num' := Hex, 0;
        } else if c == '\0' {
          state' := Error;
        } else {
          num' := EscapedChar(c) as int;
          state', emit := Gnd, Some(EscapedChar(c));
        }
        p' := p + 1;
      case Octal =>
        if !IsOctalDigit(c) {
          state', emit := Gnd, Some(num as char);
        } else {
          num', p' := (num * 8 + (c as int - '0' as int)) % 256, p + 1;
        }
      case Hex =>
        var d := HexDigit(c);
        if d.Some? {
          num', p' := (num * 16 + d.value) % 256, p + 1;
        } else {
          state', emit := Gnd, Some(num as char);
        }
      case Caret =>
        state' := Gnd;
        if '@' <= c <= '~' {
          emit, p' := Some((c as int % 32) as char), p + 1;
        } else if c == '?' {
          emit := Some(127 as char);
        } else {
          state' := Error;
        }
    }
  }

  lemma AppendEmitted(whole: string, done: string, rest: string, c: char, rest': string)
    requires whole == done + rest && rest == [c] + rest'
    ensures whole == (done + [c]) + rest'
  {
  }

  /** get_funky_string: decodes the string starting at `src[p0]` into
      `dest[q0..]`. Returns whether it succeeded, the first free index of
      `dest`, the index of the character that ended the input, and the
      number of bytes written, which never exceeds the input consumed. */
  method GetFunkyString(dest: array<char>, q0: nat, src: string, p0: nat, equalsEnd: bool)
      returns (ok: bool, q: nat, p: nat, count: nat)
    requires p0 <= |src| && q0 + (|src| - p0) <= dest.Length
    modifies dest
    ensures q == q0 + count && count <= p - p0 && q <= dest.Length
    ensures Decode(src, p0, equalsEnd) == Funky(ok, dest[q0..q], p)
    ensures dest[..q0] == old(dest[..q0])
  {
    ghost var result := Decode(src, p0, equalsEnd);
    ghost var out: string := [];
    p, q, count := p0, q0, 0;
    var num: nat := 0;
    var state := Gnd;
    while state != End && state != Error
      invariant p <= |src| + 1 && (state != Error ==> p <= |src|)
      invariant (state == Octal || state == Hex) ==> num < 256
      invariant q == q0 + count && count + Owed(state) <= p - p0
      invariant q0 + (|src| - p0) <= dest.Length && q <= dest.Length
      invariant dest[q0..q] == out && dest[..q0] == old(dest[..q0])
      invariant var rest := FunkyFrom(src, p, state, num, equalsEnd);
        result.ok == rest.ok && result.stop == rest.stop && result.out == out + rest.out
      decreases |src| + 1 - p, Rank(state)
    {
      ghost var before := FunkyFrom(src, p, state, num, equalsEnd);
      var emit;
      p, state, num, emit := FunkyStep(src, p, state, num, equalsEnd);
      if emit.Some? {
        AppendEmitted(result.out, out, before.out, emit.value, FunkyFrom(src, p, state, num, equalsEnd).out);
        Put(dest, q0, q, emit.value);
        out := out + [emit.value];
        q, count := q + 1, count + 1;
      }
    }
    ok := state == End;
  }

  // ---- properties of the decoder ----------------------------------------

  /** Text free of escape and stop characters decodes to itself and ends at
      the stop character that follows it. */
  lemma {:induction false} DecodePlain(src: string, p: nat, k: nat, num: nat, equalsEnd: bool)
    requires p <= k <= |src|
    requires forall i :: p <= i < k ==> !IsStop(src[i], equalsEnd) && src[i] != '\\' && src[i] != '^'
    requires IsStop(At(src, k), equalsEnd)
    ensures FunkyFrom(src, p, Gnd, num, equalsEnd) == Funky(true, src[p..k], k)
    decreases k - p
  {
    if p < k {
      DecodePlain(src, p + 1, k, num, equalsEnd);
      assert src[p..k] == [src[p]] + src[p + 1..k];
    }
  }

  /** Characters the decoder treats specially. */
  predicate IsSpecial(c: char)
  {
    c == ':' || c == '=' || c == '\\' || c == '^'
  }

  /** Escapes `s` for use in LS_COLORS: every special character gets a
      backslash in front, which the decoder maps back to the character. */
  function Escape(s: string): (r: string)
    ensures |r| >= |s|
  {
    if s == [] then []
    else (if IsSpecial(s[0]) then ['\\', s[0]] else [s[0]]) + Escape(s[1..])
  }

  /** One escaped character: a special character behind a backslash, or any
      other non-NUL character as itself, decodes to that character. */
  lemma DecodeEscapedHead(src: string, p: nat, c: char, num: nat, equalsEnd: bool)
    requires c != '\0'
    requires IsSpecial(c) ==> p + 2 <= |src| && src[p] == '\\' && src[p + 1] == c
    requires !IsSpecial(c) ==> p + 1 <= |src| && src[p] == c
    ensures IsSpecial(c) ==>
      FunkyFrom(src, p, Gnd, num, equalsEnd) == Emit(c, FunkyFrom(src, p + 2, Gnd, c as int, equalsEnd))
    ensures !IsSpecial(c) ==>
      FunkyFrom(src, p, Gnd, num, equalsEnd) == Emit(c, FunkyFrom(src, p + 1, Gnd, num, equalsEnd))
  {
    if IsSpecial(c) {
      assert FunkyFrom(src, p, Gnd, num, equalsEnd) == FunkyFrom(src, p + 1, Backslash, num, equalsEnd);
      assert EscapedChar(c) == c;
    }
  }

  /** Decoding inverts Escape: escaped text followed by ':' decodes back to
      the original text, whatever ends strings. */
  lemma {:induction false} DecodeEscape(src: string, p: nat, s: string, num: nat, equalsEnd: bool)
    requires '\0' !in s
    requires p + |Escape(s)| < |src| && src[p..p + |Escape(s)|] == Escape(s) && src[p + |Escape(s)|] == ':'
    ensures FunkyFrom(src, p, Gnd, num, equalsEnd) == Funky(true, s, p + |Escape(s)|)
    decreases |s|
  {
    if s == [] {
      assert At(src, p) == ':';
    } else {
      var head := if IsSpecial(s[0]) then ['\\', s[0]] else [s[0]];
      var tail := Escape(s[1..]);
      assert Escape(s) == head + tail;
      EscapedSlices(src, p, head, tail);
      DecodeEscapedHead(src, p, s[0], num, equalsEnd);
      DecodeEscape(src, p + |head|, s[1..], if IsSpecial(s[0]) then s[0] as int else num, equalsEnd);
      assert [s[0]] + s[1..] == s;
    }
  }

  /** The two parts of escaped text found in the input. */
  lemma EscapedSlices(src: string, p: nat, head: string, tail: string)
    requires p + |head| + |tail| <= |src| && src[p..p + |head| + |tail|] == head + tail
    ensures forall i :: 0 <= i < |head| ==> src[p + i] == head[i]
    ensures src[p + |head|..p + |head| + |tail|] == tail
  {
    forall i | 0 <= i < |head|
      ensures src[p + i] == head[i]
    {
      assert src[p + i] == src[p..p + |head| + |tail|][i];
    }
    assert src[p + |head|..p + |head| + |tail|] == src[p..p + |head| + |tail|][|head|..];
  }

  lemma EscapeRoundTrip(s: string, equalsEnd: bool)
    requires '\0' !in s
    ensures Decode(Escape(s) + ":", 0, equalsEnd) == Funky(true, s, |Escape(s)|)
  {
    var src := Escape(s) + ":";
    assert src[0..|Escape(s)|] == Escape(s);
    DecodeEscape(src, 0, s, 0, equalsEnd);
  }

  /** A backslash and three octal digits, not followed by another octal
      digit, decode to the byte with that octal value (taken modulo 256). */
  lemma DecodeOctalTriple(src: string, p: nat, num: nat, equalsEnd: bool)
    requires p + 4 <= |src|
    requires src[p] == '\\' && IsOctalDigit(src[p + 1]) && IsOctalDigit(src[p + 2]) && IsOctalDigit(src[p + 3])
    requires !IsOctalDigit(At(src, p + 4))
    ensures var v := ((src[p + 1] as int - '0' as int) * 64 + (src[p + 2] as int - '0' as int) * 8
                      + (src[p + 3] as int - '0' as int)) % 256;
      FunkyFrom(src, p, Gnd, num, equalsEnd) == Emit(v as char, FunkyFrom(src, p + 4, Gnd, v, equalsEnd))
  {
    var d1, d2, d3 := src[p + 1] as int - '0' as int, src[p + 2] as int - '0' as int, src[p + 3] as int - '0' as int;
    var n2 := (d1 * 8 + d2) % 256;
    var n3 := (n2 * 8 + d3) % 256;
    assert n2 == d1 * 8 + d2;
    assert n3 == (d1 * 64 + d2 * 8 + d3) % 256;
    calc {
      FunkyFrom(src, p, Gnd, num, equalsEnd);
      FunkyFrom(src, p + 1, Backslash, num, equalsEnd);
      FunkyFrom(src, p + 2, Octal, d1, equalsEnd);
      FunkyFrom(src, p + 3, Octal, n2, equalsEnd);
      FunkyFrom(src, p + 4, Octal, n3, equalsEnd);
    }
  }

  /** A caret before '@'..'~' yields the control character with the low five
      bits; a caret before '?' yields DEL but leaves the '?' to be read again. */
  lemma DecodeCaret(src: string, p: nat, num: nat, equalsEnd: bool)
    requires p + 2 <= |src| && src[p] == '^'
    ensures '@' <= src[p + 1] <= '~' ==>
      FunkyFrom(src, p, Gnd, num, equalsEnd)
        == Emit((src[p + 1] as int % 32) as char, FunkyFrom(src, p + 2, Gnd, num, equalsEnd))
    ensures src[p + 1] == '?' ==>
      FunkyFrom(src, p, Gnd, num, equalsEnd) == Emit(127 as char, FunkyFrom(src, p + 1, Gnd, num, equalsEnd))
    ensures !('@' <= src[p + 1] <= '~') && src[p + 1] != '?' ==>
      !FunkyFrom(src, p, Gnd, num, equalsEnd).ok
  {
  }

  /** A backslash at the end of the input is an error. */
  lemma DecodeTrailingBackslash(src: string, num: nat, equalsEnd: bool)
    requires |src| > 0 && src[|src| - 1] == '\\'
    ensures !FunkyFrom(src, |src| - 1, Gnd, num, equalsEnd).ok
  {
  }

  // ---- parse_ls_color ---------------------------------------------------

  /** One `*ext=seq` entry; `seq` is None until its sequence has been parsed. */
  datatype ColorExt = ColorExt(ext: string, sgr: Option<string>)

  /** The state parse_ls_color builds: the colour table, the extension list
      (latest entry first), whether symlinks are coloured as their targets,
      the label of an "unrecognized prefix" error and whether parsing
      completed. */
  datatype LsParse = LsParse(colors: seq<string>, ext: seq<ColorExt>, referent: bool,
                             error: Option<string>, ok: bool)

  /** The index of `ind` among the two-letter labels. */
  function IndicatorIndex(ind: string): (r: Option<nat>)
    ensures r.Some? ==> r.value < |IndicatorName| && IndicatorName[r.value] == ind
    ensures r.None? ==> ind !in IndicatorName
  {
    IndexOf(IndicatorName, ind, 0)
  }

  /** The parser from position `p` in state `state` (1: first label
      character, 2: second label character, 3: '=' after a label, 4: '='
      after an extension). */
  function ParseFrom(s: string, p: nat, state: int, ind: string, t: LsParse): (r: LsParse)
    requires p <= |s| && 1 <= state <= 4 && |ind| == 2 && |t.colors| == MAX_LS
    requires state == 4 ==> |t.ext| > 0
    ensures |r.colors| == MAX_LS && |r.ext| >= |t.ext|
    decreases |s| - p
  {
    var c := At(s, p);
    if state == 1 then
      if c == ':' then ParseFrom(s, p + 1, 1, ind, t)
      else if c == '*' then
        var f := Decode(s, p + 1, true);
        var t' := t.(ext := [ColorExt(f.out, None)] + t.ext);
        if f.ok then ParseFrom(s, f.stop, 4, ind, t') else t'.(ok := false)
      else if c == '\0' then t
      else ParseFrom(s, p + 1, 2, [c, ind[1]], t)
    else if state == 2 then
      if c != '\0' then ParseFrom(s, p + 1, 3, [ind[0], c], t) else t.(ok := false)
    else if state == 3 then
      var i := IndicatorIndex(ind);
      if c != '=' then t.(ok := false)
      else if i.None? then t.(error := Some(ind), ok := false)
      else
        var f := Decode(s, p + 1, false);
        if !f.ok then t.(error := Some(ind), ok := false)
        else if i.value == LS_LN && f.out == "target" then ParseFrom(s, f.stop, 1, ind, t.(referent := true))
        else ParseFrom(s, f.stop, 1, ind, t.(colors := t.colors[i.value := Sgr(f.out)]))
    else
      if c == '=' then
        var f := Decode(s, p + 1, false);
        var t' := t.(ext := [t.ext[0].(sgr := Some(f.out))] + t.ext[1..]);
        if f.ok then ParseFrom(s, f.stop, 1, ind, t') else t'.(ok := false)
      else t.(ok := false)
  }

  /** The effect of the LS_COLORS value `s` on the state `t`: an empty
      value (its first character is NUL) leaves everything as it was,
      before the final check of the `ln` slot is reached. */
  function ParseLsColors(s: string, t: LsParse): (r: LsParse)
    requires |t.colors| == MAX_LS
    ensures |r.colors| == MAX_LS
    ensures |r.ext| >= |t.ext| && r.ext[|r.ext| - |t.ext|..] == t.ext
    ensures At(s, 0) == '\0' ==> r == t
    ensures At(s, 0) != '\0' && CStr(r.colors[LS_LN]) == "target" ==> r.referent
    ensures t.referent ==> r.referent
    ensures r.error != t.error ==> r.error.Some? && !r.ok
  {
    if At(s, 0) == '\0' then t
    else
      ParseFromExt(s, 0, 1, "??", t);
      ParseFromFlags(s, 0, 1, "??", t);
      var r := ParseFrom(s, 0, 1, "??", t);
      r.(referent := r.referent || CStr(r.colors[LS_LN]) == "target")
  }


  /** The parser only pushes extension entries in front of the old ones;
      in state 4 the newest old entry is the one being completed. */
  lemma {:induction false} ParseFromExt(s: string, p: nat, state: int, ind: string, t: LsParse)
    requires p <= |s| && 1 <= state <= 4 && |ind| == 2 && |t.colors| == MAX_LS
    requires state == 4 ==> |t.ext| > 0
    ensures var r := ParseFrom(s, p, state, ind, t);
      && (state != 4 ==> r.ext[|r.ext| - |t.ext|..] == t.ext)
      && (state == 4 ==> r.ext[|r.ext| - |t.ext| + 1..] == t.ext[1..])
    decreases |s| - p
  {
    var c := At(s, p);
    if state == 1 {
      if c == ':' {
        ParseFromExt(s, p + 1, 1, ind, t);
      } else if c == '*' {
        ParseStarExt(s, p, ind, t);
      } else if c != '\0' {
        ParseFromExt(s, p + 1, 2, [c, ind[1]], t);
      }
    } else if state == 2 {
      if c != '\0' {
        ParseFromExt(s, p + 1, 3, [ind[0], c], t);
      }
    } else if state == 3 {
      ParseIndicatorExt(s, p, ind, t);
    } else {
      ParseExtValueExt(s, p, ind, t);
    }
  }

  lemma {:induction false} ParseStarExt(s: string, p: nat, ind: string, t: LsParse)
    requires p <= |s| && At(s, p) == '*' && |ind| == 2 && |t.colors| == MAX_LS
    ensures var r := ParseFrom(s, p, 1, ind, t); r.ext[|r.ext| - |t.ext|..] == t.ext
    decreases |s| - p, 0
  {
    var f := Decode(s, p + 1, true);
    var t' := t.(ext := [ColorExt(f.out, None)] + t.ext);
    if f.ok {
      ParseFromExt(s, f.stop, 4, ind, t');
      assert t'.ext[1..] == t.ext;
    }
  }

  lemma {:induction false} ParseExtValueExt(s: string, p: nat, ind: string, t: LsParse)
    requires p <= |s| && |ind| == 2 && |t.colors| == MAX_LS && |t.ext| > 0
    ensures var r := ParseFrom(s, p, 4, ind, t); r.ext[|r.ext| - |t.ext| + 1..] == t.ext[1..]
    decreases |s| - p, 0
  {
    if At(s, p) == '=' {
      var f := Decode(s, p + 1, false);
      var t' := t.(ext := [t.ext[0].(sgr := Some(f.out))] + t.ext[1..]);
      if f.ok {
        ParseFromExt(s, f.stop, 1, ind, t');
        var r := ParseFrom(s, f.stop, 1, ind, t');
        assert r == ParseFrom(s, p, 4, ind, t);
        var n := |r.ext| - |t'.ext|;
        assert t'.ext[1..] == t.ext[1..];
        assert r.ext[n + 1..] == r.ext[n..][1..];
      }
    }
  }

  lemma {:induction false} ParseIndicatorExt(s: string, p: nat, ind: string, t: LsParse)
    requires p <= |s| && |ind| == 2 && |t.colors| == MAX_LS
    ensures var r := ParseFrom(s, p, 3, ind, t); r.ext[|r.ext| - |t.ext|..] == t.ext
    decreases |s| - p, 0
  {
    var i := IndicatorIndex(ind);
    if At(s, p) == '=' && i.Some? {
      var f := Decode(s, p + 1, false);
      if f.ok {
        if i.value == LS_LN && f.out == "target" {
          ParseFromExt(s, f.stop, 1, ind, t.(referent := true));
        } else {
          ParseFromExt(s, f.stop, 1, ind, t.(colors := t.colors[i.value := Sgr(f.out)]));
        }
      }
    }
  }

  /** The parser never clears the symlink-as-referent flag and records an
      error only when it stops early. */
  lemma {:induction false} ParseFromFlags(s: string, p: nat, state: int, ind: string, t: LsParse)
    requires p <= |s| && 1 <= state <= 4 && |ind| == 2 && |t.colors| == MAX_LS
    requires state == 4 ==> |t.ext| > 0
    ensures var r := ParseFrom(s, p, state, ind, t);
      (t.referent ==> r.referent) && (r.error != t.error ==> r.error.Some? && !r.ok)
    decreases |s| - p
  {
    var c := At(s, p);
    if state == 1 {
      if c == ':' {
        ParseFromFlags(s, p + 1, 1, ind, t);
      } else if c == '*' {
        var f := Decode(s, p + 1, true);
        if f.ok {
          ParseFromFlags(s, f.stop, 4, ind, t.(ext := [ColorExt(f.out, None)] + t.ext));
        }
      } else if c != '\0' {
        ParseFromFlags(s, p + 1, 2, [c, ind[1]], t);
      }
    } else if state == 2 {
      if c != '\0' {
        ParseFromFlags(s, p + 1, 3, [ind[0], c], t);
      }
    } else if state == 3 {
      ParseIndicatorFlags(s, p, ind, t);
    } else if c == '=' {
      var f := Decode(s, p + 1, false);
      if f.ok {
        ParseFromFlags(s, f.stop, 1, ind, t.(ext := [t.ext[0].(sgr := Some(f.out))] + t.ext[1..]));
      }
    }
  }

  lemma {:induction false} ParseIndicatorFlags(s: string, p: nat, ind: string, t: LsParse)
    requires p <= |s| && |ind| == 2 && |t.colors| == MAX_LS
    ensures var r := ParseFrom(s, p, 3, ind, t);
      (t.referent ==> r.referent) && (r.error != t.error ==> r.error.Some? && !r.ok)
    decreases |s| - p, 0
  {
    var i := IndicatorIndex(ind);
    if At(s, p) == '=' && i.Some? {
      var f := Decode(s, p + 1, false);
      if f.ok {
        if i.value == LS_LN && f.out == "target" {
          ParseFromFlags(s, f.stop, 1, ind, t.(referent := true));
        } else {
          ParseFromFlags(s, f.stop, 1, ind, t.(colors := t.colors[i.value := Sgr(f.out)]));
        }
      }
    }
  }

  /** The two-letter labels are lower-case letters, so none of them begins
      with ':', '*' or NUL. */
  lemma IndicatorNameLetters(i: nat)
    requires i < |IndicatorName|
    ensures |IndicatorName[i]| == 2 && 'a' <= IndicatorName[i][0] <= 'z' && 'a' <= IndicatorName[i][1] <= 'z'
  {
  }

  /** Two characters that start a label are read into the label. */
  lemma ParseLabel(s: string, p: nat, prev: string, t: LsParse)
    requires |t.colors| == MAX_LS && |prev| == 2 && p + 2 <= |s|
    requires s[p] != ':' && s[p] != '*' && s[p] != '\0' && s[p + 1] != '\0'
    ensures ParseFrom(s, p, 1, prev, t) == ParseFrom(s, p + 2, 3, s[p..p + 2], t)
  {
    assert ParseFrom(s, p, 1, prev, t) == ParseFrom(s, p + 1, 2, [s[p], prev[1]], t);
    assert [s[p], s[p + 1]] == s[p..p + 2];
  }

  /** An entry `xx=seq:` with a known label `xx` stores SGR(seq) in the
      label's slot ("ln=target" instead colours symlinks as their targets),
      and parsing carries on after the ':'. */
  lemma ParseIndicatorEntry(s: string, p: nat, ind: string, v: string, prev: string, t: LsParse)
    requires |t.colors| == MAX_LS && |prev| == 2 && IndicatorIndex(ind).Some? && '\0' !in v
    requires p + 3 + |Escape(v)| < |s| && s[p..p + 2] == ind && s[p + 2] == '='
    requires s[p + 3..p + 3 + |Escape(v)|] == Escape(v) && s[p + 3 + |Escape(v)|] == ':'
    ensures var i := IndicatorIndex(ind).value;
      ParseFrom(s, p, 1, prev, t)
        == ParseFrom(s, p + 3 + |Escape(v)|, 1, ind,
                     if i == LS_LN && v == "target" then t.(referent := true) else t.(colors := t.colors[i := Sgr(v)]))
  {
    IndicatorNameLetters(IndicatorIndex(ind).value);
    assert s[p] == ind[0] && s[p + 1] == ind[1];
    ParseLabel(s, p, prev, t);
    DecodeEscape(s, p + 3, v, 0, false);
  }

  /** An entry `xx=...` whose label is not a known indicator stops the
      parse and reports that label. */
  lemma ParseUnknownLabel(s: string, p: nat, prev: string, t: LsParse)
    requires |t.colors| == MAX_LS && |prev| == 2 && p + 3 <= |s|
    requires s[p] != ':' && s[p] != '*' && s[p] != '\0' && s[p + 1] != '\0' && s[p + 2] == '='
    requires s[p..p + 2] !in IndicatorName
    ensures ParseFrom(s, p, 1, prev, t) == t.(error := Some(s[p..p + 2]), ok := false)
  {
    ParseLabel(s, p, prev, t);
  }

  /** A label not followed by '=' stops the parse without a report, whether
      or not the label is known. */
  lemma ParseMissingEquals(s: string, p: nat, prev: string, t: LsParse)
    requires |t.colors| == MAX_LS && |prev| == 2 && p + 2 <= |s|
    requires s[p] != ':' && s[p] != '*' && s[p] != '\0' && s[p + 1] != '\0' && At(s, p + 2) != '='
    ensures ParseFrom(s, p, 1, prev, t) == t.(ok := false)
  {
    ParseLabel(s, p, prev, t);
  }

  /** A known label with '=' whose value does not decode stops the parse and
      reports the label. */
  lemma ParseBadValue(s: string, p: nat, prev: string, t: LsParse)
    requires |t.colors| == MAX_LS && |prev| == 2 && p + 3 <= |s|
    requires s[p] != ':' && s[p] != '*' && s[p] != '\0' && s[p + 1] != '\0' && s[p + 2] == '='
    requires s[p..p + 2] in IndicatorName && !Decode(s, p + 3, false).ok
    ensures ParseFrom(s, p, 1, prev, t) == t.(error := Some(s[p..p + 2]), ok := false)
  {
    ParseLabel(s, p, prev, t);
  }

  // ---- color.ls.<slot> configuration ------------------------------------

  function ToLower(c: char): char
  {
    if 'A' <= c <= 'Z' then (c as int + 32) as char else c
  }

  /** ASCII case folding, as strcasecmp compares. */
  function Lower(s: string): (r: string)
    ensures |r| == |s| && forall i :: 0 <= i < |s| ==> r[i] == ToLower(s[i])
  {
    if s == [] then [] else [ToLower(s[0])] + Lower(s[1..])
  }

  /** The table slot configured by `key` (compared case-insensitively with
      the "color.ls." prefix removed): the first slot whose name matches. */
  function ConfigSlot(key: string): (r: Option<nat>)
    ensures r.Some? ==> r.value < MAX_LS && IsPrefix("color.ls.", key)
                        && Lower(key[9..]) == ConfigName[r.value]
                        && forall j :: 0 <= j < r.value ==> ConfigName[j] != Lower(key[9..])
    ensures r.None? ==> !IsPrefix("color.ls.", key) || Lower(key[9..]) !in ConfigName
  {
    if !IsPrefix("color.ls.", key) then None else IndexOf(ConfigName, Lower(key[9..]), 0)
  }

  lemma LowerOfLowerCase(s: string)
    requires forall i :: 0 <= i < |s| ==> !('A' <= s[i] <= 'Z')
    ensures Lower(s) == s
  {
  }

  /** Every named slot is reached by its own key, in any letter case, and
      the four unnamed leading slots are all shadowed by the first: the key
      "color.ls." itself selects slot 0. */
  lemma ConfigSlotOfName(i: nat, key: string)
    requires 4 <= i < MAX_LS && i != LS_CL
    requires IsPrefix("color.ls.", key) && Lower(key[9..]) == ConfigName[i]
    ensures ConfigSlot(key) == Some(i)
  {
    var r := ConfigSlot(key);
    assert r.Some?;
    if r.value != i {
      ConfigNamesDistinct(r.value, i);
    }
  }

  lemma ConfigNamesDistinct(j: nat, i: nat)
    requires j < i < MAX_LS && ConfigName[i] != ""
    ensures ConfigName[j] != ConfigName[i]
  {
    var a, b := ConfigName[j], ConfigName[i];
    if |a| == |b| {
      assert a[0] != b[0] || a[|a| - 1] != b[|b| - 1] || |a| < 4 || a[3] != b[3];
    }
  }

  lemma ConfigSlotEmpty()
    ensures ConfigSlot("color.ls.") == Some(LS_LC)
  {
    assert "color.ls."[9..] == [];
  }

  // ---- color_filename ---------------------------------------------------

  // File type and permission bits of a mode (octal values written in hex).
  const S_IFMT: bv32 := 0xF000
  const S_IFREG: bv32 := 0x8000
  const S_IFDIR: bv32 := 0x4000
  const S_IFLNK: bv32 := 0xA000
  const S_IFIFO: bv32 := 0x1000
  const S_IFSOCK: bv32 := 0xC000
  const S_IFBLK: bv32 := 0x6000
  const S_IFCHR: bv32 := 0x2000
  const S_IFGITLINK: bv32 := 0xE000
  const S_ISUID: bv32 := 0x800
  const S_ISGID: bv32 := 0x400
  const S_ISVTX: bv32 := 0x200
  const S_IXUSR: bv32 := 0x40
  const S_IXGRP: bv32 := 0x8
  const S_IXOTH: bv32 := 0x1
  const S_IWOTH: bv32 := 0x2

  predicate IsType(mode: bv32, t: bv32) { mode & S_IFMT == t }

  /** The table index used for a file of this mode; `orphanColor` is the
      colour configured for orphaned symlinks. */
  function ColorType(mode: bv32, linkok: bool, orphanColor: string): (t: nat)
    ensures t < MAX_LS
  {
    if IsType(mode, S_IFREG) then
      if mode & S_ISUID != 0 then LS_SU
      else if mode & S_ISGID != 0 then LS_SG
      else if mode & (S_IXUSR | S_IXGRP | S_IXOTH) != 0 then LS_EX
      else LS_FL
    else if IsType(mode, S_IFDIR) then
      if mode & S_ISVTX != 0 && mode & S_IWOTH != 0 then LS_TW
      else if mode & S_IWOTH != 0 then LS_OW
      else if mode & S_ISVTX != 0 then LS_ST
      else LS_DI
    else if IsType(mode, S_IFLNK) then
      if !linkok && CStr(orphanColor) != [] then LS_OR else LS_LN
    else if IsType(mode, S_IFGITLINK) then LS_SUBMODULE
    else if IsType(mode, S_IFIFO) then LS_PI
    else if IsType(mode, S_IFSOCK) then LS_SO
    else if IsType(mode, S_IFBLK) then LS_BD
    else if IsType(mode, S_IFCHR) then LS_CD
    else LS_OR
  }

  /** The index of the first extension entry that `name` ends with. */
  function FindExt(list: seq<ColorExt>, name: string): (r: Option<nat>)
    ensures r.Some? ==> r.value < |list| && IsSuffix(list[r.value].ext, name)
    ensures r.Some? ==> forall j :: 0 <= j < r.value ==> !IsSuffix(list[j].ext, name)
    ensures r.None? ==> forall j :: 0 <= j < |list| ==> !IsSuffix(list[j].ext, name)
  {
    if list == [] then None
    else if IsSuffix(list[0].ext, name) then Some(0)
    else
      var r := FindExt(list[1..], name);
      if r.None? then None else Some(r.value + 1)
  }

  /** The first suffix entry found by a linear scan is the one FindExt
      names, and a scan that finds none agrees with FindExt too. */
  lemma FindExtScan(list: seq<ColorExt>, name: string, e: Option<nat>)
    requires e.Some? ==> e.value < |list| && IsSuffix(list[e.value].ext, name)
    requires forall j :: 0 <= j < (if e.Some? then e.value else |list|) ==> !IsSuffix(list[j].ext, name)
    ensures FindExt(list, name) == e
  {
    var r := FindExt(list, name);
    if e.Some? {
      assert r.Some? && IsSuffix(list[r.value].ext, name);
      assert r.value <= e.value;
    } else {
      assert r.None?;
    }
  }

  /** What color_filename appends for `name`: the extension's sequence, the
      mode's colour or nothing, around the displayed name. None where the
      source reads an extension sequence that was never set. */
  function ColoredName(colors: seq<string>, ext: seq<ColorExt>, name: string, displayName: Option<string>,
                       mode: bv32, linkok: bool): (r: Option<string>)
    requires |colors| == MAX_LS
    ensures var shown := CStr(if displayName.Some? then displayName.value else name);
      r.Some? ==> r.value == shown || IsSuffix(shown + COLOR_RESET, r.value)
    ensures r.None? ==> FindExt(ext, name).Some?
  {
    var t := ColorType(mode, linkok, colors[LS_OR]);
    var shown := CStr(if displayName.Some? then displayName.value else name);
    var e := if t == LS_FL then FindExt(ext, name) else None;
    if e.Some? then
      if ext[e.value].sgr.Some? then Some(Sgr(ext[e.value].sgr.value) + shown + COLOR_RESET) else None
    else if CStr(colors[t]) != [] then Some(CStr(colors[t]) + shown + COLOR_RESET)
    else Some(shown)
  }

  /** Only regular files get the file, executable, setuid or setgid colour;
      an executable bit selects the executable colour unless a set-id bit
      takes precedence. */
  lemma ColorTypeRegular(mode: bv32, linkok: bool, orphanColor: string)
    ensures var t := ColorType(mode, linkok, orphanColor);
      IsType(mode, S_IFREG) <==> t in {LS_FL, LS_EX, LS_SU, LS_SG}
    ensures IsType(mode, S_IFREG) && mode & (S_ISUID | S_ISGID) == 0 ==>
      (ColorType(mode, linkok, orphanColor) == LS_EX <==> mode & (S_IXUSR | S_IXGRP | S_IXOTH) != 0)
  {
    assert S_IFMT & S_IFREG == S_IFREG;
    if IsType(mode, S_IFREG) && mode & (S_ISUID | S_ISGID) == 0 {
      assert mode & S_ISUID == 0 && mode & S_ISGID == 0;
    }
  }

  /** Directories are coloured by their sticky and other-writable bits. */
  lemma ColorTypeDirectory(mode: bv32, linkok: bool, orphanColor: string)
    requires IsType(mode, S_IFDIR)
    ensures var t := ColorType(mode, linkok, orphanColor);
      (t == LS_TW <==> mode & S_ISVTX != 0 && mode & S_IWOTH != 0)
      && (t == LS_OW <==> mode & S_ISVTX == 0 && mode & S_IWOTH != 0)
      && (t == LS_ST <==> mode & S_ISVTX != 0 && mode & S_IWOTH == 0)
      && (t == LS_DI <==> mode & S_ISVTX == 0 && mode & S_IWOTH == 0)
  {
  }

  /** A symlink whose target is missing gets the orphan colour exactly when
      one is configured; otherwise symlinks get the symlink colour. */
  lemma ColorTypeSymlink(mode: bv32, linkok: bool, orphanColor: string)
    requires IsType(mode, S_IFLNK)
    ensures ColorType(mode, linkok, orphanColor) == (if !linkok && CStr(orphanColor) != [] then LS_OR else LS_LN)
  {
  }

  /** Submodules, fifos, sockets, block and character devices each get a
      slot of their own; a mode of any other type gets the orphan colour. */
  lemma ColorTypeSpecial(mode: bv32, linkok: bool, orphanColor: string)
    requires !IsType(mode, S_IFREG) && !IsType(mode, S_IFDIR) && !IsType(mode, S_IFLNK)
    ensures var t := ColorType(mode, linkok, orphanColor);
      (t == LS_SUBMODULE <==> IsType(mode, S_IFGITLINK))
      && (t == LS_PI <==> IsType(mode, S_IFIFO))
      && (t == LS_SO <==> IsType(mode, S_IFSOCK))
      && (t == LS_BD <==> IsType(mode, S_IFBLK))
      && (t == LS_CD <==> IsType(mode, S_IFCHR))
      && (t == LS_OR <==> !(IsType(mode, S_IFGITLINK) || IsType(mode, S_IFIFO) || IsType(mode, S_IFSOCK)
                            || IsType(mode, S_IFBLK) || IsType(mode, S_IFCHR)))
  {
  }

  /** The coloured name is the displayed name alone, or the displayed name
      preceded by a non-empty escape sequence and followed by a reset; an
      extension entry applies only to regular files without special bits. */
  lemma ColoredNameShape(colors: seq<string>, ext: seq<ColorExt>, name: string, displayName: Option<string>,
                         mode: bv32, linkok: bool)
    requires |colors| == MAX_LS
    ensures var r := ColoredName(colors, ext, name, displayName, mode, linkok);
      var shown := CStr(if displayName.Some? then displayName.value else name);
      r.Some? ==> r.value == shown
                  || exists pre :: pre != [] && r.value == pre + shown + COLOR_RESET
    ensures var t := ColorType(mode, linkok, colors[LS_OR]);
      t != LS_FL ==> ColoredName(colors, ext, name, displayName, mode, linkok).Some?
    ensures FindExt(ext, name).None? ==> ColoredName(colors, ext, name, displayName, mode, linkok).Some?
  {
    var r := ColoredName(colors, ext, name, displayName, mode, linkok);
    var shown := CStr(if displayName.Some? then displayName.value else name);
    var t := ColorType(mode, linkok, colors[LS_OR]);
    var e := if t == LS_FL then FindExt(ext, name) else None;
    if e.Some? && ext[e.value].sgr.Some? {
      var pre := Sgr(ext[e.value].sgr.value);
      assert r.value == pre + shown + COLOR_RESET;
    } else if e.None? && CStr(colors[t]) != [] {
      var pre := CStr(colors[t]);
      assert r.value == pre + shown + COLOR_RESET;
    }
  }

  // ---- the process-wide colour state ------------------------------------

  class LsColorTable {
    var colors: seq<string>
    var extList: seq<ColorExt>
    var symlinkAsReferent: bool

    constructor ()
      ensures colors == DefaultColors && extList == [] && !symlinkAsReferent && Valid()
    {
      colors, extList, symlinkAsReferent := DefaultColors, [], false;
    }

    ghost predicate Valid()
      reads this
    {
      |colors| == MAX_LS
    }

    /** The table as the parser's specification sees it. */
    ghost function Snapshot(error: Option<string>, ok: bool): (t: LsParse)
      reads this
      ensures t.colors == colors && t.ext == extList && t.referent == symlinkAsReferent
    {
      LsParse(colors, extList, symlinkAsReferent, error, ok)
    }

    /** State 1 at a '*': decodes an extension up to '=' into `buf[q..]` and
        pushes a new entry for it. */
    method ParseExtension(buf: array<char>, s: string, p: nat, q: nat, ind: string)
        returns (p': nat, q': nat, state': int)
      requires Valid() && buf.Length == |s| + 1 && q <= p < |s| && s[p] == '*' && |ind| == 2
      modifies this`extList, buf
      ensures Valid() && p <= p' && q' <= p' <= |s| + 1 && (state' == 4 || state' == -1)
      ensures state' == 4 ==> p < p' <= |s| && |extList| > 0
      ensures old(ParseFrom(s, p, 1, ind, Snapshot(None, true)))
              == if state' == 4 then ParseFrom(s, p', 4, ind, Snapshot(None, true)) else Snapshot(None, false)
    {
      var fok, count;
      fok, q', p', count := GetFunkyString(buf, q, s, p + 1, true);
      extList := [ColorExt(buf[q..q'], None)] + extList;
      state' := if fok then 4 else -1;
    }

    /** State 3: after a two-letter label and '=', decodes the sequence and
        stores it in the label's slot ("ln=target" colours symlinks as their
        targets instead); -1 for a missing '=', an unknown label or a
        malformed sequence, and `reported` tells the caller whether the
        failure is the one reported as an unrecognized prefix, that is,
        whether the '=' was there. */
    method ParseIndicator(buf: array<char>, s: string, p: nat, q: nat, ind: string)
        returns (p': nat, q': nat, state': int, reported: bool)
      requires Valid() && buf.Length == |s| + 1 && q <= p <= |s| && |ind| == 2
      modifies this`colors, this`symlinkAsReferent, buf
      ensures Valid() && p <= p' && q' <= p' <= |s| + 1 && (state' == 1 || state' == -1)
      ensures state' == 1 ==> p < p' <= |s|
      ensures reported <==> state' == -1 && At(s, p) == '='
      ensures old(ParseFrom(s, p, 3, ind, Snapshot(None, true)))
              == if state' == 1 then ParseFrom(s, p', 1, ind, Snapshot(None, true))
                 else Snapshot(if reported then Some(ind) else None, false)
    {
      p', q', state' := p, q, -1;
      reported := At(s, p) == '=';
      var i := IndicatorIndex(ind);
      if At(s, p) == '=' && i.Some? {
        var fok, count;
        fok, q', p', count := GetFunkyString(buf, q, s, p + 1, false);
        if fok {
          state', reported := 1, false;
          var value := buf[q..q'];
          if i.value == LS_LN && value == "target" {
            symlinkAsReferent := true;
          } else {
            colors := colors[i.value := Sgr(value)];
          }
        }
      }
    }

    /** State 4: after an extension and '=', decodes the sequence into the
        newest extension entry. */
    method ParseExtensionValue(buf: array<char>, s: string, p: nat, q: nat, ind: string)
        returns (p': nat, q': nat, state': int)
      requires Valid() && buf.Length == |s| + 1 && q <= p <= |s| && |ind| == 2 && |extList| > 0
      modifies this`extList, buf
      ensures Valid() && p <= p' && q' <= p' <= |s| + 1 && (state' == 1 || state' == -1)
      ensures state' == 1 ==> p < p' <= |s|
      ensures old(ParseFrom(s, p, 4, ind, Snapshot(None, true)))
              == if state' == 1 then ParseFrom(s, p', 1, ind, Snapshot(None, true)) else Snapshot(None, false)
    {
      p', q', state' := p, q, -1;
      if At(s, p) == '=' {
        var fok, count;
        fok, q', p', count := GetFunkyString(buf, q, s, p + 1, false);
        extList := [extList[0].(sgr := Some(buf[q..q']))] + extList[1..];
        if fok {
          state' := 1;
        }
      }
    }

    /** parse_ls_color without the configuration pass: applies the LS_COLORS
        value `env` (unset when None) and returns the label of an
        "unrecognized prefix" error, if any. */
    method ParseLsColor(env: Option<string>) returns (error: Option<string>)
      requires Valid()
      modifies this
      ensures Valid()
      ensures env.None? || At(env.value, 0) == '\0' ==> unchanged(this) && error.None?
      ensures env.Some? && At(env.value, 0) != '\0' ==>
        var r := ParseLsColors(env.value, old(Snapshot(None, true)));
        colors == r.colors && extList == r.ext && symlinkAsReferent == r.referent && error == r.error
    {
      error := None;
      if env.None? || At(env.value, 0) == '\0' {
        return;
      }
      var s := env.value;
      ghost var final := ParseFrom(s, 0, 1, "??", Snapshot(None, true));
      var buf := new char[|s| + 1];
      var p: nat, q: nat, state, ind := 0, 0, 1, "??";
      while state > 0
        invariant Valid() && q <= p <= |s| + 1 && -1 <= state <= 4 && |ind| == 2 && buf.Length == |s| + 1
        invariant state > 0 ==> p <= |s| && error.None? && (state == 4 ==> |extList| > 0)
        invariant state > 0 ==> ParseFrom(s, p, state, ind, Snapshot(None, true)) == final
        invariant state <= 0 ==> Snapshot(error, state == 0) == final
        decreases |s| + 1 - p + (if state > 0 then 1 else 0)
      {
        var c := At(s, p);
        if state == 1 {
          if c == ':' {
            p := p + 1;
          } else if c == '*' {
            p, q, state := ParseExtension(buf, s, p, q, ind);
          } else if c == '\0' {
            state := 0;
          } else {
            ind, p, state := [c, ind[1]], p + 1, 2;
          }
        } else if state == 2 {
          if c != '\0' {
            ind, p, state := [ind[0], c], p + 1, 3;
          } else {
            state := -1;
          }
        } else if state == 3 {
          var reported;
          p, q, state, reported := ParseIndicator(buf, s, p, q, ind);
          if reported {
            error := Some(ind);
          }
        } else {
          p, q, state := ParseExtensionValue(buf, s, p, q, ind);
        }
      }
      if CStr(colors[LS_LN]) == "target" {
        symlinkAsReferent := true;
      }
    }

    /** The color.ls.<slot> configuration callback: sets the slot named by
        `key` to `parsed`, the colour parsed from `value`; a key without a
        value is an error (-1). Keys outside color.ls.* or naming no slot are
        ignored. */
    method LsColorsConfig(key: string, value: Option<string>, parsed: string) returns (rc: int)
      requires Valid()
      modifies this`colors
      ensures Valid()
      ensures var slot := ConfigSlot(key);
        if slot.Some? && value.Some? then rc == 0 && colors == old(colors)[slot.value := parsed]
        else colors == old(colors) && (rc == -1 <==> slot.Some?) && (rc == 0 <==> slot.None?)
    {
      var slot := ConfigSlot(key);
      if slot.None? {
        return 0;
      }
      if value.None? {
        return -1;
      }
      colors := colors[slot.value := parsed];
      return 0;
    }

    /** color_filename: the text appended for `name` (None where the source
        would read an extension sequence that was never set). */
    method ColorFilename(name: string, displayName: Option<string>, mode: bv32, linkok: bool)
        returns (r: Option<string>)
      requires Valid() && '\0' !in name
      ensures r == ColoredName(colors, extList, name, displayName, mode, linkok)
    {
      var t := ColorType(mode, linkok, colors[LS_OR]);
      var e: Option<nat> := None;
      if t == LS_FL {
        var i := 0;
        while i < |extList|
          invariant 0 <= i <= |extList|
          invariant forall j :: 0 <= j < i ==> !IsSuffix(extList[j].ext, name)
          decreases |extList| - i
        {
          var x := extList[i].ext;
          if |x| <= |name| && name[|name| - |x|..] == x {
            e := Some(i);
            break;
          }
          i := i + 1;
        }
      }
      if t == LS_FL {
        FindExtScan(extList, name, e);
      }
      var shown := CStr(if displayName.Some? then displayName.value else name);
      if e.Some? {
        var sgr := extList[e.value].sgr;
        if sgr.Some? {
          r := Some(Sgr(sgr.value) + shown + COLOR_RESET);
        } else {
          r := None;
        }
      } else if CStr(colors[t]) != [] {
        r := Some(CStr(colors[t]) + shown + COLOR_RESET);
      } else {
        r := Some(shown);
      }
    }
  }
}

=== FILE: ls_files.dfy ===
// The parts of builtin/ls-files.c that decide what is printed for an entry:
// the indicator character a file mode gets with --classify, the tag rewrite
// for assume-valid entries, the depth override around pathspec matching, the
// tags of the compact listing, and the flag defaults of cmd_ls_files.

module LsFiles {
  import opened Common

  // ---------------------------------------------------------------------
  // append_indicator

  /** A POSIX st_mode as mode_t. */
  type Mode = bv32

  const S_IFMT: Mode := 0xF000
  const S_IFIFO: Mode := 0x1000
  const S_IFDIR: Mode := 0x4000
  const S_IFREG: Mode := 0x8000
  const S_IFLNK: Mode := 0xA000
  const S_IFSOCK: Mode := 0xC000
  /** git's own file type for a submodule entry. */
  const S_IFGITLINK: Mode := 0xE000
  /** S_IXUSR | S_IXGRP | S_IXOTH. */
  const S_IXUGO: Mode := 0x49

  /** append_indicator: the character --classify appends for a mode, if any:
      '*' for an executable regular file, '/' for a directory, '@' for a
      symbolic link, '|' for a FIFO, '=' for a socket, '&' for a submodule. */
  function AppendIndicator(sb: string, mode: Mode): (r: string)
    ensures IsPrefix(sb, r) && |sb| <= |r| <= |sb| + 1
  {
    var t := mode & S_IFMT;
    var c :=
      if t == S_IFREG then (if mode & S_IXUGO != 0 then '*' else '\0')
      else if t == S_IFDIR then '/'
      else if t == S_IFLNK then '@'
      else if t == S_IFIFO then '|'
      else if t == S_IFSOCK then '='
      else if t == S_IFGITLINK then '&'
      else '\0';
    if c != '\0' then sb + [c] else sb
  }

  /** The file type each indicator character stands for. */
  function IndicatedType(c: char): Option<Mode>
  {
    match c
    case '*' => Some(S_IFREG)
    case '/' => Some(S_IFDIR)
    case '@' => Some(S_IFLNK)
    case '|' => Some(S_IFIFO)
    case '=' => Some(S_IFSOCK)
    case '&' => Some(S_IFGITLINK)
    case _ => None
  }

  /** The indicator appended, if any, names the file type of the mode, and
      '*' is given only to an executable file; nothing is appended exactly for
      a regular file nobody may execute and for a type not listed. */
  lemma IndicatorIdentifiesType(sb: string, mode: Mode)
    ensures var r := AppendIndicator(sb, mode);
      |r| == |sb| + 1 ==>
        IndicatedType(r[|sb|]) == Some(mode & S_IFMT)
        && (r[|sb|] == '*' ==> mode & S_IXUGO != 0)
    ensures AppendIndicator(sb, mode) == sb <==>
              (mode & S_IFMT == S_IFREG && mode & S_IXUGO == 0)
              || mode & S_IFMT !in {S_IFREG, S_IFDIR, S_IFLNK, S_IFIFO, S_IFSOCK, S_IFGITLINK}
  {
  }

  /** Only the type bits and whether anyone may execute the file matter:
      two modes that agree on those get the same indicator. */
  lemma IndicatorIgnoresPermissions(sb: string, m1: Mode, m2: Mode)
    requires m1 & S_IFMT == m2 & S_IFMT
    requires (m1 & S_IXUGO == 0) == (m2 & S_IXUGO == 0)
    ensures AppendIndicator(sb, m1) == AppendIndicator(sb, m2)
  {
  }

  // ---------------------------------------------------------------------
  // The assume-valid tag rewrite of show_ce_entry

  predicate IsAlpha(c: char) { 'a' <= c <= 'z' || 'A' <= c <= 'Z' }

  function ToLower(c: char): (r: char)
    ensures 'A' <= c <= 'Z' ==> 'a' <= r <= 'z'
    ensures !('A' <= c <= 'Z') ==> r == c
  {
    if 'A' <= c <= 'Z' then (c as int - 'A' as int + 'a' as int) as char else c
  }

  function ToUpper(c: char): (r: char)
  {
    if 'a' <= c <= 'z' then (c as int - 'a' as int + 'A' as int) as char else c
  }

  function Min(a: int, b: int): int { if a <= b then a else b }

  /** The tag shown for an entry marked assume-valid under -v: the first
      three bytes of the tag are copied; a letter is lowered, '?' becomes
      '!', and any other tag becomes "v", its first character and a space. */
  function AltTag(tag: string): (r: string)
    requires |tag| >= 1 && IsCString(tag)
    ensures 1 <= |r| <= 3 && IsCString(r)
  {
    var kept := tag[..Min(3, |tag|)];
    if IsAlpha(tag[0]) then [ToLower(tag[0])] + kept[1..]
    else if tag[0] == '?' then "!" + kept[1..]
    else ['v', tag[0], ' ']
  }

  /** The rewrite keeps the tag's length, but for the "v" form, and is
      visible: it leaves the tag as it was exactly when it starts with a
      lower-case letter. */
  lemma AltTagShape(tag: string)
    requires |tag| >= 1 && IsCString(tag)
    ensures IsAlpha(tag[0]) || tag[0] == '?' ==>
              |AltTag(tag)| == Min(3, |tag|) && AltTag(tag)[1..] == tag[1..Min(3, |tag|)]
    ensures !IsAlpha(tag[0]) && tag[0] != '?' ==> AltTag(tag) == ['v', tag[0], ' ']
    ensures AltTag(tag)[0] == if IsAlpha(tag[0]) then ToLower(tag[0]) else if tag[0] == '?' then '!' else 'v'
    ensures AltTag(tag) == tag[..Min(3, |tag|)] <==> 'a' <= tag[0] <= 'z'
  {
    var kept := tag[..Min(3, |tag|)];
    if AltTag(tag) == kept {
      assert AltTag(tag)[0] == kept[0];
    }
  }

  /** The tag selected for an entry: the rewrite applies to a non-empty tag
      when -v is given and the entry has CE_VALID. */
  function ShownTag(tag: string, showValidBit: bool, ceValid: bool): (r: string)
    requires IsCString(tag)
    ensures r != tag ==> |tag| >= 1 && showValidBit && ceValid
    ensures |tag| >= 1 && showValidBit && ceValid && |tag| <= 3 ==> (r == tag <==> 'a' <= tag[0] <= 'z')
  {
    if |tag| >= 1 && showValidBit && ceValid then
      AltTagShape(tag);
      assert tag[..Min(3, |tag|)] == tag || |tag| > 3;
      AltTag(tag)
    else tag
  }

  /** Reading a rewritten standard tag back. */
  function UnAltTag(a: string): string
  {
    if |a| == 3 && a[0] == 'v' then [a[1], ' ']
    else if |a| >= 1 && a[0] == '!' then "?" + a[1..]
    else if |a| >= 1 then [ToUpper(a[0])] + a[1..]
    else a
  }

  /** The tags of a listing that shows them. */
  const StandardTags: seq<string> := ["H ", "  ", "M ", "R ", "C ", "? ", "X ", "K ", "S ", "U "]

  /** On the tags ls-files uses, the rewrite loses nothing and never yields
      another standard tag: an assume-valid entry is told apart from every
      other status. */
  lemma AltTagOfStandardTags()
    ensures forall t :: t in StandardTags ==>
              IsCString(t) && |t| >= 1 && UnAltTag(AltTag(t)) == t && AltTag(t) !in StandardTags
  {
    assert forall t :: t in StandardTags ==> IsStatusTag(t);
    forall t | t in StandardTags
      ensures IsCString(t) && |t| >= 1 && UnAltTag(AltTag(t)) == t && AltTag(t) !in StandardTags
    {
      AltTagOfStatusTag(t);
    }
  }

  /** A standard tag: a status letter (or blank) and a space. */
  predicate IsStatusTag(t: string)
  {
    |t| == 2 && t[0] in StatusLetters && t[1] == ' '
  }

  const StatusLetters: string := "H MRC?XKSU"

  lemma AltTagOfStatusTag(t: string)
    requires IsStatusTag(t)
    ensures IsCString(t) && UnAltTag(AltTag(t)) == t
    ensures !IsStatusTag(AltTag(t))
  {
    assert t[..2] == t;
  }

  // ---------------------------------------------------------------------
  // match_pathspec_with_depth

  /** The part of struct pathspec this helper touches. */
  class Pathspec {
    var maxDepth: int

    constructor(maxDepth: int)
      ensures this.maxDepth == maxDepth
    {
      this.maxDepth := maxDepth;
    }

    /** Match with `customDepth` in force, if given, then put the pathspec's
        own depth back.  `matchAt(d)` is what match_pathspec (in dir.c,
        which is not part of this model) answers when the depth limit is d. */
    method MatchPathspecWithDepth(customDepth: Option<int>, matchAt: int -> bool) returns (result: bool)
      modifies this
      ensures maxDepth == old(maxDepth)
      ensures result == matchAt(if customDepth.Some? then customDepth.value else old(maxDepth))
    {
      var savedDepth := maxDepth;
      if customDepth.Some? {
        maxDepth := customDepth.value;
      }
      result := matchAt(maxDepth);
      if customDepth.Some? {
        maxDepth := savedDepth;
      }
    }
  }

  // ---------------------------------------------------------------------
  // Flags and their defaults in cmd_ls_files

  /** The listing modes and switches of ls-files.  `showTag` is an int:
      list-files starts it at -1, "decide from the modes". */
  datatype Flags = Flags(
    cached: bool, deleted: bool, modified: bool, diffCached: bool, others: bool,
    killed: bool, unmerged: bool, stage: bool, resolveUndo: bool,
    showTag: int, validBit: bool)

  /** The tag strings. */
  datatype Tags = Tags(
    cached: string, unmerged: string, removed: string, modified: string, other: string,
    diffCached: string, killed: string, skipWorktree: string, resolveUndo: string)

  function B(b: bool): nat { if b then 1 else 0 }

  /** How many listing modes the show_tag default counts. */
  function ModeCount(f: Flags): nat
  {
    B(f.cached) + B(f.deleted) + B(f.others) + B(f.diffCached) + B(f.unmerged) + B(f.killed) + B(f.modified)
  }

  /** The modes that keep the default --cached off. */
  predicate AnyMode(f: Flags)
  {
    f.stage || f.deleted || f.others || f.unmerged || f.killed || f.modified || f.resolveUndo || f.diffCached
  }

  /** The defaults cmd_ls_files applies after option parsing: -u without
      the porcelain front end implies -s; with no mode --cached is on; an
      automatic tag setting turns tags on when more than one mode lists. */
  function ApplyDefaults(f: Flags, porcelain: bool): (r: Flags)
    ensures r.cached || AnyMode(r)
    ensures r.showTag != -1 && (f.showTag != -1 ==> r.showTag == f.showTag)
  {
    TagDefault(CachedDefault(StageDefault(f, porcelain)))
  }

  /** -u without the porcelain front end implies -s; nothing else changes. */
  function StageDefault(f: Flags, porcelain: bool): (r: Flags)
    ensures r.stage <==> f.stage || (f.unmerged && !porcelain)
    ensures r == f.(stage := r.stage)
  {
    if f.unmerged && !porcelain then f.(stage := true) else f
  }

  /** With no mode, --cached is on; nothing else changes. */
  function CachedDefault(f: Flags): (r: Flags)
    ensures r.cached <==> f.cached || !AnyMode(f)
    ensures r == f.(cached := r.cached)
  {
    if !AnyMode(f) then f.(cached := true) else f
  }

  /** An automatic tag setting (-1) turns tags on when more than one mode
      lists; nothing else changes. */
  function TagDefault(f: Flags): (r: Flags)
    ensures r.showTag != -1 && (f.showTag != -1 ==> r.showTag == f.showTag)
    ensures r == f.(showTag := r.showTag)
  {
    if f.showTag == -1 then f.(showTag := if ModeCount(f) > 1 then 1 else 0) else f
  }

  /** The tag strings once the flags are settled: the standard ones when
      tags or the valid bit are shown, empty otherwise. */
  function TagsFor(f: Flags, porcelain: bool): (t: Tags)
  {
    if f.showTag != 0 || f.validBit then
      Tags(if porcelain then "  " else "H ", "M ", "R ", "C ", "? ", "X ", "K ", "S ", "U ")
    else
      Tags("", "", "", "", "", "", "", "", "")
  }

  /** After the defaults the listing always has a mode. */
  lemma DefaultsListSomething(f: Flags, porcelain: bool)
    ensures var r := ApplyDefaults(f, porcelain); r.cached || AnyMode(r)
  {
  }

  /** --cached is on exactly when it was asked for or no other mode was;
      -u implies -s outside list-files. */
  lemma DefaultsCachedAndStage(f: Flags, porcelain: bool)
    ensures ApplyDefaults(f, porcelain).cached <==> f.cached || !(AnyMode(f) || (f.unmerged && !porcelain))
    ensures ApplyDefaults(f, porcelain).stage <==> f.stage || (f.unmerged && !porcelain)
  {
  }

  /** An automatic tag setting becomes "tags on" exactly when more than one
      mode lists; an explicit one is kept. */
  lemma DefaultsTag(f: Flags, porcelain: bool)
    ensures var r := ApplyDefaults(f, porcelain);
      && (f.showTag == -1 ==> (r.showTag != 0 <==> ModeCount(r) > 1))
      && (f.showTag != -1 ==> r.showTag == f.showTag)
  {
  }

  /** The defaults touch no other switch. */
  lemma DefaultsFrame(f: Flags, porcelain: bool)
    ensures var r := ApplyDefaults(f, porcelain);
      && r.deleted == f.deleted && r.modified == f.modified && r.diffCached == f.diffCached
      && r.others == f.others && r.killed == f.killed && r.unmerged == f.unmerged
      && r.resolveUndo == f.resolveUndo && r.validBit == f.validBit
  {
  }

  /** Applying the defaults again changes nothing. */
  lemma DefaultsIdempotent(f: Flags, porcelain: bool)
    ensures ApplyDefaults(ApplyDefaults(f, porcelain), porcelain) == ApplyDefaults(f, porcelain)
  {
    var r := ApplyDefaults(f, porcelain);
    DefaultsCachedAndStage(f, porcelain);
    DefaultsListSomething(f, porcelain);
    var r1 := if r.unmerged && !porcelain then r.(stage := true) else r;
    assert r1 == r;
    var r2 := if !AnyMode(r1) then r1.(cached := true) else r1;
    assert r2 == r;
    assert r.showTag != -1;
  }

  /** When tags are shown they are all different and non-empty, so a tag
      identifies the status, and the porcelain cached tag is blank. */
  lemma TagsDistinct(f: Flags, porcelain: bool)
    requires f.showTag != 0 || f.validBit
    ensures var t := TagsFor(f, porcelain);
      var all := [t.cached, t.unmerged, t.removed, t.modified, t.other, t.diffCached, t.killed, t.skipWorktree, t.resolveUndo];
      (forall i, j :: 0 <= i < j < |all| ==> all[i] != all[j])
      && (forall i :: 0 <= i < |all| ==> all[i] in StandardTags)
      && (porcelain <==> t.cached == "  ")
  {
  }

  // ---------------------------------------------------------------------
  // show_files_compact

  /** What the compact listing needs to know of one index entry; `missing`
      (lstat failed) and `changed` (ce_modified) come from the file
      system, `excluded` from the exclude rules. */
  datatype EntryState = EntryState(
    stage: nat, update: bool, skipWorktree: bool, matched: bool,
    excluded: bool, missing: bool, changed: bool)

  /** The statuses the compact listing prints an entry under. */
  datatype Status = Removed | DiffCached | Modified | Unmerged | Cached

  /** Whether show_files_compact gets to the entry at all. */
  predicate CompactListed(f: Flags, showIgnored: bool, e: EntryState)
  {
    (f.cached || f.unmerged || f.deleted || f.modified || f.diffCached)
    && !(showIgnored && !e.excluded)
    && !(f.unmerged && e.stage == 0)
    && !e.update
    && !e.skipWorktree
  }

  /** The statuses other than Cached that a listed entry gets, in order. */
  function OtherStatuses(f: Flags, e: EntryState): (r: seq<Status>)
  {
    (if f.deleted && e.missing then [Removed] else [])
    + (if f.diffCached && e.matched then [DiffCached] else [])
    + (if f.modified && (e.missing || e.changed) then [Modified] else [])
    + (if e.stage != 0 then [Unmerged] else [])
  }

  /** The statuses show_files_compact prints for one entry, in order. */
  function CompactStatuses(f: Flags, showIgnored: bool, e: EntryState): (r: seq<Status>)
    ensures !CompactListed(f, showIgnored, e) ==> r == []
    ensures Cached in r ==> r == [Cached] && f.cached
  {
    if !CompactListed(f, showIgnored, e) then []
    else
      var shown := OtherStatuses(f, e);
      OtherStatusesMeaning(f, e);
      if shown == [] && f.cached then [Cached] else shown
  }

  /** The other statuses: none is Cached, none twice, and there are none
      exactly when no condition for one holds. */
  lemma OtherStatusesMeaning(f: Flags, e: EntryState)
    ensures var r := OtherStatuses(f, e);
      && Cached !in r
      && (forall i, j :: 0 <= i < j < |r| ==> r[i] != r[j])
      && (r == [] <==> !(f.deleted && e.missing) && !(f.diffCached && e.matched)
                       && !(f.modified && (e.missing || e.changed)) && e.stage == 0)
  {
    var a := if f.deleted && e.missing then [Removed] else [];
    var b := if f.diffCached && e.matched then [DiffCached] else [];
    var c := if f.modified && (e.missing || e.changed) then [Modified] else [];
    var d := if e.stage != 0 then [Unmerged] else [];
    var r := a + b + c + d;
    assert forall i :: 0 <= i < |r| ==>
      r[i] == (if i < |a| then Removed else if i < |a| + |b| then DiffCached
               else if i < |a| + |b| + |c| then Modified else Unmerged);
  }

  /** The cached tag is printed only for an entry that got no other tag,
      and then for every such listed entry under --cached; each status is
      printed at most once. */
  lemma CompactCachedAlone(f: Flags, showIgnored: bool, e: EntryState)
    ensures var r := CompactStatuses(f, showIgnored, e);
      && (Cached in r ==> r == [Cached])
      && (r == [Cached] <==>
            (CompactListed(f, showIgnored, e) && f.cached
             && !(f.deleted && e.missing) && !(f.diffCached && e.matched)
             && !(f.modified && (e.missing || e.changed)) && e.stage == 0))
      && (forall i, j :: 0 <= i < j < |r| ==> r[i] != r[j])
  {
    OtherStatusesMeaning(f, e);
  }

  /** An unmerged entry that is listed is always shown as unmerged. */
  lemma CompactUnmergedShown(f: Flags, showIgnored: bool, e: EntryState)
    requires CompactListed(f, showIgnored, e) && e.stage != 0
    ensures Unmerged in CompactStatuses(f, showIgnored, e)
  {
    OtherStatusesMeaning(f, e);
    assert OtherStatuses(f, e)[|OtherStatuses(f, e)| - 1] == Unmerged;
  }

  /** The tag string printed for a status. */
  function StatusTag(t: Tags, s: Status): string
  {
    match s
    case Removed => t.removed
    case DiffCached => t.diffCached
    case Modified => t.modified
    case Unmerged => t.unmerged
    case Cached => t.cached
  }

  /** When tags are shown, the tag printed for a status is a standard tag
      and no other status prints the same one, so the compact listing's
      output tells the statuses apart. */
  lemma StatusTagIdentifies(f: Flags, porcelain: bool, s1: Status, s2: Status)
    requires f.showTag != 0 || f.validBit
    ensures StatusTag(TagsFor(f, porcelain), s1) in StandardTags
    ensures StatusTag(TagsFor(f, porcelain), s1) == StatusTag(TagsFor(f, porcelain), s2) ==> s1 == s2
  {
    TagsDistinct(f, porcelain);
  }

  /** Whether the entry loop clears CE_MATCHED: when it has printed the
      entry as changed against HEAD. */
  function AfterCompact(f: Flags, showIgnored: bool, e: EntryState): (r: EntryState)
  {
    if DiffCached in CompactStatuses(f, showIgnored, e) then e.(matched := false) else e
  }

  /** The entry loop of show_files_compact: the statuses printed for each
      index entry, in index order, clearing CE_MATCHED on the entries that
      were printed as changed against HEAD. */
  method ShowFilesCompact(f: Flags, showIgnored: bool, entries: array<EntryState>)
    returns (printed: seq<seq<Status>>)
    modifies entries
    ensures |printed| == entries.Length
    ensures forall i :: 0 <= i < entries.Length ==>
              printed[i] == CompactStatuses(f, showIgnored, old(entries[i]))
              && entries[i] == AfterCompact(f, showIgnored, old(entries[i]))
  {
    printed := [];
    if !(f.cached || f.unmerged || f.deleted || f.modified || f.diffCached) {
      printed := seq(entries.Length, i => []);
      return;
    }
    var i := 0;
    while i < entries.Length
      invariant i <= entries.Length && |printed| == i
      invariant forall k :: 0 <= k < i ==>
                  printed[k] == CompactStatuses(f, showIgnored, old(entries[k]))
                  && entries[k] == AfterCompact(f, showIgnored, old(entries[k]))
      invariant forall k :: i <= k < entries.Length ==> entries[k] == old(entries[k])
    {
      var shown, e := CompactEntry(f, showIgnored, entries[i]);
      entries[i] := e;
      printed := printed + [shown];
      i := i + 1;
    }
  }

  /** The body of the entry loop of show_files_compact, for an entry when
      some index mode is on: the statuses printed and the entry after its
      CE_MATCHED bit is cleared where it was printed as changed. */
  method CompactEntry(f: Flags, showIgnored: bool, e: EntryState) returns (shown: seq<Status>, after: EntryState)
    requires f.cached || f.unmerged || f.deleted || f.modified || f.diffCached
    ensures shown == CompactStatuses(f, showIgnored, e)
    ensures after == AfterCompact(f, showIgnored, e)
  {
    shown := [];
    after := e;
    if (showIgnored && !e.excluded) || (f.unmerged && e.stage == 0) || e.update || e.skipWorktree {
      return;
    }
    if f.deleted && e.missing {
      shown := shown + [Removed];
    }
    if f.diffCached && e.matched {
      shown := shown + [DiffCached];
      after := e.(matched := false);
    }
    if f.modified && (e.missing || e.changed) {
      shown := shown + [Modified];
    }
    if e.stage != 0 {
      shown := shown + [Unmerged];
    }
    assert shown == OtherStatuses(f, e);
    if shown == [] && f.cached {
      shown := [Cached];
    }
  }
}

=== FILE: ls_files_index.dfy ===
// The parts of builtin/ls-files.c that work on the in-memory index: pruning
// it to the entries under a prefix, the --with-tree overlay marking, and the
// test that decides whether an untracked path would be "killed" by checking
// out the index.  The index is name-sorted, stage within name.
module LsFilesIndex {
  import opened Common

  /** A cache entry as these helpers see it: its path, its stage (0 for a
      merged entry, 1..3 for the sides of a conflict) and its CE_UPDATE bit. */
  datatype CacheEntry = CacheEntry(name: string, stage: nat, update: bool)

  // ---------------------------------------------------------------------
  // Index order

  /** Byte-wise name order, a proper prefix first (cache_name_compare on
      the names). */
  predicate NameLess(a: string, b: string)
    decreases |a|
  {
    if a == [] then b != []
    else if b == [] then false
    else if a[0] != b[0] then a[0] < b[0]
    else NameLess(a[1..], b[1..])
  }

  lemma {:induction false} NameLessIrreflexive(a: string)
    ensures !NameLess(a, a)
    decreases |a|
  {
    if a != [] {
      NameLessIrreflexive(a[1..]);
    }
  }

  lemma {:induction false} NameLessAsymmetric(a: string, b: string)
    requires NameLess(a, b)
    ensures !NameLess(b, a)
    decreases |a|
  {
    if a != [] && b != [] && a[0] == b[0] {
      NameLessAsymmetric(a[1..], b[1..]);
    }
  }

  lemma {:induction false} NameLessTotal(a: string, b: string)
    requires a != b
    ensures NameLess(a, b) || NameLess(b, a)
    decreases |a|
  {
    if a != [] && b != [] && a[0] == b[0] {
      assert a[1..] != b[1..] by {
        assert a == [a[0]] + a[1..] && b == [b[0]] + b[1..];
      }
      NameLessTotal(a[1..], b[1..]);
    }
  }

  lemma {:induction false} NameLessTransitive(a: string, b: string, c: string)
    requires NameLess(a, b) && NameLess(b, c)
    ensures NameLess(a, c)
    decreases |a|
  {
    if a != [] && a[0] == b[0] && b[0] == c[0] {
      NameLessTransitive(a[1..], b[1..], c[1..]);
    }
  }

  /** A name that starts with `p` is not below `p`. */
  lemma {:induction false} PrefixNotBelow(p: string, t: string)
    requires IsPrefix(p, t)
    ensures !NameLess(t, p)
    decreases |p|
  {
    if p != [] {
      assert t[1..][..|p| - 1] == p[1..];
      PrefixNotBelow(p[1..], t[1..]);
    }
  }

  /** Names that start with `p` come before every other name not below
      `p`: they form one run in a sorted index. */
  lemma {:induction false} PrefixRunFirst(p: string, t: string, s: string)
    requires IsPrefix(p, t) && !IsPrefix(p, s) && !NameLess(s, p)
    ensures NameLess(t, s)
    decreases |p|
  {
    assert p != [];
    if s != [] && s[0] == p[0] {
      assert t[1..][..|p| - 1] == p[1..];
      assert !IsPrefix(p[1..], s[1..]);
      PrefixRunFirst(p[1..], t[1..], s[1..]);
    }
  }

  /** Index order: by name, then by stage. */
  predicate EntryLess(a: CacheEntry, b: CacheEntry)
  {
    NameLess(a.name, b.name) || (a.name == b.name && a.stage < b.stage)
  }

  lemma EntryLessTransitive(a: CacheEntry, b: CacheEntry, c: CacheEntry)
    requires EntryLess(a, b) && EntryLess(b, c)
    ensures EntryLess(a, c)
  {
    if NameLess(a.name, b.name) && NameLess(b.name, c.name) {
      NameLessTransitive(a.name, b.name, c.name);
    }
  }

  /** The index is sorted, with no (name, stage) twice. */
  predicate Sorted(s: seq<CacheEntry>)
  {
    forall i, j :: 0 <= i < j < |s| ==> EntryLess(s[i], s[j])
  }

  /** The position of the first entry not below (key, stage 0): the search
      done by cache_name_pos, whose binary search is in read-cache.c, which
      is not part of this model. */
  function LowerBound(s: seq<CacheEntry>, key: string, from: nat): (r: nat)
    requires from <= |s|
    ensures from <= r <= |s|
    ensures forall i :: from <= i < r ==> EntryLess(s[i], CacheEntry(key, 0, false))
    ensures r < |s| ==> !EntryLess(s[r], CacheEntry(key, 0, false))
    decreases |s| - from
  {
    if from == |s| || !EntryLess(s[from], CacheEntry(key, 0, false)) then from
    else LowerBound(s, key, from + 1)
  }

  /** cache_name_pos: the position of the stage-0 entry named `key`, or
      -1 - (where it would be inserted). */
  function CacheNamePos(s: seq<CacheEntry>, key: string): (r: int)
    ensures r >= 0 ==> r < |s| && s[r].name == key && s[r].stage == 0
    ensures r < 0 ==> -r - 1 <= |s|
  {
    var lb := LowerBound(s, key, 0);
    if lb < |s| && s[lb].name == key && s[lb].stage == 0 then lb else -(lb as int) - 1
  }

  /** Everything from the lower bound on is not below the key. */
  lemma LowerBoundAbove(s: seq<CacheEntry>, key: string, j: nat)
    requires Sorted(s) && LowerBound(s, key, 0) <= j < |s|
    ensures !EntryLess(s[j], CacheEntry(key, 0, false))
  {
    var lb := LowerBound(s, key, 0);
    if j > lb && EntryLess(s[j], CacheEntry(key, 0, false)) {
      EntryLessTransitive(s[lb], s[j], CacheEntry(key, 0, false));
    }
  }

  /** In a sorted index the position is found exactly when a stage-0 entry
      has that name. */
  lemma CacheNamePosMeaning(s: seq<CacheEntry>, key: string)
    requires Sorted(s)
    ensures CacheNamePos(s, key) >= 0 <==> exists j :: 0 <= j < |s| && s[j].name == key && s[j].stage == 0
    ensures CacheNamePos(s, key) >= 0 ==> s[CacheNamePos(s, key)].name == key
  {
    var lb := LowerBound(s, key, 0);
    if j :| 0 <= j < |s| && s[j].name == key && s[j].stage == 0 {
      NameLessIrreflexive(key);
      if j > lb {
        assert EntryLess(s[lb], s[j]);
      }
    }
  }

  // ---------------------------------------------------------------------
  // prune_cache

  /** The entries whose name starts with `prefix`, in index order. */
  function WithPrefix(s: seq<CacheEntry>, prefix: string): (r: seq<CacheEntry>)
    ensures |r| <= |s|
  {
    if s == [] then []
    else WithPrefix(s[..|s| - 1], prefix) + (if IsPrefix(prefix, s[|s| - 1].name) then [s[|s| - 1]] else [])
  }

  lemma {:induction false} WithPrefixConcat(s: seq<CacheEntry>, u: seq<CacheEntry>, prefix: string)
    ensures WithPrefix(s + u, prefix) == WithPrefix(s, prefix) + WithPrefix(u, prefix)
    decreases |u|
  {
    if u == [] {
      assert s + u == s;
    } else {
      assert (s + u)[..|s + u| - 1] == s + u[..|u| - 1];
      WithPrefixConcat(s, u[..|u| - 1], prefix);
    }
  }

  /** Entries that all match are all kept. */
  lemma {:induction false} WithPrefixAll(s: seq<CacheEntry>, prefix: string)
    requires forall i :: 0 <= i < |s| ==> IsPrefix(prefix, s[i].name)
    ensures WithPrefix(s, prefix) == s
  {
    if s != [] {
      WithPrefixAll(s[..|s| - 1], prefix);
    }
  }

  /** Entries none of which match are all dropped. */
  lemma {:induction false} WithPrefixNone(s: seq<CacheEntry>, prefix: string)
    requires forall i :: 0 <= i < |s| ==> !IsPrefix(prefix, s[i].name)
    ensures WithPrefix(s, prefix) == []
  {
    if s != [] {
      WithPrefixNone(s[..|s| - 1], prefix);
    }
  }

  /** Every entry kept starts with the prefix, and every entry that starts
      with it is kept. */
  lemma {:induction false} WithPrefixMembers(s: seq<CacheEntry>, prefix: string)
    ensures forall e :: e in WithPrefix(s, prefix) <==> e in s && IsPrefix(prefix, e.name)
  {
    if s != [] {
      WithPrefixMembers(s[..|s| - 1], prefix);
      assert s == s[..|s| - 1] + [s[|s| - 1]];
    }
  }

  /** From the lower bound of a prefix on, the entries that start with it
      come first. */
  lemma PrefixRun(s: seq<CacheEntry>, prefix: string, i: nat, j: nat)
    requires Sorted(s) && LowerBound(s, prefix, 0) <= i < j < |s|
    requires IsPrefix(prefix, s[j].name)
    ensures IsPrefix(prefix, s[i].name)
  {
    if !IsPrefix(prefix, s[i].name) {
      LowerBoundAbove(s, prefix, i);
      PrefixRunFirst(prefix, s[j].name, s[i].name);
      assert EntryLess(s[i], s[j]);
      NameLessAsymmetric(s[j].name, s[i].name);
    }
  }

  /** Entries below the lower bound of a prefix do not start with it. */
  lemma BelowPrefix(s: seq<CacheEntry>, prefix: string, i: nat)
    requires i < LowerBound(s, prefix, 0)
    ensures !IsPrefix(prefix, s[i].name)
  {
    if IsPrefix(prefix, s[i].name) {
      PrefixNotBelow(prefix, s[i].name);
    }
  }

  /** The entries under `prefix` come first. */
  predicate RunFirst(t: seq<CacheEntry>, prefix: string)
  {
    forall i, j :: 0 <= i < j < |t| && IsPrefix(prefix, t[j].name) ==> IsPrefix(prefix, t[i].name)
  }

  /** Dropping the entries below the lower bound of the prefix loses none
      under it. */
  lemma PruneHead(s: seq<CacheEntry>, prefix: string, pos: nat)
    requires Sorted(s) && pos == LowerBound(s, prefix, 0)
    ensures WithPrefix(s, prefix) == WithPrefix(s[pos..], prefix)
  {
    forall i | 0 <= i < pos
      ensures !IsPrefix(prefix, s[i].name)
    {
      BelowPrefix(s, prefix, i);
    }
    WithPrefixNone(s[..pos], prefix);
    assert s == s[..pos] + s[pos..];
    WithPrefixConcat(s[..pos], s[pos..], prefix);
  }

  /** From the lower bound of the prefix on, the run under it comes first. */
  lemma PruneHeadRun(s: seq<CacheEntry>, prefix: string, pos: nat)
    requires Sorted(s) && pos == LowerBound(s, prefix, 0)
    ensures RunFirst(s[pos..], prefix)
  {
    var t := s[pos..];
    forall i, j | 0 <= i < j < |t| && IsPrefix(prefix, t[j].name)
      ensures IsPrefix(prefix, t[i].name)
    {
      PrefixRun(s, prefix, pos + i, pos + j);
    }
  }

  /** A sequence that is all under the prefix up to `last` and has nothing
      under it afterwards keeps exactly its first `last` entries. */
  lemma SplitRun(t: seq<CacheEntry>, prefix: string, last: nat)
    requires last <= |t|
    requires forall i :: 0 <= i < last ==> IsPrefix(prefix, t[i].name)
    requires forall i :: last <= i < |t| ==> !IsPrefix(prefix, t[i].name)
    ensures WithPrefix(t, prefix) == t[..last]
  {
    var head, tail := t[..last], t[last..];
    assert forall i :: 0 <= i < |head| ==> head[i] == t[i];
    assert forall i :: 0 <= i < |tail| ==> tail[i] == t[last + i];
    WithPrefixAll(head, prefix);
    WithPrefixNone(tail, prefix);
    assert t == head + tail;
    WithPrefixConcat(head, tail, prefix);
  }

  // ---------------------------------------------------------------------
  // Overlay marking

  /** The name of the last stage-0 entry before position `i`. */
  function LastStage0(s: seq<CacheEntry>, i: nat): Option<string>
    requires i <= |s|
  {
    if i == 0 then None
    else if s[i - 1].stage == 0 then Some(s[i - 1].name)
    else LastStage0(s, i - 1)
  }

  /** The weak order the index keeps after the overlay (stages merged to 3
      may repeat). */
  predicate SortedWeak(s: seq<CacheEntry>)
  {
    forall i, j :: 0 <= i < j < |s| ==> !EntryLess(s[j], s[i])
  }

  lemma {:induction false} LastStage0Is(s: seq<CacheEntry>, i: nat, j: nat, n: string)
    requires j < i <= |s| && s[j].stage == 0 && s[j].name == n
    requires forall k :: j < k < i && s[k].stage == 0 ==> s[k].name == n
    ensures LastStage0(s, i) == Some(n)
    decreases i
  {
    if i - 1 != j && s[i - 1].stage != 0 {
      LastStage0Is(s, i - 1, j, n);
    }
  }

  lemma {:induction false} LastStage0Found(s: seq<CacheEntry>, i: nat)
    requires i <= |s| && LastStage0(s, i).Some?
    ensures exists j :: 0 <= j < i && s[j].stage == 0 && s[j].name == LastStage0(s, i).value
    decreases i
  {
    if s[i - 1].stage != 0 {
      LastStage0Found(s, i - 1);
    }
  }

  /** A stage-0 entry between a stage-0 and a stage-1 entry of one name
      has that name too. */
  lemma StageZeroBetween(s: seq<CacheEntry>, j: nat, k: nat, i: nat)
    requires SortedWeak(s) && j < k < i < |s| && s[j].name == s[i].name && s[j].stage == 0 && s[i].stage == 1
    requires s[k].stage == 0
    ensures s[k].name == s[i].name
  {
    if s[k].name != s[i].name {
      NameLessTotal(s[k].name, s[i].name);
      if !NameLess(s[k].name, s[i].name) {
        assert EntryLess(s[i], s[k]);
      }
    }
  }

  /** In index order, a stage-1 entry follows the last stage-0 entry of its
      own name exactly when a stage-0 entry of that name exists. */
  lemma OverlayMarkMeaning(s: seq<CacheEntry>, i: nat)
    requires SortedWeak(s) && i < |s| && s[i].stage == 1
    ensures LastStage0(s, i) == Some(s[i].name) <==>
              exists j :: 0 <= j < |s| && s[j].stage == 0 && s[j].name == s[i].name
  {
    if LastStage0(s, i) == Some(s[i].name) {
      LastStage0Found(s, i);
    }
    if j :| 0 <= j < |s| && s[j].stage == 0 && s[j].name == s[i].name {
      assert j < i by {
        if j > i {
          assert EntryLess(s[j], s[i]);
        }
      }
      forall k | j < k < i && s[k].stage == 0
        ensures s[k].name == s[i].name
      {
        StageZeroBetween(s, j, k, i);
      }
      LastStage0Is(s, i, j, s[i].name);
    }
  }

  // ---------------------------------------------------------------------
  // The kill test of show_killed_files

  /** A stage-0 entry has exactly this name (cache_name_pos(...) >= 0). */
  predicate InIndex(s: seq<CacheEntry>, key: string)
  {
    CacheNamePos(s, key) >= 0
  }

  /** The first stage-0 entry at or after `pos` (skipping unmerged ones). */
  function NextStage0(s: seq<CacheEntry>, pos: nat): (r: nat)
    requires pos <= |s|
    ensures pos <= r <= |s|
    ensures forall k :: pos <= k < r ==> s[k].stage != 0
    ensures r < |s| ==> s[r].stage == 0
    decreases |s| - pos
  {
    if pos == |s| || s[pos].stage == 0 then pos else NextStage0(s, pos + 1)
  }

  /** The last-component check as written: look at the entry just after
      where `name` itself would go. */
  predicate ExpectsDirAsWritten(s: seq<CacheEntry>, name: string)
  {
    var k := NextStage0(s, LowerBound(s, name, 0));
    k < |s| && IsPrefix(name + "/", s[k].name)
  }

  /** The last-component check, corrected: look at the entry just after
      where `name` followed by '/' would go. */
  predicate ExpectsDir(s: seq<CacheEntry>, name: string)
  {
    var k := NextStage0(s, LowerBound(s, name + "/", 0));
    k < |s| && IsPrefix(name + "/", s[k].name)
  }

  /** The loop over the leading directories of `name` from index `cp` on:
      a leading directory that is an index entry kills the path; past the
      last '/', the last-component check decides. */
  predicate KilledFrom(s: seq<CacheEntry>, name: string, cp: nat, corrected: bool)
    decreases |name| - cp
  {
    if cp >= |name| then false
    else match StrChr(name, '/', cp)
      case None => if corrected then ExpectsDir(s, name) else ExpectsDirAsWritten(s, name)
      case Some(sp) => InIndex(s, name[..sp]) || KilledFrom(s, name, sp + 1, corrected)
  }

  /** One of the two names is a leading directory of the other, so a file
      at one of them and a file at the other cannot both exist. */
  predicate Conflicts(a: string, b: string)
  {
    IsPrefix(a + "/", b) || IsPrefix(b + "/", a)
  }

  /** The kill test of show_killed_files as written. */
  predicate KilledAsWritten(s: seq<CacheEntry>, name: string)
    ensures KilledAsWritten(s, name) ==>
              exists j :: 0 <= j < |s| && s[j].stage == 0 && Conflicts(s[j].name, name)
  {
    KilledFromSound(s, name, 0, false);
    KilledFrom(s, name, 0, false)
  }

  /** The kill test with the corrected last-component check. */
  predicate Killed(s: seq<CacheEntry>, name: string)
    ensures Killed(s, name) ==>
              exists j :: 0 <= j < |s| && s[j].stage == 0 && Conflicts(s[j].name, name)
  {
    KilledFromSound(s, name, 0, true);
    KilledFrom(s, name, 0, true)
  }

  /** Either kill test reports a path only when a stage-0 index entry
      conflicts with it. */
  lemma {:induction false} KilledFromSound(s: seq<CacheEntry>, name: string, cp: nat, corrected: bool)
    ensures KilledFrom(s, name, cp, corrected) ==>
              exists j :: 0 <= j < |s| && s[j].stage == 0 && Conflicts(s[j].name, name)
    decreases |name| - cp
  {
    if cp < |name| {
      match StrChr(name, '/', cp)
      case None =>
        if KilledFrom(s, name, cp, corrected) {
          var k := NextStage0(s, LowerBound(s, if corrected then name + "/" else name, 0));
          assert s[k].stage == 0 && Conflicts(s[k].name, name);
        }
      case Some(sp) =>
        if InIndex(s, name[..sp]) {
          var j := CacheNamePos(s, name[..sp]);
          assert name[..sp + 1] == name[..sp] + "/";
          assert s[j].stage == 0 && Conflicts(s[j].name, name);
        } else {
          KilledFromSound(s, name, sp + 1, corrected);
        }
    }
  }

  /** As written, the test misses an entry "a/c" that needs "a" to be a
      directory when "a-b" sorts between them. */
  lemma KillTestMisses()
    ensures var s := [CacheEntry("a-b", 0, false), CacheEntry("a/c", 0, false)];
      Sorted(s) && !KilledAsWritten(s, "a") && Killed(s, "a")
  {
    var s := [CacheEntry("a-b", 0, false), CacheEntry("a/c", 0, false)];
    assert NameLess("a-b", "a/c") by {
      assert "a-b"[1..] == "-b" && "a/c"[1..] == "/c";
    }
    assert Sorted(s);
    assert !NameLess("a-b", "a") by {
      assert "a-b"[1..] == "-b" && "a"[1..] == "";
    }
    assert LowerBound(s, "a", 0) == 0;
    assert NextStage0(s, 0) == 0;
    assert !IsPrefix("a/", "a-b") by {
      assert "a-b"[..2] == "a-";
    }
    assert NameLess("a-b", "a/") by {
      assert "a-b"[1..] == "-b" && "a/"[1..] == "/";
    }
    assert !NameLess("a/c", "a/") by {
      assert "a/c"[1..] == "/c" && "a/"[1..] == "/";
      assert "/c"[1..] == "c" && "/"[1..] == "";
    }
    assert LowerBound(s, "a/", 0) == 1;
    assert NextStage0(s, 1) == 1;
    assert IsPrefix("a/", "a/c") by {
      assert "a/c"[..2] == "a/";
    }
    assert StrChr("a", '/', 0) == None;
  }

  /** The corrected last-component check finds a stage-0 entry under
      `name` + "/" whenever one exists. */
  lemma ExpectsDirMeaning(s: seq<CacheEntry>, name: string)
    requires Sorted(s)
    ensures ExpectsDir(s, name) <==>
              exists j :: 0 <= j < |s| && s[j].stage == 0 && IsPrefix(name + "/", s[j].name)
  {
    var q := name + "/";
    var lb := LowerBound(s, q, 0);
    var k := NextStage0(s, lb);
    if j :| 0 <= j < |s| && s[j].stage == 0 && IsPrefix(q, s[j].name) {
      if j < lb {
        BelowPrefix(s, q, j);
      }
      assert k <= j;
      if k < j {
        PrefixRun(s, q, k, j);
      }
    }
  }

  /** Some leading directory of `name` ending at a '/' at or after `cp` is
      an index entry. */
  predicate DirInIndexFrom(s: seq<CacheEntry>, name: string, cp: nat)
  {
    exists k :: cp <= k < |name| && name[k] == '/' && InIndex(s, name[..k])
  }

  /** Splitting the search for such a directory at the first '/'. */
  lemma DirInIndexSplit(s: seq<CacheEntry>, name: string, cp: nat, sp: nat)
    requires cp <= sp < |name| && name[sp] == '/'
    requires forall j :: cp <= j < sp ==> name[j] != '/'
    ensures DirInIndexFrom(s, name, cp) <==> InIndex(s, name[..sp]) || DirInIndexFrom(s, name, sp + 1)
  {
    if DirInIndexFrom(s, name, cp) {
      var k :| cp <= k < |name| && name[k] == '/' && InIndex(s, name[..k]);
      assert k == sp || sp + 1 <= k;
    }
  }

  /** What the corrected kill test decides from position `cp`: some
      leading directory at or after `cp` is an index entry, or the path does
      not end in '/' and an index entry lies under it. */
  lemma {:induction false} KilledFromMeaning(s: seq<CacheEntry>, name: string, cp: nat)
    requires Sorted(s) && IsCString(name) && cp < |name|
    ensures KilledFrom(s, name, cp, true) <==>
              DirInIndexFrom(s, name, cp) || (name[|name| - 1] != '/' && ExpectsDir(s, name))
    decreases |name| - cp
  {
    match StrChr(name, '/', cp)
    case None =>
      forall k | cp <= k < |name|
        ensures name[k] != '/'
      {
      }
    case Some(sp) =>
      DirInIndexSplit(s, name, cp, sp);
      if sp + 1 < |name| {
        KilledFromMeaning(s, name, sp + 1);
      }
  }

  /** The corrected kill test: a leading directory of the path is an index
      entry, or the path is a file some stage-0 entry needs as a directory. */
  lemma KilledMeaning(s: seq<CacheEntry>, name: string)
    requires Sorted(s) && IsCString(name) && |name| > 0
    ensures Killed(s, name) <==>
              DirInIndexFrom(s, name, 0)
              || (name[|name| - 1] != '/'
                  && exists j :: 0 <= j < |s| && s[j].stage == 0 && IsPrefix(name + "/", s[j].name))
  {
    KilledFromMeaning(s, name, 0);
    ExpectsDirMeaning(s, name);
  }

  /** The last-component check of show_killed_files (corrected): find
      where `name` + "/" would go, skip unmerged entries, and ask whether the
      next entry lies under `name` + "/". */
  method CheckExpectsDir(s: seq<CacheEntry>, name: string) returns (r: bool)
    ensures r == ExpectsDir(s, name)
  {
    var pos := CacheNamePos(s, name + "/");
    if pos < 0 {
      pos := -pos - 1;
    }
    ghost var lb := LowerBound(s, name + "/", 0);
    assert pos == lb;
    while pos < |s| && s[pos].stage != 0
      invariant lb <= pos <= |s|
      invariant NextStage0(s, pos) == NextStage0(s, lb)
      decreases |s| - pos
    {
      pos := pos + 1;
    }
    if |s| <= pos {
      return false;
    }
    var other := s[pos].name;
    r := |name| < |other| && other[..|name|] == name && other[|name|] == '/';
    assert r == IsPrefix(name + "/", other) by {
      if IsPrefix(name + "/", other) {
        assert other[..|name| + 1] == name + "/";
        assert other[..|name|] == other[..|name| + 1][..|name|];
      }
      if r {
        assert other[..|name| + 1] == other[..|name|] + [other[|name|]];
      }
    }
  }

  // ---------------------------------------------------------------------
  // The index as ls-files holds it

  /** active_cache and active_nr. */
  class Index {
    var cache: array<CacheEntry>
    var nr: nat

    ghost predicate Valid()
      reads this
    {
      nr <= cache.Length
    }

    /** prune_cache: drop the entries before the run under `prefix`, then
        binary-search the end of that run. */
    method PruneCache(prefix: string)
      requires Valid() && Sorted(cache[..nr])
      modifies this`nr, cache
      ensures Valid()
      ensures cache[..nr] == WithPrefix(old(cache[..nr]), prefix)
    {
      ghost var s := cache[..nr];
      var pos := CacheNamePos(cache[..nr], prefix);
      if pos < 0 {
        pos := -pos - 1;
      }
      PruneHead(s, prefix, pos);
      PruneHeadRun(s, prefix, pos);
      MoveDown(pos);
      var last := RunEnd(prefix);
      nr := last;
    }

    /** The memmove of prune_cache: shift entries `pos` .. `nr` to the front. */
    method MoveDown(pos: nat)
      requires Valid() && pos <= nr
      modifies this`nr, cache
      ensures Valid() && cache[..nr] == old(cache[..nr])[pos..]
    {
      ghost var s := cache[..nr];
      var k := 0;
      while k < nr - pos
        invariant k <= nr - pos && nr <= cache.Length && |s| == nr
        invariant forall i :: 0 <= i < k ==> cache[i] == s[pos + i]
        invariant forall i :: k + pos <= i < nr ==> cache[i] == s[i]
      {
        cache[k] := cache[k + pos];
        k := k + 1;
      }
      nr := nr - pos;
      assert cache[..nr] == s[pos..];
    }

    /** The binary search of prune_cache: where the run of entries under
        `prefix` at the front of the index ends. */
    method RunEnd(prefix: string) returns (last: nat)
      requires Valid() && RunFirst(cache[..nr], prefix)
      ensures last <= nr && WithPrefix(cache[..nr], prefix) == cache[..last]
    {
      ghost var t := cache[..nr];
      var first := 0;
      last := nr;
      while last > first
        invariant first <= last <= nr
        invariant forall i :: 0 <= i < first ==> IsPrefix(prefix, t[i].name)
        invariant forall i :: last <= i < nr ==> !IsPrefix(prefix, t[i].name)
      {
        var next := (last + first) / 2;
        if IsPrefix(prefix, cache[next].name) {
          first := next + 1;
        } else {
          last := next;
        }
      }
      SplitRun(t, prefix, last);
    }

    /** The first loop of overlay_tree_on_cache: move every unmerged entry
        to stage 3, clearing stages 1 and 2 for the tree. */
    method HoistUnmerged()
      requires Valid()
      modifies cache
      ensures forall i :: 0 <= i < nr ==>
                cache[i] == (if old(cache[i]).stage != 0 then old(cache[i]).(stage := 3) else old(cache[i]))
      ensures forall i :: nr <= i < cache.Length ==> cache[i] == old(cache[i])
    {
      var i := 0;
      while i < nr
        invariant i <= nr
        invariant forall k :: 0 <= k < i ==>
                    cache[k] == (if old(cache[k]).stage != 0 then old(cache[k]).(stage := 3) else old(cache[k]))
        invariant forall k :: i <= k < cache.Length ==> cache[k] == old(cache[k])
      {
        if cache[i].stage != 0 {
          cache[i] := cache[i].(stage := 3);
        }
        i := i + 1;
      }
    }

    /** The last loop of overlay_tree_on_cache: a stage-1 entry (from the
        tree) whose name is that of the last stage-0 entry before it gets
        CE_UPDATE, so that it is not shown. */
    method MarkOverlay()
      requires Valid()
      modifies cache
      ensures forall i :: 0 <= i < nr ==>
                cache[i] == old(cache[i]).(update := old(cache[i]).update
                  || (old(cache[i]).stage == 1 && LastStage0(old(cache[..nr]), i) == Some(old(cache[i]).name)))
      ensures forall i :: nr <= i < cache.Length ==> cache[i] == old(cache[i])
    {
      ghost var s := cache[..nr];
      var last: Option<string> := None;
      var i := 0;
      while i < nr
        invariant i <= nr && last == LastStage0(s, i)
        invariant forall k :: 0 <= k < i ==>
                    cache[k] == s[k].(update := s[k].update || (s[k].stage == 1 && LastStage0(s, k) == Some(s[k].name)))
        invariant forall k :: i <= k < cache.Length ==> cache[k] == old(cache[k])
      {
        var ce := cache[i];
        if ce.stage == 0 {
          last := Some(ce.name);
        } else if ce.stage == 1 && last == Some(ce.name) {
          cache[i] := ce.(update := true);
        }
        i := i + 1;
      }
    }

    /** The kill test of show_killed_files for the untracked path `name`,
        with the corrected last-component check. */
    method ShowKilled(name: string) returns (killed: bool)
      requires Valid() && IsCString(name) && !InIndex(cache[..nr], name)
      ensures killed == Killed(cache[..nr], name)
    {
      var s := cache[..nr];
      var cp := 0;
      while cp < |name|
        invariant KilledFrom(s, name, cp, true) == Killed(s, name)
        decreases |name| - cp
      {
        var sp := StrChr(name, '/', cp);
        if sp.None? {
          killed := CheckExpectsDir(s, name);
          return;
        }
        if CacheNamePos(s, name[..sp.value]) >= 0 {
          return true;
        }
        cp := sp.value + 1;
      }
      return false;
    }
  }
}

=== FILE: ref_filter_contains.dfy ===
// The "contains" walk of ref-filter.c (tag --contains with the tag
// algorithm): does a candidate commit reach one of the wanted commits
// through parent links?  Answers are cached on the commits as two flags,
// TMP_MARK ("contains") and UNINTERESTING ("does not contain"), which later
// candidates reuse.
module RefFilterContains {

  /** A commit graph: commits are numbered 0 .. |parents| - 1, each with its
      parent list; `parsable` says whether parse_commit succeeds on a commit,
      and `want` is the list of commits asked for. */
  datatype Graph = Graph(parents: seq<seq<nat>>, parsable: seq<bool>, want: seq<nat>)

  /** A commit graph is acyclic, so its commits can be numbered with every
      parent below its child. */
  predicate Ordered(g: Graph)
  {
    |g.parsable| == |g.parents|
    && forall c, k :: 0 <= c < |g.parents| && 0 <= k < |g.parents[c]| ==> g.parents[c][k] < c
  }

  /** Commit `c` contains a wanted commit: it is one, or it parses and one of
      its parents contains one. */
  ghost predicate Contains(g: Graph, c: nat)
    requires Ordered(g) && c < |g.parents|
    ensures Contains(g, c) ==> exists w :: w in g.want && w <= c
    decreases c
  {
    c in g.want
    || (g.parsable[c] && exists k :: 0 <= k < |g.parents[c]| && Contains(g, g.parents[c][k]))
  }

  /** A walk from child to parent through commits that parse. */
  ghost predicate IsWalk(g: Graph, p: seq<nat>)
  {
    |p| >= 1
    && (forall i :: 0 <= i < |p| ==> p[i] < |g.parents| && p[i] < |g.parsable|)
    && forall i :: 0 <= i < |p| - 1 ==> g.parsable[p[i]] && p[i + 1] in g.parents[p[i]]
  }

  /** A commit that contains a wanted commit has a walk down to it. */
  lemma {:induction false} ContainsHasWalk(g: Graph, c: nat)
    requires Ordered(g) && c < |g.parents| && Contains(g, c)
    ensures exists p :: IsWalk(g, p) && p[0] == c && p[|p| - 1] in g.want
    decreases c
  {
    if c in g.want {
      assert IsWalk(g, [c]);
    } else {
      var k :| 0 <= k < |g.parents[c]| && Contains(g, g.parents[c][k]);
      var q := g.parents[c][k];
      ContainsHasWalk(g, q);
      var p :| IsWalk(g, p) && p[0] == q && p[|p| - 1] in g.want;
      var w := [c] + p;
      assert w[1..] == p;
      assert IsWalk(g, w);
      assert w[|w| - 1] == p[|p| - 1];
    }
  }

  /** A walk that ends at a wanted commit shows that its start contains it. */
  lemma {:induction false} WalkContains(g: Graph, p: seq<nat>)
    requires Ordered(g) && IsWalk(g, p) && p[|p| - 1] in g.want
    ensures Contains(g, p[0])
    decreases |p|
  {
    if |p| > 1 {
      var rest := p[1..];
      assert IsWalk(g, rest);
      WalkContains(g, rest);
      var k :| 0 <= k < |g.parents[p[0]]| && g.parents[p[0]][k] == p[1];
      assert Contains(g, g.parents[p[0]][k]);
    }
  }

  /** The recursive definition agrees with reachability by walks. */
  lemma ContainsIffWalk(g: Graph, c: nat)
    requires Ordered(g) && c < |g.parents|
    ensures Contains(g, c) <==> exists p :: IsWalk(g, p) && p[0] == c && p[|p| - 1] in g.want
  {
    if Contains(g, c) {
      ContainsHasWalk(g, c);
    }
    if p :| IsWalk(g, p) && p[0] == c && p[|p| - 1] in g.want {
      WalkContains(g, p);
    }
  }

  /** contains_result: CONTAINS_UNKNOWN (-1), CONTAINS_NO (0), CONTAINS_YES (1). */
  datatype ContainsResult = ContainsUnknown | ContainsNo | ContainsYes

  /** One stack entry of contains_tag_algo: a commit and the index of the
      parent it is waiting on (the remaining parent list). */
  datatype Entry = Entry(commit: nat, next: nat)

  /** The number of commits that carry neither flag. */
  function Unmarked(tm: seq<bool>, un: seq<bool>): nat
    requires |tm| == |un|
  {
    if tm == [] then 0
    else Unmarked(tm[..|tm| - 1], un[..|un| - 1]) + (if tm[|tm| - 1] || un[|un| - 1] then 0 else 1)
  }

  /** Flags are only ever added. */
  predicate MarksGrow(tm: seq<bool>, un: seq<bool>, tm2: seq<bool>, un2: seq<bool>)
  {
    |tm| == |un| == |tm2| == |un2|
    && forall d :: 0 <= d < |tm| ==> (tm[d] || un[d]) ==> (tm2[d] || un2[d])
  }

  /** Adding flags never raises the count, and flagging a commit that had
      none lowers it. */
  lemma {:induction false} UnmarkedShrinks(tm: seq<bool>, un: seq<bool>, tm2: seq<bool>, un2: seq<bool>, c: int)
    requires MarksGrow(tm, un, tm2, un2)
    requires 0 <= c < |tm| ==> !tm[c] && !un[c] && (tm2[c] || un2[c])
    ensures Unmarked(tm2, un2) <= Unmarked(tm, un)
    ensures 0 <= c < |tm| ==> Unmarked(tm2, un2) < Unmarked(tm, un)
  {
    if tm != [] {
      var n := |tm| - 1;
      UnmarkedShrinks(tm[..n], un[..n], tm2[..n], un2[..n], if c < n then c else -1);
    }
  }

  /** The commit objects' flag bits for one want list: TMP_MARK and
      UNINTERESTING, as arrays indexed by commit. */
  class ContainsCache {
    const g: Graph
    const tmpMark: array<bool>
    const uninteresting: array<bool>

    /** Every flag is a correct, cached answer. */
    ghost predicate Valid()
      reads this, tmpMark, uninteresting
    {
      Ordered(g) && tmpMark.Length == |g.parents| && uninteresting.Length == |g.parents|
      && tmpMark != uninteresting
      && forall c :: 0 <= c < |g.parents| ==>
           (tmpMark[c] ==> Contains(g, c)) && (uninteresting[c] ==> !Contains(g, c))
    }

    constructor (graph: Graph)
      requires Ordered(graph)
      ensures g == graph && Valid()
      ensures forall c :: 0 <= c < |graph.parents| ==> !tmpMark[c] && !uninteresting[c]
    {
      g := graph;
      tmpMark := new bool[|graph.parents|](_ => false);
      uninteresting := new bool[|graph.parents|](_ => false);
    }

    /** in_commit_list: a linear search of the want list. */
    method InCommitList(c: nat) returns (r: bool)
      ensures r <==> c in g.want
    {
      var i := 0;
      while i < |g.want|
        invariant i <= |g.want|
        invariant c !in g.want[..i]
      {
        if g.want[i] == c {
          return true;
        }
        assert g.want[..i + 1] == g.want[..i] + [g.want[i]];
        i := i + 1;
      }
      assert g.want[..i] == g.want;
      return false;
    }

    /** contains_test: answer from the flags, from the want list, or from a
        failed parse; otherwise the answer is unknown.  A wanted commit gets
        TMP_MARK. */
    method ContainsTest(c: nat) returns (r: ContainsResult)
      requires Valid() && c < |g.parents|
      modifies tmpMark
      ensures Valid()
      ensures r == ContainsYes ==> Contains(g, c) && tmpMark[c]
      ensures r == ContainsNo ==> !Contains(g, c)
      ensures r == ContainsUnknown <==>
                !old(tmpMark[c]) && !uninteresting[c] && c !in g.want && g.parsable[c]
      ensures forall d :: 0 <= d < tmpMark.Length && d != c ==> tmpMark[d] == old(tmpMark[d])
      ensures old(tmpMark[c]) ==> tmpMark[c]
      ensures r == ContainsUnknown ==> !tmpMark[c]
    {
      if tmpMark[c] {
        return ContainsYes;
      }
      if uninteresting[c] {
        return ContainsNo;
      }
      var wanted := InCommitList(c);
      if wanted {
        tmpMark[c] := true;
        return ContainsYes;
      }
      if !g.parsable[c] {
        return ContainsNo;
      }
      return ContainsUnknown;
    }

    /** What the explicit stack of contains_tag_algo holds: a chain of
        distinct unflagged commits that parse and are not wanted, the
        candidate at the bottom, children below parents, and for each entry
        the parents it has moved past known not to contain. */
    ghost predicate StackOk(stack: seq<Entry>, candidate: nat)
      reads this, tmpMark, uninteresting
      requires Valid()
    {
      (|stack| > 0 ==> stack[0].commit == candidate)
      && (forall i :: 0 <= i < |stack| ==> stack[i].commit + i < |g.parents|)
      && (forall i, j :: 0 <= i < j < |stack| ==> stack[j].commit < stack[i].commit)
      && forall i :: 0 <= i < |stack| ==> EntryOk(stack[i])
    }

    ghost predicate EntryOk(e: Entry)
      reads this, tmpMark, uninteresting
      requires Valid()
    {
      e.commit < |g.parents| && e.next <= |g.parents[e.commit]|
      && !tmpMark[e.commit] && !uninteresting[e.commit]
      && e.commit !in g.want && g.parsable[e.commit]
      && forall k :: 0 <= k < e.next ==> !Contains(g, g.parents[e.commit][k])
    }

    /** The parents the top entry has yet to look at. */
    function TopLeft(stack: seq<Entry>): nat
    {
      if stack == [] then 0
      else
        var e := stack[|stack| - 1];
        if e.commit < |g.parents| && e.next <= |g.parents[e.commit]| then |g.parents[e.commit]| - e.next else 0
    }

    /** contains_tag_algo: answer for `candidate`, walking its ancestry with
        an explicit stack and caching every answer it settles on the way. */
    method ContainsTagAlgo(candidate: nat) returns (r: ContainsResult)
      requires Valid() && candidate < |g.parents|
      modifies tmpMark, uninteresting
      ensures Valid()
      ensures r != ContainsUnknown
      ensures r == ContainsYes <==> Contains(g, candidate)
    {
      r := ContainsTest(candidate);
      if r != ContainsUnknown {
        return;
      }
      var stack := [Entry(candidate, 0)];
      while |stack| > 0
        invariant Valid() && StackOk(stack, candidate)
        invariant |stack| == 0 ==> tmpMark[candidate] || uninteresting[candidate]
        decreases Unmarked(tmpMark[..], uninteresting[..]), |g.parents| - |stack|, TopLeft(stack)
      {
        stack := ContainsStep(stack, candidate);
      }
      r := ContainsTest(candidate);
    }

    /** One turn of the walk's loop: the top entry either runs out of
        parents (no), meets a parent that contains (yes), moves past a
        parent that does not, or pushes a parent whose answer is unknown. */
    method ContainsStep(stack: seq<Entry>, candidate: nat) returns (stack': seq<Entry>)
      requires Valid() && StackOk(stack, candidate) && |stack| > 0
      modifies tmpMark, uninteresting
      ensures Valid() && StackOk(stack', candidate)
      ensures |stack'| == 0 ==> tmpMark[candidate] || uninteresting[candidate]
      ensures Unmarked(tmpMark[..], uninteresting[..]) < Unmarked(old(tmpMark[..]), old(uninteresting[..]))
              || (Unmarked(tmpMark[..], uninteresting[..]) == Unmarked(old(tmpMark[..]), old(uninteresting[..]))
                  && (|stack'| == |stack| + 1
                      || (|stack'| == |stack| && TopLeft(stack') < TopLeft(stack))))
    {
      ghost var tm, un := tmpMark[..], uninteresting[..];
      var top := stack[|stack| - 1];
      assert EntryOk(top);
      if top.next == |g.parents[top.commit]| {
        stack' := PopEntry(stack, candidate, false);
      } else {
        var p := g.parents[top.commit][top.next];
        var t := ContainsTest(p);
        TestKeepsStack(stack, candidate, p, tm);
        UnmarkedShrinks(tm, un, tmpMark[..], uninteresting[..], -1);
        if t == ContainsYes {
          stack' := PopEntry(stack, candidate, true);
        } else {
          stack' := NextEntry(stack, candidate, p, t == ContainsNo);
        }
      }
    }

    /** The parent of the top entry is settled as not containing (the entry
        moves past it) or is unknown (it is pushed). */
    method NextEntry(stack: seq<Entry>, candidate: nat, p: nat, no: bool) returns (stack': seq<Entry>)
      requires Valid() && StackOk(stack, candidate) && |stack| > 0
      requires stack[|stack| - 1].next < |g.parents[stack[|stack| - 1].commit]|
      requires p == g.parents[stack[|stack| - 1].commit][stack[|stack| - 1].next]
      requires no ==> !Contains(g, p)
      requires !no ==> !tmpMark[p] && !uninteresting[p] && p !in g.want && g.parsable[p]
      ensures StackOk(stack', candidate) && |stack'| > 0
      ensures |stack'| == |stack| + 1 || (|stack'| == |stack| && TopLeft(stack') < TopLeft(stack))
    {
      var top := stack[|stack| - 1];
      assert EntryOk(top);
      if no {
        stack' := stack[..|stack| - 1] + [Entry(top.commit, top.next + 1)];
        assert EntryOk(stack'[|stack| - 1]);
        AdvanceKeepsStack(stack, candidate, tmpMark[..], uninteresting[..], p);
      } else {
        stack' := stack + [Entry(p, 0)];
        assert EntryOk(Entry(p, 0));
        PushKeepsStack(stack, candidate, p);
      }
    }

    /** The top entry is settled: flag its commit with the answer and pop it. */
    method PopEntry(stack: seq<Entry>, candidate: nat, contains: bool) returns (stack': seq<Entry>)
      requires Valid() && StackOk(stack, candidate) && |stack| > 0
      requires Contains(g, stack[|stack| - 1].commit) == contains
      modifies tmpMark, uninteresting
      ensures Valid() && StackOk(stack', candidate) && stack' == stack[..|stack| - 1]
      ensures |stack'| == 0 ==> tmpMark[candidate] || uninteresting[candidate]
      ensures Unmarked(tmpMark[..], uninteresting[..]) < Unmarked(old(tmpMark[..]), old(uninteresting[..]))
    {
      ghost var tm, un := tmpMark[..], uninteresting[..];
      var top := stack[|stack| - 1].commit;
      assert EntryOk(stack[|stack| - 1]);
      if contains {
        tmpMark[top] := true;
      } else {
        uninteresting[top] := true;
      }
      stack' := stack[..|stack| - 1];
      PopKeepsStack(stack, candidate);
      UnmarkedShrinks(tm, un, tmpMark[..], uninteresting[..], top);
    }

    /** Testing a parent of the top entry flags at most that parent, which
        is below every commit on the stack, so the stack stays valid. */
    lemma TestKeepsStack(stack: seq<Entry>, candidate: nat, p: nat, tm: seq<bool>)
      requires Valid() && |stack| > 0 && |tm| == |g.parents|
      requires p < stack[|stack| - 1].commit
      requires forall d :: 0 <= d < |g.parents| && d != p ==> tmpMark[d] == tm[d]
      requires stack[0].commit == candidate
      requires forall i :: 0 <= i < |stack| ==> stack[i].commit + i < |g.parents|
      requires forall i, j :: 0 <= i < j < |stack| ==> stack[j].commit < stack[i].commit
      requires forall i :: 0 <= i < |stack| ==>
                 (stack[i].commit < |g.parents|
                  && stack[i].next <= |g.parents[stack[i].commit]|
                  && !tm[stack[i].commit] && !uninteresting[stack[i].commit]
                  && stack[i].commit !in g.want && g.parsable[stack[i].commit]
                  && forall k :: 0 <= k < stack[i].next ==> !Contains(g, g.parents[stack[i].commit][k]))
      ensures StackOk(stack, candidate)
    {
      forall i | 0 <= i < |stack|
        ensures EntryOk(stack[i])
      {
        assert stack[i].commit != p;
      }
    }

    /** Popping the top after flagging it keeps the rest of the stack valid. */
    lemma PopKeepsStack(stack: seq<Entry>, candidate: nat)
      requires Valid() && |stack| > 0
      requires stack[0].commit == candidate
      requires forall i :: 0 <= i < |stack| ==> stack[i].commit + i < |g.parents|
      requires forall i, j :: 0 <= i < j < |stack| ==> stack[j].commit < stack[i].commit
      requires forall i :: 0 <= i < |stack| - 1 ==>
                 (stack[i].commit < |g.parents|
                  && stack[i].next <= |g.parents[stack[i].commit]|
                  && !tmpMark[stack[i].commit] && !uninteresting[stack[i].commit]
                  && stack[i].commit !in g.want && g.parsable[stack[i].commit]
                  && forall k :: 0 <= k < stack[i].next ==> !Contains(g, g.parents[stack[i].commit][k]))
      requires tmpMark[stack[|stack| - 1].commit] || uninteresting[stack[|stack| - 1].commit]
      ensures StackOk(stack[..|stack| - 1], candidate)
      ensures |stack| == 1 ==> tmpMark[candidate] || uninteresting[candidate]
    {
    }

    /** A parent below the top entry, pushed with nothing looked at yet,
        keeps the stack valid. */
    lemma PushKeepsStack(stack: seq<Entry>, candidate: nat, p: nat)
      requires Valid() && StackOk(stack, candidate) && |stack| > 0
      requires p < stack[|stack| - 1].commit && EntryOk(Entry(p, 0))
      ensures StackOk(stack + [Entry(p, 0)], candidate)
    {
      var s' := stack + [Entry(p, 0)];
      assert forall i :: 0 <= i < |stack| ==> s'[i] == stack[i];
      assert forall i :: 0 <= i < |stack| ==> stack[|stack| - 1].commit <= stack[i].commit;
    }

    /** Moving the top entry past a parent that does not contain keeps the
        stack valid. */
    lemma AdvanceKeepsStack(stack: seq<Entry>, candidate: nat, tm: seq<bool>, un: seq<bool>, p: nat)
      requires Valid() && |stack| > 0
      requires |tm| == |un| == |g.parents| && uninteresting[..] == un
      requires p < stack[|stack| - 1].commit
      requires forall d :: 0 <= d < |g.parents| && d != p ==> tmpMark[d] == tm[d]
      requires (stack[0].commit == candidate)
      requires forall i :: 0 <= i < |stack| ==> stack[i].commit + i < |g.parents|
      requires forall i, j :: 0 <= i < j < |stack| ==> stack[j].commit < stack[i].commit
      requires forall i :: 0 <= i < |stack| ==>
                 (stack[i].commit < |g.parents|
                  && stack[i].next <= |g.parents[stack[i].commit]|
                  && !tm[stack[i].commit] && !un[stack[i].commit]
                  && stack[i].commit !in g.want && g.parsable[stack[i].commit]
                  && forall k :: 0 <= k < stack[i].next ==> !Contains(g, g.parents[stack[i].commit][k]))
      requires EntryOk(Entry(stack[|stack| - 1].commit, stack[|stack| - 1].next + 1))
      ensures StackOk(stack[..|stack| - 1] + [Entry(stack[|stack| - 1].commit, stack[|stack| - 1].next + 1)], candidate)
    {
      var s := stack[..|stack| - 1] + [Entry(stack[|stack| - 1].commit, stack[|stack| - 1].next + 1)];
      forall i | 0 <= i < |s|
        ensures EntryOk(s[i])
      {
        if i < |stack| - 1 {
          assert s[i] == stack[i];
        }
      }
    }
  }
}

=== FILE: ref_filter_format.dfy ===
// The format side of ref-filter.c: the table of valid atoms, the table of
// atoms a format or a sort key uses, the "%(" scanner, format verification
// and the "%XX" / "%%" emitter.

module RefFilterFormat {
  import opened Common

  /** How the values of an atom compare when sorting. */
  datatype CmpType = FieldStr | FieldUlong | FieldTime

  datatype ValidAtom = ValidAtom(name: string, cmpType: CmpType)

  /** The atoms a format may name, in table order. */
  const ValidAtomCount: nat := 36

  function ValidAtomAt(i: nat): (a: ValidAtom)
    requires i < ValidAtomCount
    ensures |a.name| > 0 && a.name[0] != '*'
  {
    match i
    case 0 => ValidAtom("refname", FieldStr)
    case 1 => ValidAtom("objecttype", FieldStr)
    case 2 => ValidAtom("objectsize", FieldUlong)
    case 3 => ValidAtom("objectname", FieldStr)
    case 4 => ValidAtom("tree", FieldStr)
    case 5 => ValidAtom("parent", FieldStr)
    case 6 => ValidAtom("numparent", FieldUlong)
    case 7 => ValidAtom("object", FieldStr)
    case 8 => ValidAtom("type", FieldStr)
    case 9 => ValidAtom("tag", FieldStr)
    case 10 => ValidAtom("author", FieldStr)
    case 11 => ValidAtom("authorname", FieldStr)
    case 12 => ValidAtom("authoremail", FieldStr)
    case 13 => ValidAtom("authordate", FieldTime)
    case 14 => ValidAtom("committer", FieldStr)
    case 15 => ValidAtom("committername", FieldStr)
    case 16 => ValidAtom("committeremail", FieldStr)
    case 17 => ValidAtom("committerdate", FieldTime)
    case 18 => ValidAtom("tagger", FieldStr)
    case 19 => ValidAtom("taggername", FieldStr)
    case 20 => ValidAtom("taggeremail", FieldStr)
    case 21 => ValidAtom("taggerdate", FieldTime)
    case 22 => ValidAtom("creator", FieldStr)
    case 23 => ValidAtom("creatordate", FieldTime)
    case 24 => ValidAtom("subject", FieldStr)
    case 25 => ValidAtom("body", FieldStr)
    case 26 => ValidAtom("contents", FieldStr)
    case 27 => ValidAtom("contents:subject", FieldStr)
    case 28 => ValidAtom("contents:body", FieldStr)
    case 29 => ValidAtom("contents:signature", FieldStr)
    case 30 => ValidAtom("upstream", FieldStr)
    case 31 => ValidAtom("push", FieldStr)
    case 32 => ValidAtom("symref", FieldStr)
    case 33 => ValidAtom("flag", FieldStr)
    case 34 => ValidAtom("HEAD", FieldStr)
    case _ => ValidAtom("color", FieldStr)
  }

  /** A leading '*' asks for the value of the peeled tag. */
  predicate IsDeref(text: string)
  {
    |text| > 0 && text[0] == '*'
  }

  /** The atom text without its (single) deref marker. */
  function DerefName(text: string): string
  {
    if IsDeref(text) then text[1..] else text
  }

  /** The index of the first ':' in `name`, or |name| when there is none. */
  function ColonIndex(name: string): (k: nat)
    ensures k <= |name|
  {
    if name == [] then 0
    else if name[0] == ':' then 0
    else 1 + ColonIndex(name[1..])
  }

  /** The part of an atom name that is looked up: everything before a ':'. */
  function BaseName(name: string): string
  {
    name[..ColonIndex(name)]
  }

  /** The looked-up name is the part of `name` before its first ':'. */
  lemma {:induction false} BaseNameMeaning(name: string)
    ensures IsPrefix(BaseName(name), name) && ':' !in BaseName(name)
    ensures |BaseName(name)| < |name| ==> name[|BaseName(name)|] == ':'
  {
    if name != [] && name[0] != ':' {
      BaseNameMeaning(name[1..]);
      assert BaseName(name) == [name[0]] + BaseName(name[1..]);
    }
  }

  /** The first entry at or after `from` of the valid-atom table named `base`. */
  function AtomIndexFrom(base: string, from: nat): (r: Option<nat>)
    requires from <= ValidAtomCount
    ensures r.Some? ==> from <= r.value < ValidAtomCount
    decreases ValidAtomCount - from
  {
    if from == ValidAtomCount then None
    else if ValidAtomAt(from).name == base then Some(from)
    else AtomIndexFrom(base, from + 1)
  }

  /** The validity loop of parse_ref_filter_atom. */
  method FindValidAtom(base: string) returns (r: Option<nat>)
    ensures r == AtomIndexFrom(base, 0)
  {
    var k := 0;
    while k < ValidAtomCount
      invariant k <= ValidAtomCount
      invariant AtomIndexFrom(base, k) == AtomIndexFrom(base, 0)
    {
      if ValidAtomAt(k).name == base {
        return Some(k);
      }
      k := k + 1;
    }
    return None;
  }

  /** The entry of the valid-atom table that `text` names, if any. */
  function LookupAtom(text: string): (r: Option<nat>)
    ensures r.Some? ==> r.value < ValidAtomCount
  {
    AtomIndexFrom(BaseName(DerefName(text)), 0)
  }

  /** The lookup finds a table entry with the looked-up name. */
  lemma {:induction false} AtomIndexFromMeaning(base: string, from: nat)
    requires from <= ValidAtomCount
    ensures AtomIndexFrom(base, from).Some? ==> ValidAtomAt(AtomIndexFrom(base, from).value).name == base
    decreases ValidAtomCount - from
  {
    if from < ValidAtomCount && ValidAtomAt(from).name != base {
      AtomIndexFromMeaning(base, from + 1);
    }
  }

  /** A text a format may use as an atom. */
  predicate ValidAtomText(text: string)
  {
    |DerefName(text)| > 0 && LookupAtom(text).Some?
  }

  function AtomType(text: string): CmpType
    requires ValidAtomText(text)
  {
    ValidAtomAt(LookupAtom(text).value).cmpType
  }

  /** Validity ignores one leading '*'. */
  lemma DerefIgnored(name: string)
    requires !IsDeref(name)
    ensures ValidAtomText(['*'] + name) == ValidAtomText(name)
    ensures ValidAtomText(['*'] + name) ==> AtomType(['*'] + name) == AtomType(name)
  {
    assert (['*'] + name)[1..] == name;
  }

  /** Validity ignores a ":format" suffix after a non-empty name. */
  lemma FormatSuffixIgnored(name: string, format: string)
    requires name != [] && !IsDeref(name) && ':' !in name
    ensures ValidAtomText(name + [':'] + format) == ValidAtomText(name)
    ensures ValidAtomText(name) ==> AtomType(name + [':'] + format) == AtomType(name)
  {
    var text := name + [':'] + format;
    ColonIndexAt(text, |name|);
    ColonIndexAt(name, |name|);
    assert text[..|name|] == name;
    assert name[..|name|] == name;
  }

  /** The colon index is `k` when `k` is the first ':' (or the end). */
  lemma {:induction false} ColonIndexAt(name: string, k: nat)
    requires k <= |name| && (forall j :: 0 <= j < k ==> name[j] != ':') && (k < |name| ==> name[k] == ':')
    ensures ColonIndex(name) == k
  {
    if k > 0 {
      ColonIndexAt(name[1..], k - 1);
    }
  }

  /** `u` holds the entries of `t` at the same indices, and maybe more. */
  predicate Extends(t: seq<string>, u: seq<string>)
  {
    |t| <= |u| && forall i :: 0 <= i < |t| ==> u[i] == t[i]
  }

  /** The atoms in use, and the needs they imply. */
  datatype AtomSet = AtomSet(used: seq<string>, types: seq<CmpType>, needTagged: bool, needSymref: bool)

  /** What a well-formed table holds: distinct valid atom texts with their
      types, and flags that record whether a deref or "symref" is among them. */
  ghost predicate WellFormed(t: AtomSet)
  {
    |t.types| == |t.used|
    && (forall i :: 0 <= i < |t.used| ==> ValidAtomText(t.used[i]) && t.types[i] == AtomType(t.used[i]))
    && (forall i, j :: 0 <= i < j < |t.used| ==> t.used[i] != t.used[j])
    && (t.needTagged <==> exists i :: 0 <= i < |t.used| && IsDeref(t.used[i]))
    && (t.needSymref <==> "symref" in t.used)
  }

  /** The outcome of parsing an atom: its index, or the fatal error. */
  datatype AtomOutcome = Found(index: nat) | MalformedField(text: string) | UnknownField(text: string)

  /** parse_ref_filter_atom on the atom text `text`. */
  function AddAtom(t: AtomSet, text: string): (r: (AtomSet, AtomOutcome))
    ensures r.1.Found? ==> r.1.index < |r.0.used| && r.0.used[r.1.index] == text
  {
    if |DerefName(text)| == 0 then (t, MalformedField(text))
    else match IndexOf(t.used, text, 0)
      case Some(i) => (t, Found(i))
      case None =>
        if !ValidAtomText(text) then (t, UnknownField(text))
        else (AtomSet(t.used + [text], t.types + [AtomType(text)],
                      t.needTagged || IsDeref(text), t.needSymref || text == "symref"),
              Found(|t.used|))
  }

  /** Parsing an atom keeps the table well formed. */
  lemma AddAtomWellFormed(t: AtomSet, text: string)
    requires WellFormed(t)
    ensures WellFormed(AddAtom(t, text).0)
  {
    var t' := AddAtom(t, text).0;
    if t' != t {
      assert t'.used == t.used + [text];
      assert forall i :: 0 <= i < |t.used| ==> t'.used[i] == t.used[i];
      assert IsDeref(text) ==> IsDeref(t'.used[|t.used|]);
    }
  }

  /** An atom is an error exactly when its name is empty or unknown, and
      otherwise it is found at an index holding it, with the table grown only
      when the text was new. */
  lemma AddAtomOutcome(t: AtomSet, text: string)
    requires WellFormed(t)
    ensures !AddAtom(t, text).1.Found? <==> !ValidAtomText(text)
    ensures AddAtom(t, text).1 == MalformedField(text) <==> |DerefName(text)| == 0
    ensures text in t.used ==> AddAtom(t, text).0 == t
    ensures text !in t.used && ValidAtomText(text) ==> AddAtom(t, text).1 == Found(|t.used|)
  {
    if text in t.used {
      var i :| 0 <= i < |t.used| && t.used[i] == text;
      assert ValidAtomText(t.used[i]);
    }
  }

  /** Parsing the same atom twice gives the same index and no second entry. */
  lemma AddAtomIdempotent(t: AtomSet, text: string)
    ensures AddAtom(AddAtom(t, text).0, text) == AddAtom(t, text)
  {
    var (t1, o1) := AddAtom(t, text);
    if o1.Found? {
      var k := IndexOf(t1.used, text, 0);
      assert k == Some(o1.index) by {
        if t1 != t {
          assert forall j :: 0 <= j < |t.used| ==> t1.used[j] == t.used[j];
        }
      }
    }
  }

  /** The process-wide table of used atoms (used_atom, used_atom_type,
      need_tagged, need_symref and need_color_reset_at_eol). */
  class AtomTable {
    var used: seq<string>
    var types: seq<CmpType>
    var needTagged: bool
    var needSymref: bool
    var needColorResetAtEol: bool

    ghost function Snapshot(): AtomSet
      reads this
    {
      AtomSet(used, types, needTagged, needSymref)
    }

    ghost predicate Valid()
      reads this
    {
      WellFormed(Snapshot())
    }

    constructor ()
      ensures Valid() && used == [] && !needColorResetAtEol
    {
      used := [];
      types := [];
      needTagged := false;
      needSymref := false;
      needColorResetAtEol := false;
    }

    /** parse_ref_filter_atom: find or append the atom `text`. */
    method ParseAtom(text: string) returns (r: AtomOutcome)
      modifies this`used, this`types, this`needTagged, this`needSymref
      ensures Snapshot() == AddAtom(old(Snapshot()), text).0 && r == AddAtom(old(Snapshot()), text).1
    {
      var sp := DerefName(text);
      if |sp| == 0 {
        return MalformedField(text);
      }
      var i := FindUsed(text);
      if i.Some? {
        return Found(i.value);
      }
      var k := FindValidAtom(BaseName(sp));
      if k.None? {
        return UnknownField(text);
      }
      r := Found(|used|);
      used := used + [text];
      types := types + [ValidAtomAt(k.value).cmpType];
      if text[0] == '*' {
        needTagged := true;
      }
      if text == "symref" {
        needSymref := true;
      }
    }

    /** The de-duplication loop of parse_ref_filter_atom. */
    method FindUsed(text: string) returns (r: Option<nat>)
      ensures r == IndexOf(used, text, 0)
    {
      var i := 0;
      while i < |used|
        invariant 0 <= i <= |used|
        invariant IndexOf(used, text, i) == IndexOf(used, text, 0)
      {
        if used[i] == text {
          return Some(i);
        }
        i := i + 1;
      }
      return None;
    }

    /** verify_ref_format: register every atom of `format` and note whether
        the line must end with a colour reset. */
    method VerifyRefFormat(format: string) returns (r: VerifyResult)
      modifies this`used, this`types, this`needTagged, this`needSymref, this`needColorResetAtEol
      ensures VerifyRun(Snapshot(), needColorResetAtEol, r) == VerifyFormat(old(Snapshot()), format)
    {
      needColorResetAtEol := false;
      var cp := 0;
      while At(format, cp) != '\0'
        invariant cp <= |format|
        invariant VerifyFormat(old(Snapshot()), format) == Progress(format, cp, Snapshot(), needColorResetAtEol)
        decreases |format| - cp
      {
        var stop, res, next := VerifyNextAtom(format, cp, Snapshot(), needColorResetAtEol);
        if stop {
          return res;
        }
        cp := next;
      }
      VerifyStop(format, cp, Snapshot(), needColorResetAtEol);
      return FormatOk;
    }

    /** One turn of verify_ref_format's loop from `cp`: find the next atom,
        register it and update the colour reset flag. `stop` is set when the
        loop ends, with the result it ends with. */
    method VerifyNextAtom(format: string, cp: nat, ghost t: AtomSet, ghost reset: bool)
      returns (stop: bool, r: VerifyResult, next: nat)
      requires cp <= |format| && At(format, cp) != '\0'
      requires Snapshot() == t && needColorResetAtEol == reset
      modifies this`used, this`types, this`needTagged, this`needSymref, this`needColorResetAtEol
      ensures stop ==> VerifyRun(Snapshot(), needColorResetAtEol, r) == Progress(format, cp, t, reset)
      ensures !stop ==> cp < next <= |format|
      ensures !stop ==> Progress(format, next, Snapshot(), needColorResetAtEol) == Progress(format, cp, t, reset)
    {
      next := cp;
      var sp := FindNext(format, cp);
      if sp.None? {
        VerifyStop(format, cp, t, reset);
        return true, FormatOk, cp;
      }
      var ep := StrChr(format, ')', sp.value);
      if ep.None? {
        VerifyUnclosed(format, cp, sp.value, t, reset);
        return true, UnclosedAtom(sp.value), cp;
      }
      stop, r := RegisterClosedAtom(format, cp, sp.value, ep.value, t, reset);
      if !stop {
        next := ep.value + 1;
      }
    }

    /** The body of verify_ref_format's loop once the atom between `sp` and
        its ')' at `ep` is found: register it and update the reset flag. */
    method RegisterClosedAtom(format: string, cp: nat, sp: nat, ep: nat, ghost t: AtomSet, ghost reset: bool)
      returns (stop: bool, r: VerifyResult)
      requires cp <= |format| && At(format, cp) != '\0'
      requires NextAtom(format, cp) == Some(sp) && StrChr(format, ')', sp) == Some(ep)
      requires Snapshot() == t && needColorResetAtEol == reset
      modifies this`used, this`types, this`needTagged, this`needSymref, this`needColorResetAtEol
      ensures stop ==> VerifyRun(Snapshot(), needColorResetAtEol, r) == Progress(format, cp, t, reset)
      ensures !stop ==> Progress(format, ep + 1, Snapshot(), needColorResetAtEol) == Progress(format, cp, t, reset)
    {
      FormatAtomsStep(format, cp, sp, ep);
      ghost var text := format[sp + 2..ep];
      var at := ParseAtom(format[sp + 2..ep]);
      if !at.Found? {
        VerifyFails(format, cp, sp, ep, text, t, reset);
        return true, AtomError(at);
      }
      ghost var after := Snapshot();
      var atom := used[at.index];
      if IsPrefix("color:", atom) {
        needColorResetAtEol := atom[6..] != "reset";
      }
      VerifyStep(format, cp, sp, ep, text, t, reset, after, needColorResetAtEol);
      return false, FormatOk;
    }
  }

  /** The first "%(" at or after `p` that the scanner stops at: a "%%" pair is
      a quoted per-cent and cannot open an atom. */
  function NextAtom(s: string, p: nat): (r: Option<nat>)
    requires p <= |s|
    ensures r.Some? ==> p <= r.value && r.value + 1 < |s| && s[r.value] == '%' && s[r.value + 1] == '('
    decreases |s| - p
  {
    if At(s, p) == '\0' then None
    else if s[p] == '%' && At(s, p + 1) == '(' then Some(p)
    else if s[p] == '%' && At(s, p + 1) == '%' then NextAtom(s, p + 2)
    else NextAtom(s, p + 1)
  }

  /** find_next. */
  method FindNext(s: string, cp: nat) returns (r: Option<nat>)
    requires cp <= |s|
    ensures r == NextAtom(s, cp)
  {
    var p := cp;
    while At(s, p) != '\0'
      invariant cp <= p <= |s|
      invariant NextAtom(s, p) == NextAtom(s, cp)
      decreases |s| - p
    {
      if s[p] == '%' {
        if At(s, p + 1) == '(' {
          return Some(p);
        } else if At(s, p + 1) == '%' {
          p := p + 1;
        }
      }
      p := p + 1;
    }
    return None;
  }

  /** The number of '%' characters immediately before position `k`, counting
      back no further than `p`. */
  function PercentRun(s: string, p: nat, k: nat): nat
    requires p <= k <= |s|
    decreases k - p
  {
    if k == p || s[k - 1] != '%' then 0 else 1 + PercentRun(s, p, k - 1)
  }

  /** Position `j` opens an atom when scanning from `p`: "%(" whose '%' is not
      the second half of a quoted pair. */
  predicate OpensAtom(s: string, p: nat, j: nat)
    requires p <= j < |s|
  {
    s[j] == '%' && At(s, j + 1) == '(' && PercentRun(s, p, j) % 2 == 0
  }

  predicate NulFree(s: string, p: nat, k: nat)
    requires p <= k <= |s|
  {
    forall i :: p <= i < k ==> s[i] != '\0'
  }

  lemma {:induction false} PercentRunCut(s: string, p: nat, q: nat, m: nat, k: nat)
    requires p <= q <= m + 1 && m < k <= |s| && s[m] != '%'
    ensures PercentRun(s, p, k) == PercentRun(s, q, k)
    decreases k
  {
    if k - 1 != m && s[k - 1] == '%' {
      PercentRunCut(s, p, q, m, k - 1);
    }
  }

  lemma {:induction false} PercentRunPair(s: string, p: nat, k: nat)
    requires p + 2 <= k <= |s| && s[p] == '%' && s[p + 1] == '%'
    ensures PercentRun(s, p, k) % 2 == PercentRun(s, p + 2, k) % 2
    decreases k
  {
    if k == p + 2 {
      assert PercentRun(s, p, p + 1) == 1;
    } else if s[k - 1] == '%' {
      PercentRunPair(s, p, k - 1);
    }
  }

  /** The scanner finds the first atom opener before the end of the C string,
      and finds none exactly when there is none. */
  lemma {:induction false} NextAtomIsFirstOpener(s: string, p: nat)
    requires p <= |s|
    ensures NextAtom(s, p).Some? ==>
      var k := NextAtom(s, p).value;
      NulFree(s, p, k) && OpensAtom(s, p, k) && forall j :: p <= j < k ==> !OpensAtom(s, p, j)
    ensures NextAtom(s, p).None? ==>
      forall j :: p <= j < |s| && NulFree(s, p, j) ==> !OpensAtom(s, p, j)
    decreases |s| - p
  {
    if At(s, p) == '\0' {
    } else if s[p] == '%' && At(s, p + 1) == '(' {
    } else {
      var q := if s[p] == '%' && At(s, p + 1) == '%' then p + 2 else p + 1;
      NextAtomIsFirstOpener(s, q);
      assert NextAtom(s, p) == NextAtom(s, q);
      assert NulFree(s, p, q);
      forall j | q <= j < |s|
        ensures OpensAtom(s, p, j) == OpensAtom(s, q, j)
      {
        if q == p + 2 {
          PercentRunPair(s, p, j);
        } else if s[p] != '%' {
          PercentRunCut(s, p, p + 1, p, j);
        } else if j >= p + 2 {
          PercentRunCut(s, p, p + 1, p + 1, j);
        }
      }
      forall j | p <= j < q
        ensures !OpensAtom(s, p, j)
      {
        if j == p + 1 {
          assert PercentRun(s, p, p + 1) == 1;
        }
      }
      forall j | q <= j <= |s|
        ensures NulFree(s, p, j) <==> NulFree(s, q, j)
      {
      }
    }
  }

  /** How verification of a format ends. */
  datatype VerifyResult = FormatOk | UnclosedAtom(at: nat) | AtomError(outcome: AtomOutcome)

  datatype VerifyRun = VerifyRun(table: AtomSet, resetAtEol: bool, result: VerifyResult)

  /** The atom texts of a format in order, up to the first "%(" that has no
      closing ')', whose position `unclosed` then gives. */
  datatype Scan = Scan(atoms: seq<string>, unclosed: Option<nat>)

  function FormatAtoms(s: string, cp: nat): (r: Scan)
    requires cp <= |s|
    ensures r.unclosed.Some? ==>
              cp <= r.unclosed.value && r.unclosed.value + 1 < |s|
              && s[r.unclosed.value] == '%' && s[r.unclosed.value + 1] == '('
    ensures forall i :: 0 <= i < |r.atoms| ==> ')' !in r.atoms[i]
    decreases |s| - cp
  {
    if At(s, cp) == '\0' then Scan([], None)
    else match NextAtom(s, cp)
      case None => Scan([], None)
      case Some(sp) =>
        match StrChr(s, ')', sp)
        case None => Scan([], Some(sp))
        case Some(ep) =>
          var rest := FormatAtoms(s, ep + 1);
          Scan([s[sp + 2..ep]] + rest.atoms, rest.unclosed)
  }

  lemma FormatAtomsStep(s: string, cp: nat, sp: nat, ep: nat)
    requires cp <= |s| && At(s, cp) != '\0' && NextAtom(s, cp) == Some(sp) && StrChr(s, ')', sp) == Some(ep)
    ensures sp + 2 <= ep
    ensures FormatAtoms(s, cp) == Scan([s[sp + 2..ep]] + FormatAtoms(s, ep + 1).atoms, FormatAtoms(s, ep + 1).unclosed)
  {
  }

  /** The new colour reset flag after the atom `a`. */
  function ResetAfter(a: string, reset: bool): bool
  {
    if IsPrefix("color:", a) then a[6..] != "reset" else reset
  }

  /** Registering atoms in order, stopping at the first fatal one. */
  function RegisterAtoms(t: AtomSet, reset: bool, atoms: seq<string>): (r: VerifyRun)
    ensures r.result == FormatOk || r.result.AtomError?
    decreases |atoms|
  {
    if atoms == [] then VerifyRun(t, reset, FormatOk)
    else
      var added := AddAtom(t, atoms[0]);
      if !added.1.Found? then VerifyRun(added.0, reset, AtomError(added.1))
      else RegisterAtoms(added.0, ResetAfter(atoms[0], reset), atoms[1..])
  }

  lemma RegisterAtomsStep(t: AtomSet, reset: bool, a: string, rest: seq<string>)
    ensures RegisterAtoms(t, reset, [a] + rest)
         == if AddAtom(t, a).1.Found? then RegisterAtoms(AddAtom(t, a).0, ResetAfter(a, reset), rest)
            else VerifyRun(AddAtom(t, a).0, reset, AtomError(AddAtom(t, a).1))
  {
    assert ([a] + rest)[0] == a && ([a] + rest)[1..] == rest;
  }

  /** One turn of verify_ref_format's loop: a closed, valid atom is registered
      and the scan resumes after its ')'. */
  lemma VerifyStep(s: string, cp: nat, sp: nat, ep: nat, text: string,
                    t: AtomSet, reset: bool, t': AtomSet, reset': bool)
    requires cp <= |s| && At(s, cp) != '\0' && NextAtom(s, cp) == Some(sp) && StrChr(s, ')', sp) == Some(ep)
    requires sp + 2 <= ep && text == s[sp + 2..ep]
    requires AddAtom(t, text).1.Found? && t' == AddAtom(t, text).0 && reset' == ResetAfter(text, reset)
    ensures Progress(s, cp, t, reset) == Progress(s, ep + 1, t', reset')
  {
    FormatAtomsStep(s, cp, sp, ep);
    RegisterAtomsStep(t, reset, s[sp + 2..ep], FormatAtoms(s, ep + 1).atoms);
  }

  /** What verification from `cp` on yields, starting from table `t` and
      reset flag `reset`. */
  function Progress(s: string, cp: nat, t: AtomSet, reset: bool): VerifyRun
    requires cp <= |s|
  {
    Complete(RegisterAtoms(t, reset, FormatAtoms(s, cp).atoms), FormatAtoms(s, cp))
  }

  /** verify_ref_format's loop ends normally at the end of the string or when
      no further "%(" follows. */
  lemma VerifyStop(s: string, cp: nat, t: AtomSet, reset: bool)
    requires cp <= |s| && (At(s, cp) == '\0' || NextAtom(s, cp).None?)
    ensures Progress(s, cp, t, reset) == VerifyRun(t, reset, FormatOk)
  {
  }

  /** An atom without its ')' ends verification. */
  lemma VerifyUnclosed(s: string, cp: nat, sp: nat, t: AtomSet, reset: bool)
    requires cp <= |s| && At(s, cp) != '\0' && NextAtom(s, cp) == Some(sp) && StrChr(s, ')', sp).None?
    ensures Progress(s, cp, t, reset) == VerifyRun(t, reset, UnclosedAtom(sp))
  {
  }

  /** An atom the table refuses ends verification with its error. */
  lemma VerifyFails(s: string, cp: nat, sp: nat, ep: nat, text: string, t: AtomSet, reset: bool)
    requires cp <= |s| && At(s, cp) != '\0' && NextAtom(s, cp) == Some(sp) && StrChr(s, ')', sp) == Some(ep)
    requires sp + 2 <= ep && text == s[sp + 2..ep] && !AddAtom(t, text).1.Found?
    ensures Progress(s, cp, t, reset) == VerifyRun(AddAtom(t, text).0, reset, AtomError(AddAtom(t, text).1))
  {
    FormatAtomsStep(s, cp, sp, ep);
    RegisterAtomsStep(t, reset, text, FormatAtoms(s, ep + 1).atoms);
  }

  /** Verification from `cp`: the atoms found are registered in order; if
      all are valid the result reports a missing ')' if there is one. */
  function Complete(run: VerifyRun, scan: Scan): VerifyRun
  {
    if run.result == FormatOk && scan.unclosed.Some? then run.(result := UnclosedAtom(scan.unclosed.value))
    else run
  }

  /** verify_ref_format on the whole of `s`, starting from table `t`. */
  function VerifyFormat(t: AtomSet, s: string): (r: VerifyRun)
    ensures r.result.UnclosedAtom? ==>
              r.result.at + 1 < |s| && s[r.result.at] == '%' && s[r.result.at + 1] == '('
  {
    Progress(s, 0, t, false)
  }

  /** The colour reset flag after a list of atoms: the last "color:" atom
      decides, and without one the flag keeps `reset`. */
  function LastColorReset(atoms: seq<string>, reset: bool): bool
  {
    if atoms == [] then reset
    else
      var a := atoms[|atoms| - 1];
      if IsPrefix("color:", a) then a[6..] != "reset" else LastColorReset(atoms[..|atoms| - 1], reset)
  }

  lemma {:induction false} LastColorResetCons(a: string, atoms: seq<string>, reset: bool)
    ensures LastColorReset([a] + atoms, reset) == LastColorReset(atoms, ResetAfter(a, reset))
    decreases |atoms|
  {
    if atoms != [] {
      var all := [a] + atoms;
      assert all[..|all| - 1] == [a] + atoms[..|atoms| - 1];
      LastColorResetCons(a, atoms[..|atoms| - 1], reset);
    }
  }

  /** Registering keeps the table well formed and only ever appends to it. */
  lemma {:induction false} RegisterAtomsTable(t: AtomSet, reset: bool, atoms: seq<string>)
    requires WellFormed(t)
    ensures WellFormed(RegisterAtoms(t, reset, atoms).table)
    ensures Extends(t.used, RegisterAtoms(t, reset, atoms).table.used)
    decreases |atoms|
  {
    if atoms != [] {
      var added := AddAtom(t, atoms[0]);
      AddAtomWellFormed(t, atoms[0]);
      if added.1.Found? {
        RegisterAtomsTable(added.0, ResetAfter(atoms[0], reset), atoms[1..]);
        assert Extends(t.used, added.0.used);
      }
    }
  }

  /** Registering succeeds exactly when every atom is valid. */
  lemma {:induction false} RegisterAtomsOk(t: AtomSet, reset: bool, atoms: seq<string>)
    requires WellFormed(t)
    ensures RegisterAtoms(t, reset, atoms).result == FormatOk <==> forall a :: a in atoms ==> ValidAtomText(a)
    decreases |atoms|
  {
    if atoms != [] {
      var a := atoms[0];
      var added := AddAtom(t, a);
      AddAtomWellFormed(t, a);
      AddAtomOutcome(t, a);
      assert atoms == [a] + atoms[1..];
      if added.1.Found? {
        RegisterAtomsOk(added.0, ResetAfter(a, reset), atoms[1..]);
      }
    }
  }

  /** When registering succeeds, every atom is in the table and the last
      colour atom decides the reset flag. */
  lemma {:induction false} RegisterAtomsMeaning(t: AtomSet, reset: bool, atoms: seq<string>)
    requires WellFormed(t)
    ensures RegisterAtoms(t, reset, atoms).result == FormatOk ==>
      (forall a :: a in atoms ==> a in RegisterAtoms(t, reset, atoms).table.used)
      && RegisterAtoms(t, reset, atoms).resetAtEol == LastColorReset(atoms, reset)
    decreases |atoms|
  {
    if atoms != [] {
      var a := atoms[0];
      var added := AddAtom(t, a);
      AddAtomWellFormed(t, a);
      AddAtomOutcome(t, a);
      assert atoms == [a] + atoms[1..];
      if added.1.Found? {
        RegisterAtomsMeaning(added.0, ResetAfter(a, reset), atoms[1..]);
        RegisterAtomsTable(added.0, ResetAfter(a, reset), atoms[1..]);
        LastColorResetCons(a, atoms[1..], reset);
        var u := RegisterAtoms(t, reset, atoms).table.used;
        assert a == added.0.used[added.1.index] == u[added.1.index];
      }
    }
  }

  /** verify_ref_format succeeds exactly when every "%(" is closed and every
      atom is valid; then each atom of the format is in the table, the table
      stays well formed, and the last colour atom decides whether the line
      ends with a reset. */
  lemma VerifyFormatMeaning(t: AtomSet, s: string)
    requires WellFormed(t)
    ensures WellFormed(VerifyFormat(t, s).table) && Extends(t.used, VerifyFormat(t, s).table.used)
    ensures VerifyFormat(t, s).result == FormatOk <==>
      FormatAtoms(s, 0).unclosed.None? && forall a :: a in FormatAtoms(s, 0).atoms ==> ValidAtomText(a)
    ensures VerifyFormat(t, s).result == FormatOk ==>
      (forall a :: a in FormatAtoms(s, 0).atoms ==> a in VerifyFormat(t, s).table.used)
      && VerifyFormat(t, s).resetAtEol == LastColorReset(FormatAtoms(s, 0).atoms, false)
  {
    RegisterAtomsTable(t, false, FormatAtoms(s, 0).atoms);
    RegisterAtomsOk(t, false, FormatAtoms(s, 0).atoms);
    RegisterAtomsMeaning(t, false, FormatAtoms(s, 0).atoms);
  }

  /** hex1: the value of a hexadecimal digit, or -1. */
  function Hex1(c: char): (v: int)
    ensures -1 <= v < 16
    ensures v >= 0 <==> ('0' <= c <= '9' || 'a' <= c <= 'f' || 'A' <= c <= 'F')
  {
    if '0' <= c <= '9' then c as int - '0' as int
    else if 'a' <= c <= 'f' then c as int - 'a' as int + 10
    else if 'A' <= c <= 'F' then c as int - 'A' as int + 10
    else -1
  }

  /** `(a << 4) | b` on two's-complement ints whose values lie in [-1, 15]:
      any -1 makes the result negative. */
  function ShiftOr(a: int, b: int): (v: int)
    requires -1 <= a < 16 && -1 <= b < 16
    ensures v >= 0 <==> a >= 0 && b >= 0
    ensures v >= 0 ==> v == a * 16 + b && v < 256
  {
    if b < 0 then -1 else if a < 0 then -16 + b else a * 16 + b
  }

  /** hex2 on the two characters at `i`: a byte value, or a negative value. */
  function Hex2(s: string, i: nat): (v: int)
    ensures v < 256
    ensures v >= 0 <==> Hex1(At(s, i)) >= 0 && Hex1(At(s, i + 1)) >= 0
  {
    if At(s, i) != '\0' && At(s, i + 1) != '\0' then ShiftOr(Hex1(At(s, i)), Hex1(At(s, i + 1)))
    else -1
  }

  /** What emit writes for the characters from `cp`, stopping at the NUL or
      at `ep` when there is one. */
  function EmitFrom(s: string, cp: nat, ep: Option<nat>): (out: string)
    requires cp <= |s|
    decreases |s| - cp
  {
    if At(s, cp) == '\0' || (ep.Some? && cp >= ep.value) then []
    else if s[cp] == '%' && At(s, cp + 1) == '%' then ['%'] + EmitFrom(s, cp + 2, ep)
    else if s[cp] == '%' && Hex2(s, cp + 1) >= 0 then [Hex2(s, cp + 1) as char] + EmitFrom(s, cp + 3, ep)
    else [s[cp]] + EmitFrom(s, cp + 1, ep)
  }

  /** Decoding never lengthens: emit writes at most one character per
      character it reads, and nothing from an empty or NUL-led stretch. */
  lemma {:induction false} EmitFromShorter(s: string, cp: nat, ep: Option<nat>)
    requires cp <= |s|
    ensures |EmitFrom(s, cp, ep)| <= |s| - cp
    ensures At(s, cp) == '\0' ==> EmitFrom(s, cp, ep) == []
    decreases |s| - cp
  {
    if At(s, cp) == '\0' || (ep.Some? && cp >= ep.value) {
    } else if s[cp] == '%' && At(s, cp + 1) == '%' {
      EmitFromShorter(s, cp + 2, ep);
    } else if s[cp] == '%' && Hex2(s, cp + 1) >= 0 {
      EmitFromShorter(s, cp + 3, ep);
    } else {
      EmitFromShorter(s, cp + 1, ep);
    }
  }

  /** emit: copy a literal stretch of a format, decoding "%%" and "%XX". */
  method Emit(s: string, cp: nat, ep: Option<nat>) returns (out: string)
    requires cp <= |s|
    ensures out == EmitFrom(s, cp, ep)
  {
    out := [];
    var p := cp;
    while At(s, p) != '\0' && (ep.None? || p < ep.value)
      invariant p <= |s|
      invariant out + EmitFrom(s, p, ep) == EmitFrom(s, cp, ep)
      decreases |s| - p
    {
      ghost var start := p;
      if s[p] == '%' {
        if At(s, p + 1) == '%' {
          p := p + 1;
        } else {
          var ch := Hex2(s, p + 1);
          if 0 <= ch {
            assert EmitFrom(s, p, ep) == [ch as char] + EmitFrom(s, p + 3, ep);
            AppendOne(out, ch as char, EmitFrom(s, p + 3, ep));
            out := out + [ch as char];
            p := p + 3;
            continue;
          }
        }
      }
      assert EmitFrom(s, start, ep) == [s[p]] + EmitFrom(s, p + 1, ep);
      AppendOne(out, s[p], EmitFrom(s, p + 1, ep));
      out := out + [s[p]];
      p := p + 1;
    }
  }

  lemma AppendOne(out: string, c: char, rest: string)
    ensures (out + [c]) + rest == out + ([c] + rest)
  {
  }

  const HexDigits: string := "0123456789abcdef"

  /** One byte written as "%XX". */
  function EncodeByte(b: nat): (s: string)
    requires b < 256
    ensures |s| == 3 && s[0] == '%'
  {
    ['%', HexDigits[b / 16], HexDigits[b % 16]]
  }

  /** A character that stands for one byte. */
  type ByteChar = c: char | c as int < 256

  /** Every byte written as "%XX". */
  function PercentEncode(bytes: seq<ByteChar>): (s: string)
    ensures |s| == 3 * |bytes|
  {
    if bytes == [] then [] else EncodeByte(bytes[0] as int) + PercentEncode(bytes[1..])
  }

  lemma HexDigitValue(d: nat)
    requires d < 16
    ensures Hex1(HexDigits[d]) == d
  {
  }

  /** emit decodes what PercentEncode writes, NUL bytes included, whatever
      follows. */
  lemma {:induction false} EmitPercentEncode(bytes: seq<ByteChar>, rest: string)
    ensures EmitFrom(PercentEncode(bytes) + rest, 0, None) == bytes + EmitFrom(rest, 0, None)
    decreases |bytes|
  {
    if bytes == [] {
      assert PercentEncode(bytes) + rest == rest;
    } else {
      EmitPercentEncodeHead(bytes, rest);
      EmitPercentEncode(bytes[1..], rest);
      ConsAppend(bytes, EmitFrom(rest, 0, None));
    }
  }

  /** Emitting the encoding of a non-empty string gives its first byte, then
      what the encoding of the others emits. */
  lemma EmitPercentEncodeHead(bytes: seq<ByteChar>, rest: string)
    requires bytes != []
    ensures EmitFrom(PercentEncode(bytes) + rest, 0, None)
            == [bytes[0] as char] + EmitFrom(PercentEncode(bytes[1..]) + rest, 0, None)
  {
    var tail := PercentEncode(bytes[1..]) + rest;
    assert PercentEncode(bytes) + rest == EncodeByte(bytes[0] as int) + tail;
    EmitEncodedByte(bytes[0] as int, tail);
  }

  lemma ConsAppend(xs: seq<ByteChar>, ys: string)
    requires xs != []
    ensures [xs[0] as char] + (xs[1..] + ys) == xs + ys
  {
    assert [xs[0]] + xs[1..] == xs;
  }

  lemma EmitHexEscape(s: string, b: int)
    requires |s| >= 3 && s[0] == '%' && s[1] != '%' && Hex2(s, 1) == b && b >= 0
    ensures EmitFrom(s, 0, None) == [b as char] + EmitFrom(s, 3, None)
  {
  }

  lemma EmitEncodedByte(b: nat, tail: string)
    requires b < 256
    ensures EmitFrom(EncodeByte(b) + tail, 0, None) == [b as char] + EmitFrom(tail, 0, None)
  {
    var s := EncodeByte(b) + tail;
    HexDigitValue(b / 16);
    HexDigitValue(b % 16);
    assert At(s, 1) == HexDigits[b / 16] && At(s, 2) == HexDigits[b % 16];
    assert Hex2(s, 1) == b;
    assert s[3..] == tail;
    EmitHexEscape(s, b);
    EmitShift(s, 3, tail);
  }

  /** Emitting a suffix of a string from its start is emitting the string from
      where the suffix begins. */
  lemma {:induction false} EmitShift(s: string, k: nat, tail: string)
    requires k <= |s| && s[k..] == tail
    ensures EmitFrom(s, k, None) == EmitFrom(tail, 0, None)
    decreases |s| - k
  {
    EmitShiftAt(s, k, tail, 0);
  }

  lemma {:induction false} EmitShiftAt(s: string, k: nat, tail: string, i: nat)
    requires k <= |s| && s[k..] == tail && i <= |tail|
    ensures EmitFrom(s, k + i, None) == EmitFrom(tail, i, None)
    decreases |tail| - i
  {
    EmitShiftHead(s, k, tail, i);
    if At(tail, i) == '\0' {
    } else if tail[i] == '%' && At(tail, i + 1) == '%' {
      EmitShiftAt(s, k, tail, i + 2);
    } else if tail[i] == '%' && Hex2(tail, i + 1) >= 0 {
      EmitShiftAt(s, k, tail, i + 3);
    } else {
      EmitShiftAt(s, k, tail, i + 1);
    }
  }

  /** The characters emit looks at from `k + i` in `s` are those from `i`
      in its tail `s[k..]`. */
  lemma EmitShiftHead(s: string, k: nat, tail: string, i: nat)
    requires k <= |s| && s[k..] == tail && i <= |tail|
    ensures At(s, k + i) == At(tail, i) && At(s, k + i + 1) == At(tail, i + 1)
    ensures Hex2(s, k + i + 1) == Hex2(tail, i + 1)
  {
    assert At(s, k + i + 2) == At(tail, i + 2);
  }

  /** A stretch without '%' is copied verbatim up to its end or `ep`. */
  lemma {:induction false} EmitPlain(s: string, cp: nat, ep: nat)
    requires cp <= ep <= |s| && forall i :: cp <= i < ep ==> s[i] != '%' && s[i] != '\0'
    ensures EmitFrom(s, cp, Some(ep)) == s[cp..ep]
    decreases ep - cp
  {
    if cp < ep {
      EmitPlain(s, cp + 1, ep);
    }
  }
}

=== FILE: ref_filter_sort.dfy ===
// The sorting and merge-filter side of ref-filter.c: the per-key comparison,
// the multi-key comparator handed to qsort, the --sort option parser, the
// default key, and the in-place compaction that keeps merged (or unmerged)
// refs.
module RefFilterSort {
  import opened Common
  import opened RefFilterFormat

  /** The value of one atom for one ref: its string form and, for numeric
      and date atoms, its number (atom_value). */
  datatype AtomValue = AtomValue(s: string, ul: nat)

  /** A ref_array_item as sorting and merge filtering see it: its name, the
      values of the used atoms indexed like the atom table, and whether the
      revision walk marked its commit UNINTERESTING (merged into the
      --merged commit). */
  datatype RefItem = RefItem(refname: string, values: seq<AtomValue>, merged: bool)

  /** One --sort key (struct ref_sorting without its link): the index of its
      atom in the used-atom table, and whether a leading '-' reversed it. */
  datatype SortKey = SortKey(atom: nat, reverse: bool)

  // ---------------------------------------------------------------------
  // strcmp

  /** strcmp from index `i` on, reduced to its sign: the first differing
      character decides, and the terminating NUL ends an equal run. */
  function StrCmpFrom(a: string, b: string, i: nat): (r: int)
    ensures -1 <= r <= 1
    decreases |a| - i
  {
    if At(a, i) != At(b, i) then (if At(a, i) < At(b, i) then -1 else 1)
    else if At(a, i) == '\0' then 0
    else StrCmpFrom(a, b, i + 1)
  }

  function StrCmp(a: string, b: string): (r: int)
    ensures -1 <= r <= 1
  {
    StrCmpFrom(a, b, 0)
  }

  /** Swapping the operands negates the result. */
  lemma {:induction false} StrCmpFromAntisymmetric(a: string, b: string, i: nat)
    ensures StrCmpFrom(a, b, i) == -StrCmpFrom(b, a, i)
    decreases |a| - i
  {
    if At(a, i) == At(b, i) && At(a, i) != '\0' {
      StrCmpFromAntisymmetric(a, b, i + 1);
    }
  }

  /** Two C strings compare equal exactly when they are the same string. */
  lemma {:induction false} StrCmpFromZero(a: string, b: string, i: nat)
    requires IsCString(a) && IsCString(b) && i <= |a| && i <= |b|
    ensures StrCmpFrom(a, b, i) == 0 <==> a[i..] == b[i..]
    decreases |a| - i
  {
    if At(a, i) == At(b, i) && At(a, i) != '\0' {
      StrCmpFromZero(a, b, i + 1);
      assert a[i..] == [a[i]] + a[i + 1..];
      assert b[i..] == [b[i]] + b[i + 1..];
    } else if At(a, i) != At(b, i) {
      assert a[i..] != b[i..] by {
        if i < |a| && i < |b| {
          assert a[i..][0] != b[i..][0];
        }
      }
    }
  }

  lemma StrCmpZero(a: string, b: string)
    requires IsCString(a) && IsCString(b)
    ensures StrCmp(a, b) == 0 <==> a == b
  {
    StrCmpFromZero(a, b, 0);
  }

  /** A string that compares equal to `b` compares to any third string as
      `b` does. */
  lemma {:induction false} StrCmpFromSubst(a: string, b: string, c: string, i: nat)
    requires StrCmpFrom(a, b, i) == 0
    ensures StrCmpFrom(a, c, i) == StrCmpFrom(b, c, i)
    decreases |a| - i
  {
    if At(a, i) != '\0' {
      StrCmpFromSubst(a, b, c, i + 1);
    }
  }

  /** "Less than" is transitive. */
  lemma {:induction false} StrCmpFromTransitive(a: string, b: string, c: string, i: nat)
    requires StrCmpFrom(a, b, i) < 0 && StrCmpFrom(b, c, i) < 0
    ensures StrCmpFrom(a, c, i) < 0
    decreases |a| - i
  {
    if At(a, i) == At(b, i) && At(b, i) == At(c, i) {
      StrCmpFromTransitive(a, b, c, i + 1);
    }
  }

  // ---------------------------------------------------------------------
  // cmp_ref_sorting and compare_refs

  /** The items carry a value for every atom the keys name, and the table
      has a comparison type for each of them. */
  predicate KeysFit(types: seq<CmpType>, keys: seq<SortKey>, a: RefItem)
  {
    forall k :: 0 <= k < |keys| ==> keys[k].atom < |types| && keys[k].atom < |a.values|
  }

  /** cmp_ref_sorting: string atoms compare with strcmp, numeric and date
      atoms by their number; a reversed key negates the comparison. */
  function CmpRefSorting(types: seq<CmpType>, key: SortKey, a: RefItem, b: RefItem): (r: int)
    requires key.atom < |types| && key.atom < |a.values| && key.atom < |b.values|
    ensures -1 <= r <= 1
  {
    var va := a.values[key.atom];
    var vb := b.values[key.atom];
    var cmp :=
      if types[key.atom] == FieldStr then StrCmp(va.s, vb.s)
      else if va.ul < vb.ul then -1
      else if va.ul == vb.ul then 0
      else 1;
    if key.reverse then -cmp else cmp
  }

  /** What one key decides, stated without the sign arithmetic: a forward
      key puts the smaller value first, a reversed key the larger one. */
  lemma CmpRefSortingMeaning(types: seq<CmpType>, key: SortKey, a: RefItem, b: RefItem)
    requires key.atom < |types| && key.atom < |a.values| && key.atom < |b.values|
    requires types[key.atom] != FieldStr
    ensures CmpRefSorting(types, key, a, b) < 0 <==>
              (if key.reverse then a.values[key.atom].ul > b.values[key.atom].ul
               else a.values[key.atom].ul < b.values[key.atom].ul)
    ensures CmpRefSorting(types, key, a, b) == 0 <==> a.values[key.atom].ul == b.values[key.atom].ul
  {
  }

  /** A string key compares equal exactly when the two values are the same
      string, whichever its direction. */
  lemma CmpRefSortingStrEqual(types: seq<CmpType>, key: SortKey, a: RefItem, b: RefItem)
    requires key.atom < |types| && key.atom < |a.values| && key.atom < |b.values|
    requires types[key.atom] == FieldStr
    requires IsCString(a.values[key.atom].s) && IsCString(b.values[key.atom].s)
    ensures CmpRefSorting(types, key, a, b) == 0 <==> a.values[key.atom].s == b.values[key.atom].s
  {
    StrCmpZero(a.values[key.atom].s, b.values[key.atom].s);
  }

  /** Reversing a key negates its comparison. */
  lemma CmpRefSortingReverse(types: seq<CmpType>, key: SortKey, a: RefItem, b: RefItem)
    requires key.atom < |types| && key.atom < |a.values| && key.atom < |b.values|
    ensures CmpRefSorting(types, key.(reverse := !key.reverse), a, b) == -CmpRefSorting(types, key, a, b)
  {
  }

  lemma CmpRefSortingAntisymmetric(types: seq<CmpType>, key: SortKey, a: RefItem, b: RefItem)
    requires key.atom < |types| && key.atom < |a.values| && key.atom < |b.values|
    ensures CmpRefSorting(types, key, a, b) == -CmpRefSorting(types, key, b, a)
  {
    StrCmpFromAntisymmetric(a.values[key.atom].s, b.values[key.atom].s, 0);
  }

  lemma CmpRefSortingSubst(types: seq<CmpType>, key: SortKey, a: RefItem, b: RefItem, c: RefItem)
    requires key.atom < |types| && key.atom < |a.values| && key.atom < |b.values| && key.atom < |c.values|
    requires CmpRefSorting(types, key, a, b) == 0
    ensures CmpRefSorting(types, key, a, c) == CmpRefSorting(types, key, b, c)
  {
    var sa, sb, sc := a.values[key.atom].s, b.values[key.atom].s, c.values[key.atom].s;
    if types[key.atom] == FieldStr {
      StrCmpFromSubst(sa, sb, sc, 0);
    }
  }

  lemma CmpRefSortingTransitive(types: seq<CmpType>, key: SortKey, a: RefItem, b: RefItem, c: RefItem)
    requires key.atom < |types| && key.atom < |a.values| && key.atom < |b.values| && key.atom < |c.values|
    requires CmpRefSorting(types, key, a, b) < 0 && CmpRefSorting(types, key, b, c) < 0
    ensures CmpRefSorting(types, key, a, c) < 0
  {
    var sa, sb, sc := a.values[key.atom].s, b.values[key.atom].s, c.values[key.atom].s;
    if types[key.atom] == FieldStr {
      if key.reverse {
        StrCmpFromAntisymmetric(sa, sb, 0);
        StrCmpFromAntisymmetric(sb, sc, 0);
        StrCmpFromAntisymmetric(sa, sc, 0);
        StrCmpFromTransitive(sc, sb, sa, 0);
      } else {
        StrCmpFromTransitive(sa, sb, sc, 0);
      }
    }
  }

  /** compare_refs: the first key that tells the two items apart decides;
      items no key tells apart compare equal. */
  function CompareKeys(types: seq<CmpType>, keys: seq<SortKey>, a: RefItem, b: RefItem): (r: int)
    requires KeysFit(types, keys, a) && KeysFit(types, keys, b)
    ensures -1 <= r <= 1
  {
    if keys == [] then 0
    else
      var cmp := CmpRefSorting(types, keys[0], a, b);
      if cmp != 0 then cmp else CompareKeys(types, keys[1..], a, b)
  }

  /** The comparator's loop over the key list. */
  method CompareRefs(types: seq<CmpType>, keys: seq<SortKey>, a: RefItem, b: RefItem) returns (r: int)
    requires KeysFit(types, keys, a) && KeysFit(types, keys, b)
    ensures r == CompareKeys(types, keys, a, b)
  {
    var k := 0;
    while k < |keys|
      invariant k <= |keys|
      invariant CompareKeys(types, keys[k..], a, b) == CompareKeys(types, keys, a, b)
    {
      assert keys[k..][0] == keys[k] && keys[k..][1..] == keys[k + 1..];
      var cmp := CmpRefSorting(types, keys[k], a, b);
      if cmp != 0 {
        return cmp;
      }
      k := k + 1;
    }
    return 0;
  }

  /** The comparator's result is the first non-zero key comparison, and zero
      exactly when every key compares equal. */
  lemma {:induction false} CompareKeysFirstDifference(types: seq<CmpType>, keys: seq<SortKey>, a: RefItem, b: RefItem)
    requires KeysFit(types, keys, a) && KeysFit(types, keys, b)
    ensures CompareKeys(types, keys, a, b) == 0 <==>
              forall k :: 0 <= k < |keys| ==> CmpRefSorting(types, keys[k], a, b) == 0
    ensures CompareKeys(types, keys, a, b) != 0 ==>
              exists k :: 0 <= k < |keys| && CompareKeys(types, keys, a, b) == CmpRefSorting(types, keys[k], a, b)
                && forall j :: 0 <= j < k ==> CmpRefSorting(types, keys[j], a, b) == 0
  {
    if keys != [] {
      var rest := keys[1..];
      CompareKeysFirstDifference(types, rest, a, b);
      assert forall k :: 1 <= k < |keys| ==> keys[k] == rest[k - 1];
      if CmpRefSorting(types, keys[0], a, b) == 0 && CompareKeys(types, rest, a, b) != 0 {
        var k :| 0 <= k < |rest| && CompareKeys(types, rest, a, b) == CmpRefSorting(types, rest[k], a, b)
                 && forall j :: 0 <= j < k ==> CmpRefSorting(types, rest[j], a, b) == 0;
        assert CompareKeys(types, keys, a, b) == CmpRefSorting(types, keys[k + 1], a, b);
      }
    }
  }

  /** Swapping the items negates the comparator. */
  lemma {:induction false} CompareKeysAntisymmetric(types: seq<CmpType>, keys: seq<SortKey>, a: RefItem, b: RefItem)
    requires KeysFit(types, keys, a) && KeysFit(types, keys, b)
    ensures CompareKeys(types, keys, a, b) == -CompareKeys(types, keys, b, a)
  {
    if keys != [] {
      CmpRefSortingAntisymmetric(types, keys[0], a, b);
      CompareKeysAntisymmetric(types, keys[1..], a, b);
    }
  }

  /** Items that compare equal are interchangeable in any comparison. */
  lemma {:induction false} CompareKeysSubst(types: seq<CmpType>, keys: seq<SortKey>, a: RefItem, b: RefItem, c: RefItem)
    requires KeysFit(types, keys, a) && KeysFit(types, keys, b) && KeysFit(types, keys, c)
    requires CompareKeys(types, keys, a, b) == 0
    ensures CompareKeys(types, keys, a, c) == CompareKeys(types, keys, b, c)
  {
    if keys != [] {
      CmpRefSortingSubst(types, keys[0], a, b, c);
      CompareKeysSubst(types, keys[1..], a, b, c);
    }
  }

  /** The comparator orders strictly and transitively, so together with
      antisymmetry and substitution it is the total preorder qsort needs. */
  lemma {:induction false} CompareKeysTransitive(types: seq<CmpType>, keys: seq<SortKey>, a: RefItem, b: RefItem, c: RefItem)
    requires KeysFit(types, keys, a) && KeysFit(types, keys, b) && KeysFit(types, keys, c)
    requires CompareKeys(types, keys, a, b) < 0 && CompareKeys(types, keys, b, c) < 0
    ensures CompareKeys(types, keys, a, c) < 0
  {
    var k0 := keys[0];
    var ab := CmpRefSorting(types, k0, a, b);
    var bc := CmpRefSorting(types, k0, b, c);
    if ab == 0 && bc == 0 {
      CmpRefSortingSubst(types, k0, a, b, c);
      CompareKeysTransitive(types, keys[1..], a, b, c);
    } else if ab == 0 {
      CmpRefSortingSubst(types, k0, a, b, c);
    } else if bc == 0 {
      CmpRefSortingAntisymmetric(types, k0, b, c);
      CmpRefSortingSubst(types, k0, c, b, a);
      CmpRefSortingAntisymmetric(types, k0, a, b);
      CmpRefSortingAntisymmetric(types, k0, a, c);
    } else {
      CmpRefSortingTransitive(types, k0, a, b, c);
    }
  }

  // ---------------------------------------------------------------------
  // parse_opt_ref_sorting and ref_default_sorting

  /** The outcome of parse_opt_ref_sorting: -1 for an option without an
      argument, 0 after adding a key, or the atom error it dies with. */
  datatype SortParse = NoArgument | KeyAdded | BadAtom(outcome: AtomOutcome)

  /** A --sort argument split into its direction and its atom text: a
      leading '-' reverses the key and is not part of the atom. */
  function SortSpec(arg: string): (r: (bool, string))
    ensures r.0 <==> At(arg, 0) == '-'
    ensures (if r.0 then "-" + r.1 else r.1) == arg
  {
    if At(arg, 0) == '-' then (true, arg[1..]) else (false, arg)
  }

  /** One --sort option applied to the atom table and the key list. */
  function SortStep(t: AtomSet, keys: seq<SortKey>, arg: Option<string>): (r: (SortParse, seq<SortKey>, AtomSet))
    ensures r.0 == KeyAdded ==> arg.Some? && |r.1| == |keys| + 1 && r.1[1..] == keys
    ensures r.0 == KeyAdded ==>
              r.1[0].atom < |r.2.used| && r.2.used[r.1[0].atom] == SortSpec(arg.value).1
              && r.1[0].reverse == SortSpec(arg.value).0
    ensures r.0 != KeyAdded ==> r.1 == keys
    ensures r.0 == NoArgument <==> arg.None?
    ensures Extends(t.used, r.2.used)
  {
    match arg
    case None => (NoArgument, keys, t)
    case Some(a) =>
      var (reverse, text) := SortSpec(a);
      var (t1, outcome) := AddAtom(t, text);
      if outcome.Found? then (KeyAdded, [SortKey(outcome.index, reverse)] + keys, t1)
      else (BadAtom(outcome), keys, t1)
  }

  /** Several --sort options in command-line order; None when one of them
      names a bad atom. */
  function ApplySortArgs(t: AtomSet, keys: seq<SortKey>, args: seq<string>): (r: Option<(AtomSet, seq<SortKey>)>)
    ensures r.Some? ==> |r.value.1| == |keys| + |args|
    decreases |args|
  {
    if args == [] then Some((t, keys))
    else
      var (outcome, keys1, t1) := SortStep(t, keys, Some(args[0]));
      if outcome == KeyAdded then ApplySortArgs(t1, keys1, args[1..]) else None
  }

  /** The key given last is compared first: the i-th key of the list is the
      i-th option counting back from the last one, and the keys that were
      already there follow. */
  lemma {:induction false} SortArgsReversed(t: AtomSet, keys: seq<SortKey>, args: seq<string>,
                                            t2: AtomSet, ks: seq<SortKey>)
    requires ApplySortArgs(t, keys, args) == Some((t2, ks))
    ensures |ks| == |keys| + |args| && ks[|args|..] == keys && Extends(t.used, t2.used)
    ensures forall i :: 0 <= i < |args| ==>
              ks[i].atom < |t2.used| && t2.used[ks[i].atom] == SortSpec(args[|args| - 1 - i]).1
              && ks[i].reverse == SortSpec(args[|args| - 1 - i]).0
    decreases |args|
  {
    if args != [] {
      var step := SortStep(t, keys, Some(args[0]));
      var rest := args[1..];
      assert step.0 == KeyAdded && ApplySortArgs(step.2, step.1, rest) == Some((t2, ks));
      SortArgsReversed(step.2, step.1, rest, t2, ks);
      SortArgsHead(step.2, t2, step.1, ks, |rest|);
      SortArgsShift(args, ks, step.1, keys, t2);
    }
  }

  /** The keys for the later options, followed by the key of the first
      option, are the keys for all options in reverse. */
  lemma SortArgsShift(args: seq<string>, ks: seq<SortKey>, keys1: seq<SortKey>, keys: seq<SortKey>, t2: AtomSet)
    requires |args| > 0 && |keys1| == |keys| + 1 && keys1[1..] == keys
    requires |ks| == |keys1| + |args| - 1 && ks[|args| - 1..] == keys1
    requires forall i :: 0 <= i < |args| - 1 ==>
               ks[i].atom < |t2.used| && t2.used[ks[i].atom] == SortSpec(args[1..][|args| - 2 - i]).1
               && ks[i].reverse == SortSpec(args[1..][|args| - 2 - i]).0
    requires ks[|args| - 1].atom < |t2.used| && t2.used[ks[|args| - 1].atom] == SortSpec(args[0]).1
             && ks[|args| - 1].reverse == SortSpec(args[0]).0
    ensures |ks| == |keys| + |args| && ks[|args|..] == keys
    ensures forall i :: 0 <= i < |args| ==>
              ks[i].atom < |t2.used| && t2.used[ks[i].atom] == SortSpec(args[|args| - 1 - i]).1
              && ks[i].reverse == SortSpec(args[|args| - 1 - i]).0
  {
    assert ks[|args|..] == ks[|args| - 1..][1..];
    forall j | 1 <= j < |args|
      ensures args[1..][j - 1] == args[j]
    {
    }
  }

  /** The key at position `n` of the older list keeps its meaning in the
      grown table. */
  lemma SortArgsHead(t1: AtomSet, t2: AtomSet, keys1: seq<SortKey>, ks: seq<SortKey>, n: nat)
    requires |keys1| > 0 && keys1[0].atom < |t1.used|
    requires |ks| == |keys1| + n && ks[n..] == keys1 && Extends(t1.used, t2.used)
    ensures ks[n] == keys1[0] && ks[n].atom < |t2.used| && t2.used[ks[n].atom] == t1.used[keys1[0].atom]
  {
    assert ks[n..][0] == ks[n];
  }

  /** The head of the --sort key list (the variable opt->value points at). */
  class SortingList {
    var keys: seq<SortKey>

    constructor ()
      ensures keys == []
    {
      keys := [];
    }

    /** parse_opt_ref_sorting: push a key for `arg` on the head of the list. */
    method ParseOptRefSorting(table: AtomTable, arg: Option<string>) returns (r: SortParse)
      requires arg.Some? ==> IsCString(arg.value)
      modifies this, table`used, table`types, table`needTagged, table`needSymref
      ensures (r, keys, table.Snapshot()) == SortStep(old(table.Snapshot()), old(keys), arg)
    {
      if arg.None? {
        return NoArgument;
      }
      var text := arg.value;
      var reverse := false;
      if At(text, 0) == '-' {
        reverse := true;
        text := text[1..];
      }
      var outcome := table.ParseAtom(text);
      if !outcome.Found? {
        return BadAtom(outcome);
      }
      keys := [SortKey(outcome.index, reverse)] + keys;
      return KeyAdded;
    }
  }

  /** "refname" is the first entry of the valid-atom table. */
  lemma RefnameIsValid()
    ensures LookupAtom("refname") == Some(0) && ValidAtomText("refname")
  {
    ColonIndexAt("refname", 7);
    assert BaseName("refname") == "refname";
  }

  /** ref_default_sorting: a one-key list sorting by refname, ascending. */
  method RefDefaultSorting(table: AtomTable) returns (keys: seq<SortKey>)
    modifies table`used, table`types, table`needTagged, table`needSymref
    ensures table.Snapshot() == AddAtom(old(table.Snapshot()), "refname").0
    ensures |keys| == 1 && !keys[0].reverse
    ensures keys[0].atom < |table.used| && table.used[keys[0].atom] == "refname"
  {
    RefnameIsValid();
    var outcome := table.ParseAtom("refname");
    keys := [SortKey(outcome.index, false)];
  }

  // ---------------------------------------------------------------------
  // do_merge_filter's compaction and ref_array_clear

  /** The items whose merged bit equals `wantMerged`, in their original order. */
  function Kept(s: seq<RefItem>, wantMerged: bool): (r: seq<RefItem>)
    ensures |r| <= |s|
  {
    if s == [] then []
    else Kept(s[..|s| - 1], wantMerged) + (if s[|s| - 1].merged == wantMerged then [s[|s| - 1]] else [])
  }

  /** Only items of the array with the wanted merged bit are kept. */
  lemma {:induction false} KeptSound(s: seq<RefItem>, wantMerged: bool)
    ensures forall x :: x in Kept(s, wantMerged) ==> x in s && x.merged == wantMerged
  {
    if s != [] {
      KeptSound(s[..|s| - 1], wantMerged);
    }
  }

  /** Keeping one more item of a prefix. */
  lemma KeptSnoc(s: seq<RefItem>, i: nat, wantMerged: bool)
    requires i < |s|
    ensures Kept(s[..i + 1], wantMerged) == Kept(s[..i], wantMerged) + (if s[i].merged == wantMerged then [s[i]] else [])
  {
    assert s[..i + 1][..i] == s[..i];
  }

  /** Every item with the wanted merged bit is kept. */
  lemma {:induction false} KeptComplete(s: seq<RefItem>, wantMerged: bool, x: RefItem)
    requires x in s && x.merged == wantMerged
    ensures x in Kept(s, wantMerged)
  {
    if s[|s| - 1] != x {
      assert x in s[..|s| - 1];
      KeptComplete(s[..|s| - 1], wantMerged, x);
    }
  }

  /** Keeping works piecewise, so the kept items stay in their relative order. */
  lemma {:induction false} KeptConcat(s: seq<RefItem>, u: seq<RefItem>, wantMerged: bool)
    ensures Kept(s + u, wantMerged) == Kept(s, wantMerged) + Kept(u, wantMerged)
    decreases |u|
  {
    if u != [] {
      var v := u[..|u| - 1];
      assert (s + u)[..|s + u| - 1] == s + v;
      KeptConcat(s, v, wantMerged);
    } else {
      assert s + u == s;
    }
  }

  /** The merge filter in one mode and the other split the items between
      them: together they hold every item exactly once. */
  lemma {:induction false} KeptPartition(s: seq<RefItem>)
    ensures multiset(Kept(s, true)) + multiset(Kept(s, false)) == multiset(s)
  {
    if s != [] {
      var v := s[..|s| - 1];
      KeptPartition(v);
      assert s == v + [s[|s| - 1]];
    }
  }

  /** The array of matching refs (struct ref_array). */
  class RefArray {
    var items: array<RefItem>
    var nr: nat
    var alloc: nat

    ghost predicate Valid()
      reads this
    {
      nr <= alloc == items.Length
    }

    /** The surviving loop of do_merge_filter: keep, in order and at the
        front of the array, the items whose merged bit equals `wantMerged`. */
    method MergeFilter(wantMerged: bool)
      requires Valid()
      modifies this`nr, items
      ensures Valid() && nr <= old(nr)
      ensures items[..nr] == Kept(old(items[..nr]), wantMerged)
    {
      var oldNr := nr;
      ghost var orig := items[..oldNr];
      nr := 0;
      var i := 0;
      while i < oldNr
        invariant nr <= i <= oldNr <= items.Length
        invariant items[..nr] == Kept(orig[..i], wantMerged)
        invariant items[i..oldNr] == orig[i..]
      {
        KeepStep(i, oldNr, wantMerged, orig);
        i := i + 1;
      }
      assert orig[..oldNr] == orig;
    }

    /** One turn of the compaction loop: item `i` moves down to slot `nr`
        when its merged bit is the wanted one. */
    method KeepStep(i: nat, oldNr: nat, wantMerged: bool, ghost orig: seq<RefItem>)
      requires nr <= i < oldNr <= items.Length && |orig| == oldNr
      requires items[..nr] == Kept(orig[..i], wantMerged)
      requires items[i..oldNr] == orig[i..]
      modifies this`nr, items
      ensures nr <= i + 1
      ensures items[..nr] == Kept(orig[..i + 1], wantMerged)
      ensures items[i + 1..oldNr] == orig[i + 1..]
    {
      ghost var before := items[..];
      var item := items[i];
      assert item == orig[i] by {
        assert items[i..oldNr][0] == orig[i..][0];
      }
      KeptSnoc(orig, i, wantMerged);
      if item.merged == wantMerged {
        items[nr] := item;
        assert items[..nr + 1] == before[..nr] + [item];
        nr := nr + 1;
      } else {
        assert items[..nr] == before[..nr];
      }
      assert items[i + 1..oldNr] == before[i + 1..oldNr];
      assert before[i + 1..oldNr] == orig[i + 1..] by {
        assert before[i..oldNr][1..] == orig[i..][1..];
      }
    }

    /** ref_array_clear: drop every item and the storage. */
    method Clear()
      modifies this
      ensures Valid() && nr == 0 && alloc == 0 && items.Length == 0
    {
      items := new RefItem[0];
      nr := 0;
      alloc := 0;
    }
  }
}

=== FILE: ref_filter_values.dfy ===
// The value extractors of ref-filter.c: header lines of a raw object, the
// name, e-mail and subject pieces of a person line, the "flag" and tracking
// strings, and the path-prefix test applied to ref name patterns.

module RefFilterValues {
  import opened Common

  // ---------------------------------------------------------------------
  // find_wholine

  /** The line at `l` starts with `who` and a space (strncmp(buf, who, wholen)
      == 0 and buf[wholen] == ' '). */
  predicate HeaderMatch(who: string, buf: string, l: int)
  {
    0 <= l && l + |who| < |buf| && buf[l..l + |who|] == who && buf[l + |who|] == ' '
  }

  /** `l` starts a header line that the scan from `p` visits: it is `p` itself
      or follows a newline, nothing up to it is NUL, and no empty line (a
      "\n\n") ends the header before it. */
  predicate HeaderLine(buf: string, p: int, l: int)
  {
    0 <= p <= l < |buf| && (l == p || buf[l - 1] == '\n')
    && (forall i :: p <= i <= l ==> buf[i] != '\0')
    && (forall i :: p <= i < l ==> !(buf[i] == '\n' && buf[i + 1] == '\n'))
  }

  /** The scan of find_wholine from the line starting at `p`: the offset just
      past "who ", or None where the C code returns "". */
  function WholineFrom(who: string, buf: string, p: nat): (r: Option<nat>)
    requires p <= |buf|
    ensures r.Some? ==> p + |who| < r.value <= |buf|
    decreases |buf| - p
  {
    if At(buf, p) == '\0' then None
    else if HeaderMatch(who, buf, p) then Some(p + |who| + 1)
    else match StrChr(buf, '\n', p)
      case None => None
      case Some(e) => if At(buf, e + 1) == '\n' then None else WholineFrom(who, buf, e + 1)
  }

  /** find_wholine. */
  method FindWholine(who: string, buf: string) returns (r: Option<nat>)
    ensures r == WholineFrom(who, buf, 0)
  {
    var p := 0;
    while At(buf, p) != '\0'
      invariant p <= |buf|
      invariant WholineFrom(who, buf, p) == WholineFrom(who, buf, 0)
      decreases |buf| - p
    {
      if p + |who| < |buf| && buf[p..p + |who|] == who && buf[p + |who|] == ' ' {
        return Some(p + |who| + 1);
      }
      var eol := StrChr(buf, '\n', p);
      if eol.None? {
        return None;
      }
      var next := eol.value + 1;
      if At(buf, next) == '\n' {
        return None;
      }
      p := next;
    }
    return None;
  }

  /** The scan finds a line exactly when some header line starts with "who ". */
  lemma {:induction false} WholineComplete(who: string, buf: string, p: nat)
    requires p <= |buf|
    ensures WholineFrom(who, buf, p).Some? <==> exists l :: HeaderLine(buf, p, l) && HeaderMatch(who, buf, l)
    decreases |buf| - p
  {
    if At(buf, p) == '\0' {
      assert forall l :: !HeaderLine(buf, p, l);
    } else if HeaderMatch(who, buf, p) {
      assert HeaderLine(buf, p, p);
    } else {
      var eol := StrChr(buf, '\n', p);
      if eol.None? {
        NoNewlineOneLine(buf, p);
      } else if At(buf, eol.value + 1) == '\n' {
        EmptyLineEndsHeader(buf, p, eol.value);
      } else {
        WholineComplete(who, buf, eol.value + 1);
        NextHeaderLine(buf, p, eol.value);
      }
    }
  }

  /** A line found by the scan is the first header line starting with "who ",
      and the result points just past that word and its space. */
  lemma {:induction false} WholineFirst(who: string, buf: string, p: nat, l: nat)
    requires p <= |buf| && WholineFrom(who, buf, p) == Some(l + |who| + 1)
    ensures HeaderLine(buf, p, l) && HeaderMatch(who, buf, l)
    ensures forall l' :: p <= l' < l && HeaderLine(buf, p, l') ==> !HeaderMatch(who, buf, l')
    decreases |buf| - p
  {
    if HeaderMatch(who, buf, p) {
      assert HeaderLine(buf, p, p);
    } else {
      var e := StrChr(buf, '\n', p).value;
      WholineFirst(who, buf, e + 1, l);
      NextHeaderLine(buf, p, e);
    }
  }

  /** Without a newline the header is the line at `p` alone. */
  lemma NoNewlineOneLine(buf: string, p: nat)
    requires p <= |buf| && StrChr(buf, '\n', p).None?
    ensures forall l :: HeaderLine(buf, p, l) ==> l == p
  {
  }

  /** A newline followed by another ends the header. */
  lemma EmptyLineEndsHeader(buf: string, p: nat, e: nat)
    requires p <= |buf| && StrChr(buf, '\n', p) == Some(e) && At(buf, e + 1) == '\n'
    ensures forall l :: HeaderLine(buf, p, l) ==> l == p
  {
  }

  /** Past the line at `p`, the header lines from `p` are those from the
      next line. */
  lemma NextHeaderLine(buf: string, p: nat, e: nat)
    requires p <= |buf| && StrChr(buf, '\n', p) == Some(e) && At(buf, e + 1) != '\n'
    ensures forall l :: p < l ==> (HeaderLine(buf, p, l) <==> HeaderLine(buf, e + 1, l))
  {
    forall l | p < l
      ensures HeaderLine(buf, p, l) <==> HeaderLine(buf, e + 1, l)
    {
      if HeaderLine(buf, p, l) {
        assert e + 1 <= l by {
          assert buf[l - 1] == '\n';
        }
      }
    }
  }

  // ---------------------------------------------------------------------
  // copy_line, copy_name, copy_email, copy_subject

  /** strchrnul(s + i, '\n'): where the line starting at `i` ends. */
  function LineEnd(s: string, i: nat): (e: nat)
    requires i <= |s|
    ensures i <= e <= |s|
    ensures forall j :: i <= j < e ==> s[j] != '\n' && s[j] != '\0'
    ensures e < |s| ==> s[e] == '\n' || s[e] == '\0'
    decreases |s| - i
  {
    if i == |s| || s[i] == '\n' || s[i] == '\0' then i else LineEnd(s, i + 1)
  }

  /** copy_line: the rest of the line from `i`, without its newline. */
  function CopyLine(s: string, i: nat): (r: string)
    requires i <= |s|
    ensures IsPrefix(r, s[i..])
    ensures forall j :: 0 <= j < |r| ==> r[j] != '\n' && r[j] != '\0'
    ensures At(s, i + |r|) == '\n' || At(s, i + |r|) == '\0'
  {
    s[i..LineEnd(s, i)]
  }

  /** The first " <" on the line from `cp`, where a person's name ends. */
  function NameEnd(s: string, cp: nat): (r: Option<nat>)
    requires cp <= |s|
    ensures r.Some? ==> cp <= r.value < |s| && s[r.value] == ' ' && At(s, r.value + 1) == '<'
    ensures r.Some? ==> forall j :: cp <= j < r.value ==> s[j] != '\n' && s[j] != '\0' && !(s[j] == ' ' && At(s, j + 1) == '<')
    ensures r.None? ==> forall j :: cp <= j < LineEnd(s, cp) ==> !(s[j] == ' ' && At(s, j + 1) == '<')
    decreases |s| - cp
  {
    if At(s, cp) == '\0' || s[cp] == '\n' then None
    else if s[cp] == ' ' && At(s, cp + 1) == '<' then Some(cp)
    else NameEnd(s, cp + 1)
  }

  /** copy_name: the line from `i` up to its first " <", or "" when the line
      has none. */
  method CopyName(s: string, i: nat) returns (r: string)
    requires i <= |s|
    ensures r == (match NameEnd(s, i) case Some(k) => s[i..k] case None => "")
  {
    var cp := i;
    while At(s, cp) != '\0' && s[cp] != '\n'
      invariant i <= cp <= |s|
      invariant NameEnd(s, cp) == NameEnd(s, i)
      decreases |s| - cp
    {
      if s[cp] == ' ' && At(s, cp + 1) == '<' {
        return s[i..cp];
      }
      cp := cp + 1;
    }
    return "";
  }

  /** The first '<' from `i` and the first '>' after it, each searched no
      further than the end of the C string. */
  function EmailSpan(s: string, i: nat): (r: Option<(nat, nat)>)
    ensures r.Some? ==> i <= r.value.0 < r.value.1 < |s| && s[r.value.0] == '<' && s[r.value.1] == '>'
    ensures r.Some? ==> forall j :: i <= j < r.value.0 ==> s[j] != '<' && s[j] != '\0'
    ensures r.Some? ==> forall j :: r.value.0 < j < r.value.1 ==> s[j] != '>' && s[j] != '\0'
  {
    match StrChr(s, '<', i)
    case None => None
    case Some(a) =>
      match StrChr(s, '>', a)
      case None => None
      case Some(b) => Some((a, b))
  }

  /** No span is found exactly when every '<' ... '>' pair from `i` has a NUL
      before its '>'. */
  lemma EmailSpanNone(s: string, i: nat)
    ensures EmailSpan(s, i).None? <==>
              forall a, b :: i <= a < b < |s| && s[a] == '<' && s[b] == '>' ==> exists z :: i <= z < b && s[z] == '\0'
  {
    var lt := StrChr(s, '<', i);
    if lt.Some? {
      var gt := StrChr(s, '>', lt.value);
      if gt.None? {
        forall a, b | i <= a < b < |s| && s[a] == '<' && s[b] == '>'
          ensures exists z :: i <= z < b && s[z] == '\0'
        {
          assert lt.value <= a;
        }
      } else {
        assert !(exists z :: i <= z < gt.value && s[z] == '\0');
      }
    }
  }

  /** copy_email: from the first '<' through the next '>', or "". */
  function CopyEmail(s: string, i: nat): (r: string)
    ensures r == [] || (|r| >= 2 && r[0] == '<' && r[|r| - 1] == '>')
    ensures forall j :: 0 < j < |r| - 1 ==> r[j] != '>' && r[j] != '\0'
  {
    match EmailSpan(s, i)
    case None => ""
    case Some((a, b)) => s[a..b + 1]
  }

  /** copy_subject: a copy of the first `len` bytes with every newline turned
      into a space. */
  method CopySubject(buf: string, len: nat) returns (r: array<char>)
    requires len <= |buf|
    ensures fresh(r) && r.Length == len
    ensures forall i :: 0 <= i < len ==> r[i] == (if buf[i] == '\n' then ' ' else buf[i])
    ensures forall i :: 0 <= i < len ==> r[i] != '\n'
  {
    r := new char[len](i requires 0 <= i < len => buf[i]);
    var i := 0;
    while i < len
      invariant 0 <= i <= len
      invariant forall j :: 0 <= j < i ==> r[j] == (if buf[j] == '\n' then ' ' else buf[j])
      invariant forall j :: i <= j < len ==> r[j] == buf[j]
    {
      if r[i] == '\n' {
        r[i] := ' ';
      }
      i := i + 1;
    }
  }

  // ---------------------------------------------------------------------
  // The "flag", "track" and "trackshort" strings of populate_value

  /** The flags a ref carries, in the order the "flag" atom lists them. */
  function FlagNames(isSymref: bool, isPacked: bool): seq<string>
  {
    (if isSymref then ["symref"] else []) + (if isPacked then ["packed"] else [])
  }

  /** Names joined with commas. */
  function JoinComma(names: seq<string>): string
  {
    if names == [] then ""
    else if |names| == 1 then names[0]
    else names[0] + "," + JoinComma(names[1..])
  }

  /** The "flag" atom: ",symref" and ",packed" copied one after the other
      into a buffer, which is then taken without its leading comma. */
  function FlagValue(isSymref: bool, isPacked: bool): (r: string)
    ensures r == "" <==> !isSymref && !isPacked
    ensures isSymref ==> IsPrefix("symref", r)
    ensures isPacked ==> IsSuffix("packed", r)
  {
    var buf := (if isSymref then ",symref" else "") + (if isPacked then ",packed" else "");
    if buf == "" then "" else buf[1..]
  }

  /** The buffer trick lists the flags joined by commas. */
  lemma FlagValueJoins(isSymref: bool, isPacked: bool)
    ensures FlagValue(isSymref, isPacked) == JoinComma(FlagNames(isSymref, isPacked))
  {
    if isSymref && isPacked {
      assert FlagNames(isSymref, isPacked)[1..] == ["packed"];
    }
  }

  /** The ":track" form of an upstream or push atom. */
  function TrackValue(ours: nat, theirs: nat): (r: string)
    ensures r == "" <==> ours == 0 && theirs == 0
  {
    if ours == 0 && theirs == 0 then ""
    else if ours == 0 then "[behind " + NatToString(theirs) + "]"
    else if theirs == 0 then "[ahead " + NatToString(ours) + "]"
    else "[ahead " + NatToString(ours) + ", behind " + NatToString(theirs) + "]"
  }

  /** A non-empty ":track" string says "ahead" exactly when there are
      commits of ours and starts with "behind" when there are only theirs. */
  lemma TrackValueWords(ours: nat, theirs: nat)
    ensures IsPrefix("[ahead ", TrackValue(ours, theirs)) <==> ours > 0
    ensures IsPrefix("[behind ", TrackValue(ours, theirs)) <==> ours == 0 && theirs > 0
  {
    var r := TrackValue(ours, theirs);
    if ours > 0 {
      var x := if theirs == 0 then "]" else ", behind " + (NatToString(theirs) + "]");
      assert r == "[ahead " + (NatToString(ours) + x);
      assert r[..7] == "[ahead ";
      assert r[1] == 'a';
    } else if theirs > 0 {
      assert r == "[behind " + (NatToString(theirs) + "]");
      assert r[..8] == "[behind ";
      assert r[1] == 'b';
    }
  }

  /** The ":trackshort" form: '<' when behind, '>' when ahead, "=" when level. */
  function TrackShortValue(ours: nat, theirs: nat): (r: string)
    ensures r == "=" <==> ours == 0 && theirs == 0
    ensures '<' in r <==> theirs > 0
    ensures '>' in r <==> ours > 0
  {
    if ours == 0 && theirs == 0 then "="
    else if ours == 0 then "<"
    else if theirs == 0 then ">"
    else "<>"
  }

  predicate AllDigits(s: string)
  {
    forall i :: 0 <= i < |s| ==> IsDigit(s[i])
  }

  /** The length of the leading run of digits. */
  function DigitRun(s: string): nat
  {
    if s == [] || !IsDigit(s[0]) then 0 else 1 + DigitRun(s[1..])
  }

  lemma {:induction false} DigitRunOf(a: string, x: string)
    requires AllDigits(a) && |x| > 0 && !IsDigit(x[0])
    ensures DigitRun(a + x) == |a|
  {
    if a != [] {
      assert (a + x)[1..] == a[1..] + x;
      DigitRunOf(a[1..], x);
    }
  }

  /** A run of digits followed by a non-digit splits in one way only. */
  lemma DigitsThen(a: string, x: string, b: string, y: string)
    requires AllDigits(a) && AllDigits(b)
    requires |x| > 0 && |y| > 0 && !IsDigit(x[0]) && !IsDigit(y[0])
    requires a + x == b + y
    ensures a == b && x == y
  {
    DigitRunOf(a, x);
    DigitRunOf(b, y);
    assert a == (a + x)[..|a|];
    assert b == (b + y)[..|b|];
    assert x == (a + x)[|a|..];
    assert y == (b + y)[|b|..];
  }

  /** Equal prefixes cancel. */
  lemma CancelPrefix(p: string, x: string, y: string)
    requires p + x == p + y
    ensures x == y
  {
    assert x == (p + x)[|p|..];
    assert y == (p + y)[|p|..];
  }

  /** Digits after a fixed prefix and before a non-digit are determined. */
  lemma DigitsAfter(p: string, a: string, x: string, b: string, y: string)
    requires AllDigits(a) && AllDigits(b)
    requires |x| > 0 && |y| > 0 && !IsDigit(x[0]) && !IsDigit(y[0])
    requires p + (a + x) == p + (b + y)
    ensures a == b && x == y
  {
    CancelPrefix(p, a + x, b + y);
    DigitsThen(a, x, b, y);
  }

  /** The ":track" string gives back both counts. */
  lemma TrackValueInjective(o1: nat, t1: nat, o2: nat, t2: nat)
    requires TrackValue(o1, t1) == TrackValue(o2, t2)
    ensures o1 == o2 && t1 == t2
  {
    var r := TrackValue(o1, t1);
    if r == "" {
      return;
    }
    TrackValueWords(o1, t1);
    TrackValueWords(o2, t2);
    if o1 == 0 {
      BehindInjective(t1, t2);
    } else {
      AheadInjective(o1, t1, o2, t2);
    }
  }

  lemma BehindInjective(t1: nat, t2: nat)
    requires t1 > 0 && t2 > 0 && TrackValue(0, t1) == TrackValue(0, t2)
    ensures t1 == t2
  {
    var e1, e2 := NatToString(t1), NatToString(t2);
    assert TrackValue(0, t1) == "[behind " + (e1 + "]");
    assert TrackValue(0, t2) == "[behind " + (e2 + "]");
    DigitsAfter("[behind ", e1, "]", e2, "]");
    NatToStringInjective(t1, t2);
  }

  /** What follows the ahead count in a ":track" string. */
  function AheadTail(theirs: nat): string
  {
    if theirs == 0 then "]" else ", behind " + (NatToString(theirs) + "]")
  }

  lemma AheadForm(ours: nat, theirs: nat)
    requires ours > 0
    ensures TrackValue(ours, theirs) == "[ahead " + (NatToString(ours) + AheadTail(theirs))
  {
  }

  lemma AheadInjective(o1: nat, t1: nat, o2: nat, t2: nat)
    requires o1 > 0 && o2 > 0 && TrackValue(o1, t1) == TrackValue(o2, t2)
    ensures o1 == o2 && t1 == t2
  {
    AheadForm(o1, t1);
    AheadForm(o2, t2);
    DigitsAfter("[ahead ", NatToString(o1), AheadTail(t1), NatToString(o2), AheadTail(t2));
    NatToStringInjective(o1, o2);
    AheadTailInjective(t1, t2);
  }

  lemma AheadTailInjective(t1: nat, t2: nat)
    requires AheadTail(t1) == AheadTail(t2)
    ensures t1 == t2
  {
    assert (t1 == 0) == (|AheadTail(t1)| == 1) && (t2 == 0) == (|AheadTail(t2)| == 1);
    if t1 != 0 {
      DigitsAfter(", behind ", NatToString(t1), "]", NatToString(t2), "]");
      NatToStringInjective(t1, t2);
    }
  }

  /** ":trackshort" is ":track" with the counts forgotten. */
  lemma TrackShortAgrees(ours: nat, theirs: nat)
    ensures TrackShortValue(ours, theirs) == "=" <==> TrackValue(ours, theirs) == ""
    ensures TrackShortValue(ours, theirs) == "<" <==> IsPrefix("[behind ", TrackValue(ours, theirs))
  {
    TrackValueWords(ours, theirs);
  }

  // ---------------------------------------------------------------------
  // match_name_as_path, prefix part

  /** The prefix test of match_name_as_path as written. `before` stands for
      the byte stored just before the pattern, which p[plen-1] reads when the
      pattern is empty. */
  function PrefixMatchAsWritten(p: string, refname: string, before: char): (r: bool)
    ensures r ==> IsPrefix(p, refname)
    ensures IsCString(refname) && refname == p ==> r
  {
    |p| <= |refname| && refname[..|p|] == p
    && (At(refname, |p|) == '\0' || At(refname, |p|) == '/' || (if |p| == 0 then before else p[|p| - 1]) == '/')
  }

  /** With an empty pattern the as-written test depends on memory outside
      the pattern. */
  lemma EmptyPatternReadsOutside()
    ensures PrefixMatchAsWritten("", "refs/heads/main", '/')
    ensures !PrefixMatchAsWritten("", "refs/heads/main", 'x')
  {
    assert At("refs/heads/main", 0) == 'r';
  }

  /** The prefix test without the out-of-bounds read: the last pattern byte
      is consulted only when there is one. */
  function PathPrefixMatch(p: string, refname: string): (r: bool)
    ensures r ==> IsPrefix(p, refname)
    ensures IsCString(refname) && refname == p ==> r
  {
    |p| <= |refname| && refname[..|p|] == p
    && (At(refname, |p|) == '\0' || At(refname, |p|) == '/' || (|p| > 0 && p[|p| - 1] == '/'))
  }

  /** A C-string pattern matches when it names the whole ref, a leading run
      of its path components, or ends in '/' and starts the ref. */
  lemma PathPrefixMatchMeaning(p: string, refname: string)
    requires IsCString(refname)
    ensures PathPrefixMatch(p, refname) <==>
              refname == p || IsPrefix(p + "/", refname) || (|p| > 0 && p[|p| - 1] == '/' && IsPrefix(p, refname))
  {
    if IsPrefix(p + "/", refname) {
      assert refname[..|p|] == (p + "/")[..|p|];
      assert refname[|p|] == (p + "/")[|p|];
    }
    if |p| < |refname| && refname[..|p|] == p && refname[|p|] == '/' {
      assert refname[..|p| + 1] == p + "/";
    }
  }

  /** For a non-empty pattern the corrected test is the one written. */
  lemma PathPrefixAgrees(p: string, refname: string, before: char)
    requires |p| > 0
    ensures PathPrefixMatch(p, refname) == PrefixMatchAsWritten(p, refname, before)
  {
  }

  /** match_name_as_path: some pattern is a path prefix of the ref, or
      matches it as a wildcard (`wild[i]` is the wildmatch answer for
      pattern `i`). */
  method MatchNameAsPath(patterns: seq<string>, refname: string, wild: seq<bool>) returns (r: bool)
    requires |wild| == |patterns|
    ensures r <==> exists i :: 0 <= i < |patterns| && (PathPrefixMatch(patterns[i], refname) || wild[i])
  {
    var k := 0;
    while k < |patterns|
      invariant 0 <= k <= |patterns|
      invariant forall i :: 0 <= i < k ==> !PathPrefixMatch(patterns[i], refname) && !wild[i]
    {
      var p := patterns[k];
      if |p| <= |refname| && refname[..|p|] == p
         && (At(refname, |p|) == '\0' || At(refname, |p|) == '/' || (|p| > 0 && p[|p| - 1] == '/')) {
        return true;
      }
      if wild[k] {
        return true;
      }
      k := k + 1;
    }
    return false;
  }
}

=== FILE: tempfile.dfy ===
// Temporary files that are removed automatically when the process exits or
// is killed by a signal, unless they were renamed into place first.
//
// A `Tempfile` is the per-file record; a `Process` holds the registry list
// that the cleanup pass walks, the file system as this process sees it, and
// `errno`. Every operating-system call that can fail takes its outcome as a
// parameter (0 for success, otherwise the errno value it reports), except
// where the file system itself decides (an existing path makes an exclusive
// open fail with EEXIST, a missing one makes open or rename fail with ENOENT,
// and a path listed as unremovable makes unlink fail).

module Tempfile {
  import opened Common

  type Path = string
  type Bytes = seq<bv8>

  const ENOENT := 2
  const EBADF := 9
  const EEXIST := 17
  const EINVAL := 22

  /** A working directory as it is joined to relative paths: absolute and
      without a trailing '/', so that the root directory "/" is the empty
      string. getcwd ends in '/' only for the root. */
  predicate WorkingDir(cwd: Path)
  {
    cwd == [] || (cwd[0] == '/' && cwd[|cwd| - 1] != '/')
  }

  /** The absolute form of `path` relative to the working directory `cwd`,
      as strbuf_add_absolute_path gives it on POSIX: an absolute path is
      kept; a relative one follows the directory and one '/'. (An empty path
      is fatal there; the methods that make a path absolute require a
      non-empty one.) */
  function AbsolutePath(cwd: Path, path: Path): (r: Path)
    ensures r != []
    ensures |path| > 0 && path[0] == '/' ==> r == path
    ensures !(|path| > 0 && path[0] == '/') ==> IsSuffix(path, r)
  {
    if |path| > 0 && path[0] == '/' then path else cwd + "/" + path
  }

  /** In a working directory, a relative path becomes an absolute one: the
      directory, exactly one '/', and the path, with no doubled separator
      where they meet. */
  lemma AbsolutePathMeaning(cwd: Path, path: Path)
    requires WorkingDir(cwd) && |path| > 0 && path[0] != '/'
    ensures var r := AbsolutePath(cwd, path);
      && r[0] == '/' && IsPrefix(cwd, r) && IsSuffix(path, r)
      && |r| == |cwd| + 1 + |path| && r[|cwd|] == '/'
      && (|cwd| > 0 ==> r[|cwd| - 1] != '/')
      && r[|cwd| + 1] != '/'
  {
  }

  /** In the root directory the file "x" is "/x"; in "/home" it is
      "/home/x". */
  lemma AbsolutePathInRoot()
    ensures AbsolutePath("", "x") == "/x"
    ensures AbsolutePath("/home", "x") == "/home/x"
  {
  }

  /** The contents of a file after writing `data` at offset `off`. */
  function Overwrite(content: Bytes, off: nat, data: Bytes): (r: Bytes)
    requires off <= |content|
    ensures |r| == if off + |data| <= |content| then |content| else off + |data|
    ensures r[..off] == content[..off]
    ensures r[off..off + |data|] == data
    ensures off + |data| <= |content| ==> r[off + |data|..] == content[off + |data|..]
    ensures off == |content| ==> r == content + data
  {
    content[..off] + data + (if off + |data| <= |content| then content[off + |data|..] else [])
  }

  /** The name git_mkstemps_mode makes of `template`: the six characters in
      front of the `suffixlen`-character suffix must read "XXXXXX" and are
      replaced by `letters`; any other template is refused. */
  function MkstempsName(template: Path, suffixlen: int, letters: string): (r: Option<Path>)
    requires |letters| == 6
    ensures r.Some? <==> 0 <= suffixlen && 6 + suffixlen <= |template|
                         && template[|template| - suffixlen - 6..|template| - suffixlen] == "XXXXXX"
    ensures r.Some? ==> |r.value| == |template|
                        && r.value[..|template| - suffixlen - 6] == template[..|template| - suffixlen - 6]
                        && r.value[|template| - suffixlen - 6..|template| - suffixlen] == letters
                        && r.value[|template| - suffixlen..] == template[|template| - suffixlen..]
  {
    if 0 <= suffixlen && 6 + suffixlen <= |template|
       && template[|template| - suffixlen - 6..|template| - suffixlen] == "XXXXXX"
    then Some(template[..|template| - suffixlen - 6] + letters + template[|template| - suffixlen..])
    else None
  }

  /** One temporary file. `fd` is -1 when closed, `fp` says whether a stdio
      stream is attached, `active` whether the file is live and owned by this
      object, `onList` whether the object has been linked into the registry. */
  class Tempfile {
    var fd: int
    var fp: bool
    var active: bool
    var owner: int
    var onList: bool
    var filename: Path

    /** Objects live in zero-filled static storage before first use. */
    constructor ()
      ensures fd == 0 && !fp && !active && owner == 0 && !onList && filename == []
    {
      fd, fp, active, owner, onList, filename := 0, false, false, 0, false, [];
    }

    /** Once registered: a file name is held exactly while active, an inactive
        object is closed, and a stream sits on an open descriptor. */
    ghost predicate Valid()
      reads this
    {
      onList ==>
        fd >= -1 &&
        (active <==> filename != []) &&
        (!active ==> fd == -1 && !fp) &&
        (fp ==> fd >= 0)
    }
  }

  /** The names of the active files among `ts` that process `pid` owns. */
  ghost function OwnedActiveNames(ts: seq<Tempfile>, pid: int): set<Path>
    reads ts
  {
    if ts == [] then {}
    else
      var t := ts[|ts| - 1];
      OwnedActiveNames(ts[..|ts| - 1], pid) + (if t.owner == pid && t.active then {t.filename} else {})
  }

  /** Removing the removable names of `a` and then those of `b` removes the
      removable names of both. */
  lemma RemoveInTurn(m: map<Path, Bytes>, a: set<Path>, b: set<Path>, keep: set<Path>)
    ensures (m - (a - keep)) - (b - keep) == m - ((a + b) - keep)
  {
  }

  /** A name is among OwnedActiveNames exactly when some listed file that
      the process owns is active under that name. */
  lemma {:induction false} OwnedActiveNamesMembers(ts: seq<Tempfile>, pid: int, x: Path)
    ensures x in OwnedActiveNames(ts, pid) <==>
              exists i :: 0 <= i < |ts| && ts[i].owner == pid && ts[i].active && ts[i].filename == x
    decreases |ts|
  {
    if ts != [] {
      var init := ts[..|ts| - 1];
      OwnedActiveNamesMembers(init, pid, x);
      assert forall i :: 0 <= i < |init| ==> init[i] == ts[i];
      if x in OwnedActiveNames(init, pid) {
        var i :| 0 <= i < |init| && init[i].owner == pid && init[i].active && init[i].filename == x;
        assert ts[i].owner == pid && ts[i].active && ts[i].filename == x;
      }
    }
  }

  class Process {
    const pid: int
    /** The working directory (getcwd, or a matching $PWD), without a trailing '/'. */
    const cwd: Path
    /** Paths that unlink cannot remove (a read-only or sticky directory, a
        busy file), each with the errno unlink reports for it. */
    const unremovable: map<Path, int>
    /** The registry list; its head is element 0. */
    var list: seq<Tempfile>
    var fs: map<Path, Bytes>
    /** File offset of each open descriptor. */
    var offset: map<int, nat>
    var errno: int
    var nextFd: nat
    /** How often the exit and signal cleanup handlers were installed. */
    var hooksInstalled: nat
    /** How often fclose was called. */
    var fcloseCalls: nat

    constructor (pid: int, cwd: Path, fs: map<Path, Bytes>, unremovable: map<Path, int>)
      requires WorkingDir(cwd)
      ensures this.pid == pid && this.cwd == cwd && this.fs == fs && this.unremovable == unremovable
      ensures list == [] && offset == map[] && errno == 0 && hooksInstalled == 0 && fcloseCalls == 0
      ensures Valid()
    {
      this.pid, this.cwd, this.fs, this.unremovable := pid, cwd, fs, unremovable;
      list, offset, errno, nextFd, hooksInstalled, fcloseCalls := [], map[], 0, 3, 0, 0;
    }

    /** Every listed object is registered and consistent, and none is
        listed twice. */
    ghost predicate Valid()
      reads this, list
    {
      (forall i :: 0 <= i < |list| ==> list[i].onList && list[i].Valid()) &&
      (forall i, j :: 0 <= i < j < |list| ==> list[i] != list[j])
    }

    // ---- system calls ---------------------------------------------------

    /** open(path, O_RDWR|O_CREAT|O_EXCL). */
    method OpenExclusive(path: Path, err: int) returns (fd: int)
      modifies this`fs, this`offset, this`errno, this`nextFd
      ensures path in old(fs) ==> fd == -1 && errno == EEXIST && fs == old(fs) && offset == old(offset)
      ensures path !in old(fs) && err != 0 ==> fd == -1 && errno == err && fs == old(fs) && offset == old(offset)
      ensures path !in old(fs) && err == 0 ==>
                fd == old(nextFd) && fs == old(fs)[path := []] && offset == old(offset)[fd := 0]
                && errno == old(errno)
    {
      if path in fs {
        fd, errno := -1, EEXIST;
      } else if err != 0 {
        fd, errno := -1, err;
      } else {
        fd := nextFd;
        nextFd := nextFd + 1;
        fs := fs[path := []];
        offset := offset[fd := 0];
      }
    }

    /** open(path, O_WRONLY): the file keeps its contents, the offset starts at 0. */
    method OpenWrite(path: Path, err: int) returns (fd: int)
      modifies this`offset, this`errno, this`nextFd
      ensures path !in fs ==> fd == -1 && errno == ENOENT && offset == old(offset)
      ensures path in fs && err != 0 ==> fd == -1 && errno == err && offset == old(offset)
      ensures path in fs && err == 0 ==> fd == old(nextFd) && offset == old(offset)[fd := 0] && errno == old(errno)
    {
      if path !in fs {
        fd, errno := -1, ENOENT;
      } else if err != 0 {
        fd, errno := -1, err;
      } else {
        fd := nextFd;
        nextFd := nextFd + 1;
        offset := offset[fd := 0];
      }
    }

    /** close(fd), or fclose on the stream over it; `err` is what it reports. */
    method CloseFd(fd: int, stream: bool, err: int) returns (r: int)
      modifies this`offset, this`errno, this`fcloseCalls
      ensures r == err && offset == old(offset) - {fd}
      ensures err != 0 ==> errno == err
      ensures err == 0 ==> errno == old(errno)
      ensures fcloseCalls == old(fcloseCalls) + (if stream then 1 else 0)
    {
      offset := offset - {fd};
      if stream {
        fcloseCalls := fcloseCalls + 1;
      }
      if err != 0 {
        errno := err;
      }
      r := err;
    }

    /** The file system after unlinking `path`: the path is gone unless it
        cannot be removed. */
    function Unlinked(m: map<Path, Bytes>, path: Path): (r: map<Path, Bytes>)
      ensures path !in unremovable ==> path !in r && forall x :: x != path ==> (x in r <==> x in m)
      ensures path in unremovable ==> r == m
      ensures r - {path} == m - {path}
    {
      if path in unremovable then m else m - {path}
    }

    /** unlink_or_warn(path): a missing file is not an error worth reporting;
        any other failure leaves the file in place with errno set (the
        warning it prints is not modelled). */
    method Unlink(path: Path)
      modifies this`fs, this`errno
      ensures fs == Unlinked(old(fs), path)
      ensures path !in old(fs) ==> errno == ENOENT
      ensures path in old(fs) && path in unremovable ==> errno == unremovable[path]
      ensures path in old(fs) && path !in unremovable ==> errno == old(errno)
    {
      if path !in fs {
        errno := ENOENT;
      } else if path in unremovable {
        errno := unremovable[path];
      } else {
        fs := fs - {path};
      }
    }

    /** rename(from, to). */
    method Rename(from: Path, to: Path, err: int) returns (r: int)
      modifies this`fs, this`errno
      ensures from !in old(fs) ==> r != 0 && errno == ENOENT && fs == old(fs)
      ensures from in old(fs) && err != 0 ==> r != 0 && errno == err && fs == old(fs)
      ensures from in old(fs) && err == 0 ==> r == 0 && fs == (old(fs) - {from})[to := old(fs)[from]]
    {
      if from !in fs {
        r, errno := -1, ENOENT;
      } else if err != 0 {
        r, errno := -1, err;
      } else {
        var content := fs[from];
        fs := (fs - {from})[to := content];
        r := 0;
      }
    }

    /** write(fd, data) on the file `path` that `fd` was opened on. */
    method Write(path: Path, fd: int, data: Bytes)
      requires path in fs && fd in offset && offset[fd] <= |fs[path]|
      modifies this`fs, this`offset
      ensures fs == old(fs)[path := Overwrite(old(fs)[path], old(offset)[fd], data)]
      ensures offset == old(offset)[fd := old(offset)[fd] + |data|]
    {
      fs := fs[path := Overwrite(fs[path], offset[fd], data)];
      offset := offset[fd := offset[fd] + |data|];
    }

    // ---- the registry ---------------------------------------------------

    /** Links `t` into the registry on first use, resetting its fields;
        installs the cleanup handlers when the registry is empty. */
    method RegisterObject(t: Tempfile)
      requires Valid() && t.Valid()
      requires !t.active
      requires t.onList ==> t.filename == []
      modifies this`list, this`hooksInstalled, t
      ensures Valid() && t.Valid() && t.onList
      ensures list == if old(t.onList) then old(list) else [t] + old(list)
      ensures hooksInstalled == old(hooksInstalled) + (if old(list) == [] then 1 else 0)
      ensures !t.active && t.fd == -1 && !t.fp && t.filename == []
      ensures !old(t.onList) ==> t.owner == 0
      ensures old(t.onList) ==> unchanged(t)
    {
      if list == [] {
        hooksInstalled := hooksInstalled + 1;
      }
      if !t.onList {
        t.fd, t.fp, t.active, t.owner, t.filename := -1, false, false, 0, [];
        list := [t] + list;
        t.onList := true;
      }
    }

    /** Opens `name` exclusively for a freshly registered, inactive `t`; on
        success `t` becomes active and owned by this process, on failure it
        keeps no name. */
    method OpenRegistered(t: Tempfile, name: Path, openErr: int) returns (fd: int)
      requires Valid() && t.onList && t.Valid()
      requires !t.active && name != []
      modifies this`fs, this`offset, this`errno, this`nextFd, t`fd, t`filename, t`owner, t`active
      ensures Valid() && t.Valid() && t.fd == fd
      ensures name in old(fs) || openErr != 0 ==>
                fd == -1 && !t.active && fs == old(fs) && errno == (if name in old(fs) then EEXIST else openErr)
      ensures !(name in old(fs) || openErr != 0) ==>
                fd == old(nextFd) && t.active && t.owner == pid && t.filename == name && !t.fp
                && fs == old(fs)[name := []] && fd in offset && offset[fd] == 0
    {
      t.filename := name;
      t.fd := OpenExclusive(name, openErr);
      if t.fd < 0 {
        t.filename := [];
        return -1;
      }
      t.owner := pid;
      t.active := true;
      fd := t.fd;
    }

    /** Creates `path` (made absolute) exclusively and registers it; returns
        the descriptor, or -1 with errno telling why. */
    method CreateTempfile(t: Tempfile, path: Path, openErr: int, permErr: int, closeErr: int) returns (fd: int)
      requires Valid() && t.Valid()
      requires |path| > 0
      requires !t.active
      requires t.onList ==> t.filename == []
      modifies this`list, this`hooksInstalled, this`fs, this`offset, this`errno, this`nextFd, this`fcloseCalls, t
      ensures Valid() && t.Valid() && t.onList
      ensures list == if old(t.onList) then old(list) else [t] + old(list)
      ensures var name := AbsolutePath(cwd, path);
        if name in old(fs) || openErr != 0 then
          fd == -1 && !t.active && fs == old(fs) && errno == (if name in old(fs) then EEXIST else openErr)
        else if permErr != 0 then
          fd == -1 && !t.active && fs == Unlinked(old(fs)[name := []], name) && errno == permErr
        else
          fd == old(nextFd) && t.fd == fd && t.active && t.owner == pid && t.filename == name && !t.fp
          && fs == old(fs)[name := []] && fd in offset && offset[fd] == 0
    {
      RegisterObject(t);
      var name := AbsolutePath(cwd, path);
      fd := OpenRegistered(t, name, openErr);
      if fd < 0 {
        return;
      }
      if permErr != 0 {
        errno := permErr;
        var saveErrno := errno;
        DeleteTempfile(t, closeErr);
        errno := saveErrno;
        fd := -1;
        return;
      }
      fd := t.fd;
    }

    /** Takes ownership of an existing file at `path` (made absolute). */
    method RegisterTempfile(t: Tempfile, path: Path)
      requires Valid() && t.Valid()
      requires |path| > 0
      requires !t.active
      requires t.onList ==> t.filename == []
      modifies this`list, this`hooksInstalled, t
      ensures Valid() && t.Valid() && t.onList
      ensures list == if old(t.onList) then old(list) else [t] + old(list)
      ensures t.active && t.filename == AbsolutePath(cwd, path) && t.owner == pid && t.fd == -1 && !t.fp
    {
      RegisterObject(t);
      t.filename := AbsolutePath(cwd, path);
      t.owner := pid;
      t.active := true;
    }

    /** git_mkstemps_mode over the name held in `t`: fills in the random
        letters, then opens the result exclusively. */
    method Mkstemps(t: Tempfile, suffixlen: int, letters: string, openErr: int) returns (fd: int)
      requires |letters| == 6
      modifies this`fs, this`offset, this`errno, this`nextFd, t`filename
      ensures var name := MkstempsName(old(t.filename), suffixlen, letters);
        if name.None? then fd == -1 && errno == EINVAL && fs == old(fs)
        else t.filename == name.value &&
             (if name.value in old(fs) || openErr != 0 then fd == -1 && fs == old(fs)
              else fd == old(nextFd) && fs == old(fs)[name.value := []] && fd in offset && offset[fd] == 0)
    {
      var name := MkstempsName(t.filename, suffixlen, letters);
      if name.None? {
        fd, errno := -1, EINVAL;
        return;
      }
      t.filename := name.value;
      fd := OpenExclusive(name.value, openErr);
    }

    /** The tail both mks_tempfile variants share: fill in the registered
        object's template `full`, create it exclusively, and on success
        mark the object active and owned by this process. */
    method MkstempsRegistered(t: Tempfile, full: Path, suffixlen: int, letters: string, openErr: int)
        returns (fd: int)
      requires Valid() && t.onList && !t.active && !t.fp && t.filename == [] && t.fd == -1
      requires |letters| == 6
      modifies this`fs, this`offset, this`errno, this`nextFd, t
      ensures Valid() && t.Valid() && t.onList
      ensures var name := MkstempsName(full, suffixlen, letters);
        if name.None? || name.value in old(fs) || openErr != 0 then fd == -1 && !t.active && fs == old(fs)
        else fd >= 0 && t.fd == fd && t.active && t.owner == pid && t.filename == name.value
             && fs == old(fs)[name.value := []]
    {
      t.filename := full;
      var rc := Mkstemps(t, suffixlen, letters, openErr);
      if rc < 0 {
        t.filename := [];
        fd := -1;
        return;
      }
      t.fd := rc;
      t.owner := pid;
      t.active := true;
      fd := rc;
    }

    /** Creates a file from `template` (made absolute) whose six characters
        before the suffix are replaced by random letters. */
    method MksTempfileSm(t: Tempfile, template: Path, suffixlen: int, letters: string, openErr: int) returns (fd: int)
      requires Valid() && t.Valid()
      requires |template| > 0
      requires !t.active
      requires t.onList ==> t.filename == []
      requires |letters| == 6
      modifies this`list, this`hooksInstalled, this`fs, this`offset, this`errno, this`nextFd, this`fcloseCalls, t
      ensures Valid() && t.Valid() && t.onList
      ensures list == if old(t.onList) then old(list) else [t] + old(list)
      ensures var name := MkstempsName(AbsolutePath(cwd, template), suffixlen, letters);
        if name.None? || name.value in old(fs) || openErr != 0 then fd == -1 && !t.active && fs == old(fs)
        else fd >= 0 && t.fd == fd && t.active && t.owner == pid && t.filename == name.value
             && fs == old(fs)[name.value := []]
    {
      RegisterObject(t);
      fd := MkstempsRegistered(t, AbsolutePath(cwd, template), suffixlen, letters, openErr);
    }

    /** Like MksTempfileSm, in the directory named by TMPDIR (default /tmp). */
    method MksTempfileTsm(t: Tempfile, template: Path, suffixlen: int, letters: string, openErr: int,
                          tmpdirEnv: Option<Path>) returns (fd: int)
      requires Valid() && t.Valid()
      requires !t.active
      requires t.onList ==> t.filename == []
      requires |letters| == 6
      modifies this`list, this`hooksInstalled, this`fs, this`offset, this`errno, this`nextFd, this`fcloseCalls, t
      ensures Valid() && t.Valid() && t.onList
      ensures list == if old(t.onList) then old(list) else [t] + old(list)
      ensures var dir := if tmpdirEnv.Some? then tmpdirEnv.value else "/tmp";
        var name := MkstempsName(dir + "/" + template, suffixlen, letters);
        if name.None? || name.value in old(fs) || openErr != 0 then fd == -1 && !t.active && fs == old(fs)
        else fd >= 0 && t.fd == fd && t.active && t.owner == pid && t.filename == name.value
             && fs == old(fs)[name.value := []]
    {
      RegisterObject(t);
      var dir := if tmpdirEnv.Some? then tmpdirEnv.value else "/tmp";
      fd := MkstempsRegistered(t, dir + "/" + template, suffixlen, letters, openErr);
    }

    // ---- operations on an active file -----------------------------------

    /** Attaches a stdio stream to the descriptor; `err` is what fdopen reports. */
    method FdopenTempfile(t: Tempfile, err: int) returns (stream: bool)
      requires t.onList && t.Valid()
      requires t.active
      requires !t.fp
      modifies this`errno, t`fp
      ensures t.Valid() && stream == t.fp
      ensures stream <==> t.fd >= 0 && err == 0
      ensures old(t.fd) < 0 ==> errno == EBADF
    {
      if t.fd < 0 {
        errno := EBADF;
        stream := false;
      } else if err != 0 {
        errno := err;
        stream := false;
      } else {
        stream := true;
      }
      t.fp := stream;
    }

    /** Closes the descriptor (or stream) but keeps the file; a failing close
        deletes the file and returns -1 with the close's errno. */
    method CloseTempfile(t: Tempfile, closeErr: int) returns (rc: int)
      requires Valid() && t.onList && t.Valid()
      modifies this`fs, this`offset, this`errno, this`fcloseCalls, t
      ensures Valid() && t.onList && t.Valid() && t.owner == old(t.owner)
      ensures old(t.fd) < 0 ==> rc == 0 && unchanged(t) && fs == old(fs) && errno == old(errno)
                                && fcloseCalls == old(fcloseCalls)
      ensures old(t.fd) >= 0 ==> t.fd == -1 && !t.fp
      ensures old(t.fd) >= 0 && closeErr == 0 ==>
                rc == 0 && t.active && t.filename == old(t.filename) && fs == old(fs) && errno == old(errno)
      ensures old(t.fd) >= 0 && closeErr != 0 ==>
                rc == -1 && !t.active && t.filename == [] && fs == Unlinked(old(fs), old(t.filename)) && errno == closeErr
      ensures fcloseCalls == old(fcloseCalls) + (if old(t.fd) >= 0 && old(t.fp) then 1 else 0)
      decreases if t.fd >= 0 then 2 else 0
    {
      var fd := t.fd;
      var fp := t.fp;
      if fd < 0 {
        return 0;
      }
      t.fd := -1;
      var err;
      if fp {
        t.fp := false;
        err := CloseFd(fd, true, closeErr);
      } else {
        err := CloseFd(fd, false, closeErr);
      }
      if err != 0 {
        var saveErrno := errno;
        DeleteTempfile(t, closeErr);
        errno := saveErrno;
        return -1;
      }
      return 0;
    }

    /** Opens the still-present file again for writing, at offset 0. */
    method ReopenTempfile(t: Tempfile, openErr: int) returns (fd: int)
      requires t.onList && t.Valid()
      requires t.fd < 0
      requires t.active
      modifies this`offset, this`errno, this`nextFd, t`fd
      ensures t.Valid() && t.fd == fd
      ensures t.filename in fs && openErr == 0 ==> fd == old(nextFd) && offset == old(offset)[fd := 0]
      ensures !(t.filename in fs && openErr == 0) ==> fd == -1 && errno == (if t.filename in fs then openErr else ENOENT)
    {
      t.fd := OpenWrite(t.filename, openErr);
      fd := t.fd;
    }

    /** Closes the file and renames it to `path`; on any failure the file is
        deleted and -1 returned with errno from the failing call. The object
        ends inactive either way. */
    method RenameTempfile(t: Tempfile, path: Path, closeErr: int, renameErr: int) returns (rc: int)
      requires Valid() && t.onList && t.Valid()
      requires t.active
      modifies this`fs, this`offset, this`errno, this`fcloseCalls, t
      ensures Valid() && t.onList && t.Valid() && t.owner == old(t.owner)
      ensures !t.active && t.filename == [] && t.fd == -1 && !t.fp
      ensures var src := old(t.filename);
        if old(t.fd) >= 0 && closeErr != 0 then rc == -1 && errno == closeErr && fs == Unlinked(old(fs), src)
        else if src !in old(fs) then rc == -1 && errno == ENOENT && fs == old(fs)
        else if renameErr != 0 then rc == -1 && errno == renameErr && fs == Unlinked(old(fs), src)
        else rc == 0 && fs == (old(fs) - {src})[path := old(fs)[src]]
    {
      var c := CloseTempfile(t, closeErr);
      if c != 0 {
        return -1;
      }
      var r := Rename(t.filename, path, renameErr);
      if r != 0 {
        var saveErrno := errno;
        DeleteTempfile(t, closeErr);
        errno := saveErrno;
        return -1;
      }
      t.active := false;
      t.filename := [];
      return 0;
    }

    /** Closes and removes the file; does nothing on an inactive object. It
        always ends inactive, even when the close or the removal fails. */
    method DeleteTempfile(t: Tempfile, closeErr: int)
      requires Valid() && t.onList && t.Valid()
      modifies this`fs, this`offset, this`errno, this`fcloseCalls, t
      ensures Valid() && t.onList && t.Valid() && t.owner == old(t.owner)
      ensures !old(t.active) ==> unchanged(t) && fs == old(fs) && errno == old(errno)
                                 && fcloseCalls == old(fcloseCalls)
      ensures old(t.active) ==> !t.active && t.filename == [] && t.fd == -1 && !t.fp
                                && fs == Unlinked(old(fs), old(t.filename))
      ensures fcloseCalls == old(fcloseCalls) + (if old(t.fd) >= 0 && old(t.fp) then 1 else 0)
      decreases if t.fd >= 0 then 3 else 1
    {
      if !t.active {
        return;
      }
      var c := CloseTempfile(t, closeErr);
      if c == 0 {
        Unlink(t.filename);
        t.active := false;
        t.filename := [];
      }
    }

    // ---- cleanup ----------------------------------------------------------

    /** One step of the cleanup pass: deletes `t` if this process owns it. */
    method CleanupEntry(t: Tempfile, skipFclose: bool, closeErr: int)
      requires Valid() && t.onList && t.Valid()
      modifies this`fs, this`offset, this`errno, this`fcloseCalls, t
      ensures Valid() && t.onList && t.Valid() && t.owner == old(t.owner)
      ensures t.owner == pid ==> !t.active && t.fd == -1 && !t.fp && (old(t.active) ==> t.filename == [])
      ensures t.owner == pid && old(t.active) ==> fs == Unlinked(old(fs), old(t.filename))
      ensures !(t.owner == pid && old(t.active)) ==> fs == old(fs)
      ensures t.owner != pid ==> unchanged(t)
      ensures skipFclose ==> fcloseCalls == old(fcloseCalls)
    {
      if t.owner == pid {
        if skipFclose {
          t.fp := false;
        }
        DeleteTempfile(t, closeErr);
      }
    }

    /** Cleans up the head of the remaining registry `L[k..]` and unlinks it. */
    method CleanupNext(ghost L: seq<Tempfile>, k: nat, skipFclose: bool, closeErr: int)
      requires Valid() && k < |L| && list == L[k..]
      modifies this`list, this`fs, this`offset, this`errno, this`fcloseCalls, L[k]
      ensures list == L[k + 1..] && Valid()
      ensures L[k].onList && L[k].Valid() && L[k].owner == old(L[k].owner)
      ensures L[k].owner == pid ==>
                !L[k].active && L[k].fd == -1 && !L[k].fp && (old(L[k].active) ==> L[k].filename == [])
      ensures L[k].owner != pid ==> unchanged(L[k])
      ensures fs == if L[k].owner == pid && old(L[k].active) then Unlinked(old(fs), old(L[k].filename)) else old(fs)
      ensures skipFclose ==> fcloseCalls == old(fcloseCalls)
    {
      assert list[0] == L[k];
      CleanupEntry(list[0], skipFclose, closeErr);
      list := list[1..];
    }

    /** After cleanup, a file this process owned is closed and, if it was
        active, forgotten; a file owned by another process is untouched. */
    twostate predicate CleanedUp(t: Tempfile)
      reads t
    {
      if old(t.owner) == pid then
        t.onList && t.Valid() && !t.active && t.fd == -1 && !t.fp && (old(t.active) ==> t.filename == [])
      else unchanged(t)
    }

    /** Walks the registry, deleting every file this process owns (a file
        that cannot be removed stays), and leaves the registry empty. With `skipFclose` (signal context) streams are
        dropped rather than closed. `closeErrs[i]` is what closing the i-th
        listed file reports. */
    method RemoveTempfiles(skipFclose: bool, closeErrs: seq<int>)
      requires Valid()
      requires |closeErrs| == |list|
      modifies this`list, this`fs, this`offset, this`errno, this`fcloseCalls, list
      ensures list == []
      ensures forall i :: 0 <= i < |old(list)| ==> old(list)[i].onList && old(list)[i].Valid()
      ensures forall i :: 0 <= i < |old(list)| ==> CleanedUp(old(list)[i])
      ensures fs == old(fs) - (old(OwnedActiveNames(list, pid)) - unremovable.Keys)
      ensures skipFclose ==> fcloseCalls == old(fcloseCalls)
    {
      ghost var L := list;
      var k := 0;
      while list != []
        invariant 0 <= k <= |L| && list == L[k..]
        invariant forall i, j :: 0 <= i < j < |L| ==> L[i] != L[j]
        invariant forall i :: k <= i < |L| ==> unchanged(L[i])
        invariant forall i :: 0 <= i < k ==> CleanedUp(L[i])
        invariant fs == old(fs) - (old(OwnedActiveNames(L[..k], pid)) - unremovable.Keys)
        invariant skipFclose ==> fcloseCalls == old(fcloseCalls)
        decreases |list|
      {
        ghost var dropped := if L[k].owner == pid && L[k].active then {L[k].filename} else {};
        ghost var removed := old(OwnedActiveNames(L[..k], pid));
        ghost var fs0 := fs;
        assert L[..k + 1][..k] == L[..k];
        assert old(OwnedActiveNames(L[..k + 1], pid)) == removed + dropped;
        CleanupNext(L, k, skipFclose, closeErrs[k]);
        assert fs == fs0 - (dropped - unremovable.Keys);
        RemoveInTurn(old(fs), removed, dropped, unremovable.Keys);
        forall i | k < i < |L|
          ensures unchanged(L[i])
        {
          assert L[k] != L[i];
        }
        k := k + 1;
      }
      assert L[..k] == L;
    }

    /** The handler installed for normal exit. */
    method RemoveTempfilesOnExit(closeErrs: seq<int>)
      requires Valid()
      requires |closeErrs| == |list|
      modifies this`list, this`fs, this`offset, this`errno, this`fcloseCalls, list
      ensures list == []
      ensures fs == old(fs) - (old(OwnedActiveNames(list, pid)) - unremovable.Keys)
    {
      RemoveTempfiles(false, closeErrs);
    }

    /** The handler installed for fatal signals: no fclose in signal context.
        Re-raising the signal afterwards is not modelled. */
    method RemoveTempfilesOnSignal(closeErrs: seq<int>)
      requires Valid()
      requires |closeErrs| == |list|
      modifies this`list, this`fs, this`offset, this`errno, this`fcloseCalls, list
      ensures list == [] && fcloseCalls == old(fcloseCalls)
      ensures fs == old(fs) - (old(OwnedActiveNames(list, pid)) - unremovable.Keys)
    {
      RemoveTempfiles(true, closeErrs);
    }
  }
}

=== FILE: worktree.dfy ===
// The decisions of `git worktree` that do not need the file system itself:
// the name a new worktree is known by, the default branch `add` creates,
// the option checks of `add`, the unique-name search under worktrees/, the
// decision whether `prune` removes an administrative directory, and the
// guard that lets only the process that started an `add` remove its
// half-made directories.  What the file system answers (stat, open,
// file_exists) is given as input.

module Worktree {
  import opened Common

  /** is_dir_sep on POSIX. */
  predicate IsDirSep(c: char) { c == '/' }

  // ---------------------------------------------------------------------
  // worktree_basename

  /** The length of `path[..len]` once trailing separators are dropped. */
  function StrippedLen(path: string, len: nat): (r: nat)
    requires len <= |path|
    ensures r <= len
    decreases len
  {
    if len > 0 && IsDirSep(path[len - 1]) then StrippedLen(path, len - 1) else len
  }

  /** The backward scan for the last separator: from index `i` down to
      index 1 (index 0 is never looked at), the position just after the
      first separator met, else where the scan stopped. */
  function BaseScan(path: string, i: int): (r: int)
    requires i < |path|
    decreases i
  {
    if i <= 0 then i
    else if IsDirSep(path[i]) then i + 1
    else BaseScan(path, i - 1)
  }

  /** Where worktree_basename's name starts: -1 (one before the string)
      when nothing is left after stripping separators. */
  function BaseStart(path: string): int
  {
    BaseScan(path, StrippedLen(path, |path|) - 1)
  }

  /** The stripped length ends the path bar a run of separators. */
  lemma {:induction false} StrippedLenMeaning(path: string, len: nat)
    requires len <= |path|
    ensures forall j :: StrippedLen(path, len) <= j < len ==> IsDirSep(path[j])
    ensures StrippedLen(path, len) == 0 || !IsDirSep(path[StrippedLen(path, len) - 1])
    decreases len
  {
    if len > 0 && IsDirSep(path[len - 1]) {
      StrippedLenMeaning(path, len - 1);
    }
  }

  lemma {:induction false} BaseScanMeaning(path: string, i: int)
    requires 0 <= i < |path|
    ensures 0 <= BaseScan(path, i) <= i + 1 && BaseScan(path, i) != 1
    ensures BaseScan(path, i) == 0 || IsDirSep(path[BaseScan(path, i) - 1])
    ensures forall j :: 1 <= j <= i && BaseScan(path, i) <= j ==> !IsDirSep(path[j])
    decreases i
  {
    if i > 0 && !IsDirSep(path[i]) {
      BaseScanMeaning(path, i - 1);
    }
  }

  /** The name starts at index 0 or just after a separator at index 1 or
      later, holds no separator past index 0, and runs to the stripped
      length; it is empty only for a path that is empty or all separators,
      where it starts before the string. */
  lemma BaseStartMeaning(path: string)
    ensures var n, olen := BaseStart(path), StrippedLen(path, |path|);
      && (olen == 0 <==> n == -1)
      && (olen > 0 ==>
            (&& 0 <= n < olen
             && (n == 0 || (n >= 2 && IsDirSep(path[n - 1])))
             && forall j :: 1 <= j < olen && n <= j ==> !IsDirSep(path[j])))
  {
    var olen := StrippedLen(path, |path|);
    StrippedLenMeaning(path, |path|);
    if olen > 0 {
      BaseScanMeaning(path, olen - 1);
    }
  }

  /** worktree_basename: strip trailing separators, then scan back for the
      last one; `name` is where the last component starts and `olen` the
      stripped length, counted from the start of the path. */
  method WorktreeBasename(path: string) returns (name: int, olen: nat)
    requires IsCString(path)
    ensures olen == StrippedLen(path, |path|) && name == BaseStart(path)
  {
    var len: nat := |path|;
    while len > 0 && IsDirSep(path[len - 1])
      invariant len <= |path| && StrippedLen(path, len) == StrippedLen(path, |path|)
    {
      len := len - 1;
    }
    olen := len;
    name := len - 1;
    while name > 0
      invariant name < len && BaseScan(path, name) == BaseScan(path, len - 1)
    {
      if IsDirSep(path[name]) {
        name := name + 1;
        return;
      }
      name := name - 1;
    }
  }

  /** The identifier under worktrees/ add_worktree starts from: the last
      component, up to the stripped length. */
  function WorktreeId(path: string): (r: string)
    requires StrippedLen(path, |path|) > 0
    ensures |r| > 0 && IsSuffix(r, path[..StrippedLen(path, |path|)])
  {
    BaseStartMeaning(path);
    path[BaseStart(path)..StrippedLen(path, |path|)]
  }

  /** The identifier is the path's last component: it does not end in a
      separator, has none past its first character, and the path is what
      comes before it, it, and a run of separators. */
  lemma WorktreeIdMeaning(path: string)
    requires StrippedLen(path, |path|) > 0
    ensures var id := WorktreeId(path);
      && |id| > 0 && !IsDirSep(id[|id| - 1])
      && (forall j :: 1 <= j < |id| ==> !IsDirSep(id[j]))
      && IsSuffix(id, path[..StrippedLen(path, |path|)])
      && forall j :: StrippedLen(path, |path|) <= j < |path| ==> IsDirSep(path[j])
  {
    BaseStartMeaning(path);
    StrippedLenMeaning(path, |path|);
    var n, olen := BaseStart(path), StrippedLen(path, |path|);
    var id := WorktreeId(path);
    forall j | 1 <= j < |id|
      ensures !IsDirSep(id[j])
    {
      assert id[j] == path[n + j];
    }
  }

  // ---------------------------------------------------------------------
  // The default branch of `worktree add <path>`

  /** xstrndup(name, olen) as written: at most `olen` characters from the
      start of the name, stopping at the end of the string.  `olen` counts
      from the start of the path, so trailing separators are kept. */
  function DefaultBranchAsWritten(path: string): (r: string)
    ensures StrippedLen(path, |path|) == 0 ==> r == []
    ensures StrippedLen(path, |path|) > 0 ==> IsPrefix(WorktreeId(path), r)
  {
    var n, olen := BaseStart(path), StrippedLen(path, |path|);
    if olen == 0 then ""
    else
      BaseStartMeaning(path);
      path[n..n + Min(olen, |path| - n)]
  }

  /** The default branch as intended: the last component, as add_worktree
      itself cuts it for the identifier. */
  function DefaultBranch(path: string): (r: string)
    ensures r == [] <==> StrippedLen(path, |path|) == 0
    ensures r == [] || (!IsDirSep(r[|r| - 1]) && forall j :: 1 <= j < |r| ==> !IsDirSep(r[j]))
  {
    if StrippedLen(path, |path|) == 0 then ""
    else
      WorktreeIdMeaning(path);
      WorktreeId(path)
  }

  function Min(a: int, b: int): int { if a <= b then a else b }

  /** As written, "wt/topic/" gives the branch "topic/" where "topic" is
      meant. */
  lemma DefaultBranchKeepsSlash()
    ensures DefaultBranchAsWritten("wt/topic/") == "topic/"
    ensures DefaultBranch("wt/topic/") == "topic"
  {
    var p := "wt/topic/";
    assert StrippedLen(p, 9) == 8 by {
      assert StrippedLen(p, 8) == 8;
    }
    assert BaseScan(p, 2) == 3;
    assert BaseStart(p) == 3;
    assert p[3..9] == "topic/";
    assert p[3..8] == "topic";
  }

  /** The two agree on every path that does not end in a separator, and
      the intended branch never ends in one. */
  lemma DefaultBranchAgrees(path: string)
    ensures |path| > 0 && !IsDirSep(path[|path| - 1]) ==> DefaultBranchAsWritten(path) == DefaultBranch(path)
    ensures DefaultBranch(path) == [] || !IsDirSep(DefaultBranch(path)[|DefaultBranch(path)| - 1])
  {
    if StrippedLen(path, |path|) > 0 {
      WorktreeIdMeaning(path);
      BaseStartMeaning(path);
    }
  }

  // ---------------------------------------------------------------------
  // Option checks of `worktree add`

  /** What `add` goes on to do: create (or with -B reset) a branch from
      `startPoint` if `createBranch` is set, then check out `checkout` in a
      new worktree at `path`. */
  datatype AddPlan = AddPlan(
    path: string, createBranch: Option<string>, forceCreate: bool,
    startPoint: string, checkout: string, detach: bool, force: bool)

  datatype AddOutcome =
    | ExclusiveOptions   // -b, -B and --detach given together
    | Usage              // not one or two arguments
    | Add(plan: AddPlan)

  function B(b: bool): nat { if b then 1 else 0 }

  /** prefix_filename on POSIX (setup.c is not part of this model): an
      absolute argument, or any argument when the command runs at the top
      of the worktree (empty prefix), is kept; otherwise it is taken
      relative to the subdirectory, whose prefix ends in '/'. */
  function PrefixFilename(prefix: string, arg: string): (r: string)
    ensures IsSuffix(arg, r)
    ensures prefix == [] || (|arg| > 0 && arg[0] == '/') ==> r == arg
    ensures r != arg ==> IsPrefix(prefix, r) && |r| == |prefix| + |arg|
  {
    if |prefix| == 0 || (|arg| > 0 && arg[0] == '/') then arg else prefix + arg
  }

  /** The option handling of `add`: -b, -B and --detach exclude each other;
      one or two arguments; the branch defaults to HEAD; -B is -b that may
      reset; with one argument and none of the three, a branch named after
      the path's last component is created.  The path is taken relative
      to `prefix`, the subdirectory the command runs in (None outside a
      repository).  `corrected` selects the intended default branch over
      the one as written. */
  function AddCommand(force: bool, detach: bool, newBranch: Option<string>, newBranchForce: Option<string>,
                      args: seq<string>, prefix: Option<string>, corrected: bool): (r: AddOutcome)
    ensures r == ExclusiveOptions <==> B(detach) + B(newBranch.Some?) + B(newBranchForce.Some?) > 1
    ensures r.Add? ==> 1 <= |args| <= 2 && IsSuffix(args[0], r.plan.path)
    ensures r.Add? && r.plan.createBranch.Some? ==> r.plan.checkout == r.plan.createBranch.value
  {
    if B(detach) + B(newBranch.Some?) + B(newBranchForce.Some?) > 1 then ExclusiveOptions
    else if |args| < 1 || |args| > 2 then Usage
    else
      var path := if prefix.Some? then PrefixFilename(prefix.value, args[0]) else args[0];
      var branch := if |args| < 2 then "HEAD" else args[1];
      var nb :=
        if newBranchForce.Some? then newBranchForce
        else if |args| < 2 && newBranch.None? && !detach then
          Some(if corrected then DefaultBranch(path) else DefaultBranchAsWritten(path))
        else newBranch;
      Add(AddPlan(path, nb, newBranchForce.Some?, branch,
                  if nb.Some? then nb.value else branch, detach, force))
  }

  /** The outcomes of `add`: the exclusive options are refused whatever the
      arguments, then the argument count; -B both creates and may reset; a
      new branch starts at the named commit, or HEAD, and is what is
      checked out; the path is the first argument taken relative to the
      subdirectory; without a branch option that path's last component
      becomes the branch. */
  lemma AddCommandMeaning(force: bool, detach: bool, newBranch: Option<string>, newBranchForce: Option<string>,
                          args: seq<string>, prefix: Option<string>)
    ensures var r := AddCommand(force, detach, newBranch, newBranchForce, args, prefix, true);
      && (r == ExclusiveOptions <==> B(detach) + B(newBranch.Some?) + B(newBranchForce.Some?) > 1)
      && (r == Usage <==> B(detach) + B(newBranch.Some?) + B(newBranchForce.Some?) <= 1 && !(1 <= |args| <= 2))
      && (r.Add? ==>
            && r.plan.path == (if prefix.Some? then PrefixFilename(prefix.value, args[0]) else args[0])
            && r.plan.startPoint == (if |args| == 2 then args[1] else "HEAD")
            && (r.plan.forceCreate <==> newBranchForce.Some?)
            && (newBranchForce.Some? ==> r.plan.createBranch == newBranchForce)
            && (newBranch.Some? ==> r.plan.createBranch == newBranch)
            && (r.plan.createBranch.Some? ==> r.plan.checkout == r.plan.createBranch.value && !r.plan.detach)
            && (r.plan.createBranch.None? ==> r.plan.checkout == r.plan.startPoint)
            && (|args| == 1 && newBranch.None? && newBranchForce.None? && !detach ==>
                  r.plan.createBranch == Some(DefaultBranch(r.plan.path))))
  {
  }

  /** Run from the subdirectory "sub", `worktree add ""` makes the worktree
      at the subdirectory's path and names the new branch after it. */
  lemma AddInSubdirectory()
    ensures var r := AddCommand(false, false, None, None, [""], Some("sub/"), true);
      r.Add? && r.plan.path == "sub/" && r.plan.createBranch == Some("sub")
  {
    var p := "sub/";
    assert StrippedLen(p, 4) == 3 by {
      assert StrippedLen(p, 3) == 3;
    }
    assert BaseScan(p, 2) == 0;
    assert p[0..3] == "sub";
  }

  // ---------------------------------------------------------------------
  // The unique name under worktrees/

  /** The k-th name tried: the base, then base1, base2, ... */
  function Candidate(base: string, k: nat): string
  {
    if k == 0 then base else base + NatToString(k)
  }

  lemma CandidateInjective(base: string, i: nat, j: nat)
    requires Candidate(base, i) == Candidate(base, j)
    ensures i == j
  {
    if i != 0 && j != 0 {
      assert NatToString(i) == Candidate(base, i)[|base|..];
      assert NatToString(j) == Candidate(base, j)[|base|..];
      NatToStringInjective(i, j);
    }
  }

  /** The first `k` names tried. */
  ghost function Tried(base: string, k: nat): (r: set<string>)
  {
    if k == 0 then {} else Tried(base, k - 1) + {Candidate(base, k - 1)}
  }

  lemma {:induction false} TriedMembers(base: string, k: nat)
    ensures forall x :: x in Tried(base, k) <==> exists j :: 0 <= j < k && x == Candidate(base, j)
  {
    if k > 0 {
      TriedMembers(base, k - 1);
    }
  }

  lemma {:induction false} TriedSize(base: string, k: nat)
    ensures |Tried(base, k)| == k
  {
    if k > 0 {
      TriedSize(base, k - 1);
      TriedMembers(base, k - 1);
      if Candidate(base, k - 1) in Tried(base, k - 1) {
        var j :| 0 <= j < k - 1 && Candidate(base, k - 1) == Candidate(base, j);
        CandidateInjective(base, k - 1, j);
      }
    }
  }

  lemma {:induction false} SubsetSize(a: set<string>, b: set<string>)
    requires a <= b
    ensures |a| <= |b|
  {
    if a != {} {
      var x :| x in a;
      SubsetSize(a - {x}, b - {x});
    }
  }

  /** The loop of add_worktree that finds a name for the administrative
      directory: while `base` (then base1, base2, ...) exists, count up.
      `present` is the set of paths stat finds.  The loop ends because only
      finitely many paths exist and no two names tried are the same. */
  method UniqueRepoPath(base: string, present: set<string>) returns (repo: string, counter: nat)
    ensures repo == Candidate(base, counter) && repo !in present
    ensures forall k :: 0 <= k < counter ==> Candidate(base, k) in present
  {
    counter := 0;
    repo := base;
    while repo in present
      invariant repo == Candidate(base, counter)
      invariant Tried(base, counter) <= present
      invariant forall k :: 0 <= k < counter ==> Candidate(base, k) in present
      decreases |present| - counter
    {
      assert Tried(base, counter + 1) <= present;
      TriedSize(base, counter + 1);
      SubsetSize(Tried(base, counter + 1), present);
      counter := counter + 1;
      repo := base + NatToString(counter);
    }
  }

  /** What follows the last '/' of the administrative path: the name the
      new worktree is known by (strrchr(sb_repo.buf, '/') + 1). */
  function AfterLastSlash(s: string): (r: string)
    ensures IsSuffix(r, s) && '/' !in r
    decreases |s|
  {
    if s == [] then []
    else if s[|s| - 1] == '/' then []
    else AfterLastSlash(s[..|s| - 1]) + [s[|s| - 1]]
  }

  /** The identifier of a worktree whose last path component holds no '/'
      is that component, with the counter appended when it is not 0. */
  lemma {:induction false} AfterLastSlashOfCandidate(dir: string, id: string, k: nat)
    requires '/' !in id
    ensures AfterLastSlash(dir + "/" + Candidate(id, k)) == Candidate(id, k)
  {
    var c := Candidate(id, k);
    assert '/' !in c by {
      if k != 0 {
        assert forall i :: 0 <= i < |NatToString(k)| ==> IsDigit(NatToString(k)[i]);
      }
    }
    AfterLastSlashNoSlash(dir + "/", c);
  }

  lemma {:induction false} AfterLastSlashNoSlash(dir: string, c: string)
    requires |dir| > 0 && dir[|dir| - 1] == '/' && '/' !in c
    ensures AfterLastSlash(dir + c) == c
    decreases |c|
  {
    if c == [] {
      assert dir + c == dir;
    } else {
      assert (dir + c)[..|dir + c| - 1] == dir + c[..|c| - 1];
      AfterLastSlashNoSlash(dir, c[..|c| - 1]);
      assert c == c[..|c| - 1] + [c[|c| - 1]];
    }
  }

  // ---------------------------------------------------------------------
  // prune_worktree

  /** The gitdir file of an administrative directory, if stat finds it:
      whether open succeeds, its mtime, and its contents. */
  datatype GitdirFile = GitdirFile(readable: bool, mtime: int, contents: string)

  /** What prune_worktree looks at for worktrees/<id>: whether it is a
      directory, whether "locked" exists in it, its gitdir file, and the
      link count of its "link" file if stat finds one. */
  datatype WorktreeFacts = WorktreeFacts(
    isDir: bool, locked: bool, gitdir: Option<GitdirFile>, linkCount: Option<nat>)

  /** Why a worktree is pruned. */
  datatype PruneReason =
    | NotValidDirectory
    | GitdirMissing
    | GitdirUnreadable
    | GitdirInvalid
    | PointsNowhere

  const ULONG_MAX: nat := 0xFFFF_FFFF_FFFF_FFFF

  /** The end of the path in the gitdir file once trailing '\n' and '\r'
      are dropped. */
  function TrimmedLen(s: string, len: nat): (r: nat)
    requires len <= |s|
    ensures r <= len
    decreases len
  {
    if len > 0 && (s[len - 1] == '\n' || s[len - 1] == '\r') then TrimmedLen(s, len - 1) else len
  }

  lemma {:induction false} TrimmedLenMeaning(s: string, len: nat)
    requires len <= |s|
    ensures forall j :: TrimmedLen(s, len) <= j < len ==> s[j] == '\n' || s[j] == '\r'
    ensures TrimmedLen(s, len) == 0 || (s[TrimmedLen(s, len) - 1] != '\n' && s[TrimmedLen(s, len) - 1] != '\r')
    decreases len
  {
    if len > 0 && (s[len - 1] == '\n' || s[len - 1] == '\r') {
      TrimmedLenMeaning(s, len - 1);
    }
  }

  /** The trim loop of prune_worktree. */
  method TrimGitdir(contents: string) returns (len: nat)
    ensures len == TrimmedLen(contents, |contents|)
  {
    len := |contents|;
    while len > 0 && (contents[len - 1] == '\n' || contents[len - 1] == '\r')
      invariant len <= |contents| && TrimmedLen(contents, len) == TrimmedLen(contents, |contents|)
    {
      len := len - 1;
    }
  }

  /** The C string the trimmed buffer holds: up to its first NUL. */
  function CStringOf(s: string): (r: string)
    ensures IsPrefix(r, s) && IsCString(r)
  {
    match IndexOf(s, '\0', 0)
    case None => s
    case Some(z) => s[..z]
  }

  /** prune_worktree: None keeps the entry, Some(reason) removes it.  A
      negative mtime compares as unsigned against `expire`, as time_t does
      against unsigned long. */
  function PruneWorktree(f: WorktreeFacts, fileExists: string -> bool, expire: nat): (r: Option<PruneReason>)
    ensures r == Some(NotValidDirectory) <==> !f.isDir
    ensures f.isDir && f.locked ==> r.None?
    ensures r == Some(PointsNowhere) ==>
              f.gitdir.Some? && f.gitdir.value.mtime % (ULONG_MAX + 1) <= expire
              && (f.linkCount.None? || f.linkCount.value <= 1)
  {
    if !f.isDir then Some(NotValidDirectory)
    else if f.locked then None
    else if f.gitdir.None? then Some(GitdirMissing)
    else if !f.gitdir.value.readable then Some(GitdirUnreadable)
    else
      var g := f.gitdir.value;
      var len := TrimmedLen(g.contents, |g.contents|);
      if len == 0 then Some(GitdirInvalid)
      else if !fileExists(CStringOf(g.contents[..len])) then
        if f.linkCount.Some? && f.linkCount.value > 1 then None
        else if g.mtime % (ULONG_MAX + 1) <= expire then Some(PointsNowhere)
        else None
      else None
  }

  /** A locked worktree is never pruned, nor one whose gitdir file names a
      path that exists, nor one whose "link" file has another link. */
  lemma PruneKeeps(f: WorktreeFacts, fileExists: string -> bool, expire: nat)
    requires f.isDir
    ensures f.locked ==> PruneWorktree(f, fileExists, expire).None?
    ensures f.gitdir.Some? && f.gitdir.value.readable
            && TrimmedLen(f.gitdir.value.contents, |f.gitdir.value.contents|) > 0
            && fileExists(CStringOf(f.gitdir.value.contents[..TrimmedLen(f.gitdir.value.contents, |f.gitdir.value.contents|)]))
            ==> PruneWorktree(f, fileExists, expire).None?
    ensures f.linkCount.Some? && f.linkCount.value > 1 ==>
              PruneWorktree(f, fileExists, expire) != Some(PointsNowhere)
  {
  }

  /** The rungs of prune_worktree for an unlocked directory: a missing or
      unreadable gitdir file prunes, an empty path in it prunes as invalid,
      and a path that no longer exists prunes, when the "link" file has no
      other link, exactly when the gitdir file is old enough; a path that
      still exists, or a second link, keeps the entry. */
  lemma PruneLadder(f: WorktreeFacts, fileExists: string -> bool, expire: nat)
    requires f.isDir && !f.locked
    ensures f.gitdir.None? ==> PruneWorktree(f, fileExists, expire) == Some(GitdirMissing)
    ensures f.gitdir.Some? && !f.gitdir.value.readable ==>
              PruneWorktree(f, fileExists, expire) == Some(GitdirUnreadable)
    ensures f.gitdir.Some? && f.gitdir.value.readable
            && TrimmedLen(f.gitdir.value.contents, |f.gitdir.value.contents|) == 0
            ==> PruneWorktree(f, fileExists, expire) == Some(GitdirInvalid)
    ensures f.gitdir.Some? && f.gitdir.value.readable
            && TrimmedLen(f.gitdir.value.contents, |f.gitdir.value.contents|) > 0
            && !fileExists(CStringOf(f.gitdir.value.contents[..TrimmedLen(f.gitdir.value.contents, |f.gitdir.value.contents|)]))
            && (f.linkCount.None? || f.linkCount.value <= 1)
            ==> (PruneWorktree(f, fileExists, expire) == Some(PointsNowhere)
                 <==> f.gitdir.value.mtime % (ULONG_MAX + 1) <= expire)
    ensures f.gitdir.Some? && f.gitdir.value.readable
            && TrimmedLen(f.gitdir.value.contents, |f.gitdir.value.contents|) > 0
            && (fileExists(CStringOf(f.gitdir.value.contents[..TrimmedLen(f.gitdir.value.contents, |f.gitdir.value.contents|)]))
                || (f.linkCount.Some? && f.linkCount.value > 1))
            ==> PruneWorktree(f, fileExists, expire).None?
  {
  }

  /** A gitdir file holding only line ends is invalid. */
  lemma PruneBlankGitdir(f: WorktreeFacts, fileExists: string -> bool, expire: nat)
    requires f.isDir && !f.locked && f.gitdir.Some? && f.gitdir.value.readable
    requires forall j :: 0 <= j < |f.gitdir.value.contents| ==>
               f.gitdir.value.contents[j] == '\n' || f.gitdir.value.contents[j] == '\r'
    ensures PruneWorktree(f, fileExists, expire) == Some(GitdirInvalid)
  {
    var s := f.gitdir.value.contents;
    TrimmedLenMeaning(s, |s|);
  }

  /** A later expiry time prunes at least what an earlier one does. */
  lemma PruneMonotone(f: WorktreeFacts, fileExists: string -> bool, e1: nat, e2: nat)
    requires e1 <= e2
    ensures PruneWorktree(f, fileExists, e1).Some? ==> PruneWorktree(f, fileExists, e2).Some?
  {
  }

  /** With the default expiry, ULONG_MAX, a worktree whose target is gone
      and whose "link" file has no other link is always pruned. */
  lemma DefaultExpiryPrunes(f: WorktreeFacts, fileExists: string -> bool)
    requires f.isDir && !f.locked && f.gitdir.Some? && f.gitdir.value.readable
    requires TrimmedLen(f.gitdir.value.contents, |f.gitdir.value.contents|) > 0
    requires !fileExists(CStringOf(f.gitdir.value.contents[..TrimmedLen(f.gitdir.value.contents, |f.gitdir.value.contents|)]))
    requires f.linkCount.None? || f.linkCount.value <= 1
    ensures PruneWorktree(f, fileExists, ULONG_MAX) == Some(PointsNowhere)
  {
  }

  // ---------------------------------------------------------------------
  // remove_junk

  /** The cleanup state of an `add` in progress (is_junk, junk_pid,
      junk_git_dir, junk_work_tree) and the directories removed so far. */
  class Junk {
    var isJunk: bool
    var pid: int
    var gitDir: Option<string>
    var workTree: Option<string>
    var removed: seq<string>

    constructor()
      ensures !isJunk && gitDir.None? && workTree.None? && removed == []
    {
      isJunk := false;
      pid := 0;
      gitDir := None;
      workTree := None;
      removed := [];
    }

    /** junk_pid = getpid(), before the administrative directory is made. */
    method Arm(currentPid: int)
      modifies this`pid
      ensures pid == currentPid
    {
      pid := currentPid;
    }

    /** The administrative directory was made: it is junk until the
        checkout succeeds. */
    method SetGitDir(dir: string)
      modifies this`gitDir, this`isJunk
      ensures gitDir == Some(dir) && isJunk
    {
      gitDir := Some(dir);
      isJunk := true;
    }

    /** The new worktree's directory is junk too. */
    method SetWorkTree(dir: string)
      modifies this`workTree
      ensures workTree == Some(dir)
    {
      workTree := Some(dir);
    }

    /** The checkout succeeded: nothing is junk any more. */
    method Disarm()
      modifies this`isJunk, this`gitDir, this`workTree
      ensures !isJunk && gitDir.None? && workTree.None?
    {
      isJunk := false;
      gitDir := None;
      workTree := None;
    }

    /** remove_junk, run at exit or on a signal by process `currentPid`:
        only the process that started the `add`, and only while something
        is junk, removes the administrative directory, then the worktree. */
    method RemoveJunk(currentPid: int)
      modifies this`removed
      ensures !isJunk || currentPid != pid ==> removed == old(removed)
      ensures isJunk && currentPid == pid ==>
                removed == old(removed)
                  + (if gitDir.Some? then [gitDir.value] else [])
                  + (if workTree.Some? then [workTree.value] else [])
    {
      if !isJunk || currentPid != pid {
        return;
      }
      if gitDir.Some? {
        removed := removed + [gitDir.value];
      }
      if workTree.Some? {
        removed := removed + [workTree.value];
      }
    }
  }

  /** A forked child (another pid) and a finished `add` remove nothing. */
  method JunkGuard(j: Junk, childPid: int)
    requires childPid != j.pid
    modifies j
    ensures j.removed == old(j.removed)
  {
    j.RemoveJunk(childPid);
    j.Disarm();
    j.RemoveJunk(j.pid);
  }
}
